=== FILE: README.md ===
# WHO life-expectancy ETL pipeline, modelled in Dafny

The pipeline pulls the WHO Global Health Observatory indicator
`WHOSIS_000001` (life expectancy at birth) for six Southern African
countries from the GHO OData API, reshapes it with polars, and upserts it
into PostgreSQL. Four stage scripts (database set-up, extract, transform,
load) are launched by a small scheduler built on the `schedule` library,
and a stand-alone requirements checker reports which packages each Python
interpreter has. This project models the logic of those components as pure
Dafny functions over immutable data and proves what they guarantee.

Modules, in dependency order:

- `Common` (common.dfy): `Option`, `Result`, counting and filtering helpers.
- `Text`, `Paths`, `Json` (text.dfy, paths.dfy, json.dfy): the Python string
  operations, the `os.path` operations and the JSON values the code relies on.
- `Walk` (walk.dfy): the `os.walk` pass over `<root>/<dataset>` shared by the
  transformer and the loader.
- `Probe` (probe.dfy): the `ps aux | grep` pattern of `is_task_running`.
- `SchedState`, `Registry`, `Launch`, `RunLog`, `Terminate`, `Scheduler`
  (sched_*.dfy): the scheduler. The host (process table, spawning, `pgrep`,
  signals, clock) is a `World` of oracle functions indexed by a "moment"
  counter that every call advances.
- `Extract` (extract.dfy): the OData `$filter` expression and `get_data`.
- `Psql` (psql.dfy): the CREATE TABLE / ALTER TABLE reconciliation over a
  catalogue of table columns; the server's refusals are an oracle.
- `Transform` (transform.dfy): the data-frame reshaping, staging output, log
  documents and deletion rule; what polars does to single cells is an oracle.
- `Load` (load.dfy): the upsert of staged records into a table, the tally,
  the deletion rule and the log path.
- `Requirements` (requirements.dfy): the requirements checker; `pip show`,
  the interpreters and the virtual environments are parameters.
- `Settings` (settings.dfy): the deployed configuration and what the
  components make of it.

Behaviour of the code that the model keeps as written:

- The frequency map is built once and holds one job per frequency, so
  registering a second task of a frequency replaces the first task's
  handler and appends the same job again. From an empty job list only the
  last declared task of each frequency ends up scheduled
  (`Registry.SharedLayoutScheduled`); with the deployed configuration the
  job list is the weekly job followed by the hourly job three times, all
  three running the load stage, and the extract and transform stages are
  not scheduled (`Settings.DeployedRegistration`).
- The scheduler never loops on `schedule.run_pending()`: `start_scheduler`
  registers the jobs, runs each job-list entry once through
  `schedule.run_all()` and returns. On a quiet host the deployed scheduler
  therefore launches the database set-up twice, the extract and transform
  stages once each and the load stage four times
  (`Settings.DeployedQuietStart`).
- `start_all_tasks` writes no log entry for a task it finds running; only
  `run_task` logs `skip_task` (`Launch.StartAllWhenAllBusy`).
- `run_task` launches `python3 scripts/<name>.py` but probes for
  `python3 <name>.py`, and the wait loop of `stop_scheduler` probes the
  configuration key (`start_extract`), not the script name; even with the
  intended probe neither finds such a process
  (`Probe.PathLaunchMissedByBasenameProbe`, `Probe.KeyProbeMissesScript`).
- `grep -v <own pid>` drops every `pgrep` line that contains the
  scheduler's pid as a substring, so a task whose pid contains it is
  neither stopped nor counted (`Scheduler.OwnPidFilterOverExcludes`).
- `terminate_process` swallows every `OSError`, so the `process_not_found`
  and `permission_denied` branches of `stop_scheduler` are never taken
  (`Scheduler.StopSchedulerReport`).
- The transformer keeps the previous file's frame when a file fails to
  load, then tries to transform that frame again. A transformed frame has
  lower-case names and no `SpatialDim`, so the retry fails and the file is
  kept (`Transform.TransformNotReapplicable`, `Transform.ProcessAllFiles`).
- `rename({c: c.lower()})` raises when two surviving names differ only in
  case; the frame then keeps the new columns and loses the dropped ones
  (`Transform.SpentAfterFailedRename`).
- `save_data` raises for a dataset without configuration; the handler logs
  the error and the run goes on (`Transform.ProcessSingleFile`).
- A transform log document is named after the landing file only, not
  after the moment, so processing a kept landing file again overwrites its
  earlier log document (`Transform.LogNamedAfterInput`).
- A load failure re-raises and ends `process_all_files` at that file
  (`Load.ProcessFiles`).
- The loader's deletion test compares the tally with `len()` of the
  payload, so a loaded single-object file is kept; the whole run deletes
  only files whose load succeeded, but not all of them
  (`Load.ProcessAllFilesAsWritten`).
- `read_requirements` drops only lines whose raw text starts with `#`;
  an indented comment is read as a requirement
  (`Requirements.IndentedCommentKept`).
- A requirement listed twice gets every entry twice, because the result
  dictionary is keyed by requirement (`Requirements.DuplicateRequirementTwice`).

## Model

| member | source | states |
|---|---|---|
| `Probe.AnyLineMatches` | src/elt_integrations_project/scheduler/c_scheduler.py:58-65 | the probe as intended (extended syntax) holds exactly when some `ps aux` line shows `python3 <name>` followed by a space or the line's end; an empty listing (a failing `ps`) gives false |
| `Probe.AsWrittenNeedsLiteralSuffix` | src/elt_integrations_project/scheduler/c_scheduler.py:61 | read as a basic regular expression, the pattern only matches a line that literally contains the five characters of its alternation group: open parenthesis, space, bar, dollar, close parenthesis |
| `Probe.AsWrittenMissesRunningTask` | src/elt_integrations_project/scheduler/c_scheduler.py:61 | the line `python3 start_extract.py` is found by the intended probe and missed by the probe as written |
| `Probe.AnchoredRejectsLongerName` | src/elt_integrations_project/scheduler/c_scheduler.py:61 | the probe for `start_extract` does not match a line running `start_extract_v2` |
| `Probe.KeyProbeMissesScript` | src/elt_integrations_project/scheduler/c_scheduler.py:250-254 | probing a configuration key such as `start_extract` does not find the script `start_extract.py` |
| `Probe.PathLaunchMissedByBasenameProbe` | src/elt_integrations_project/scheduler/c_scheduler.py:67-83 | a script launched by its configured path is not found by the probe for its base name |
| `Registry.CreateTaskRunner` | src/elt_integrations_project/scheduler/c_scheduler.py:115-120 | a job of any frequency holding the runner makes `is_job_scheduled` true for this task and for no other; the runner hands the given path to `run_task` |
| `Registry.HandlerNameInjective` | src/elt_integrations_project/scheduler/c_scheduler.py:119 | two tasks with the same handler name are the same task |
| `Registry.IsJobScheduled` | src/elt_integrations_project/scheduler/c_scheduler.py:32-36 | a task is scheduled exactly when some job's handler carries its handler name |
| `Registry.SharedDoScheduled` | src/elt_integrations_project/scheduler/c_scheduler.py:23-28 | after `do(runner)` on a frequency's one job, a task is scheduled exactly when it is the runner's task or an entry of another frequency runs it: the task the job ran before is no longer scheduled |
| `Registry.ListScheduled` | src/elt_integrations_project/scheduler/c_scheduler.py:38-56 | one status line per declared task, in order, with its frequency (default `hourly`) and `Scheduled` exactly when it is scheduled, `Not scheduled` otherwise; each line is also appended to the log |
| `Registry.RegisterOneEffect` | src/elt_integrations_project/scheduler/c_scheduler.py:132-146 | a step registers exactly a known-frequency task that is not scheduled: it appends one entry and one `schedule_task` entry and schedules the task, and another task stays scheduled exactly when an entry of another frequency runs it; any other step changes nothing |
| `Registry.RegisterAllKeepsShared` | src/elt_integrations_project/scheduler/c_scheduler.py:23-28 | entries of one frequency remain one job through a registration pass |
| `Registry.RegisterAllFromEmpty` | src/elt_integrations_project/scheduler/c_scheduler.py:132-146 | from an empty job list the pass leaves one entry per known-frequency task, in declaration order, each of that task's frequency and running the last declared task of the frequency; it logs one `schedule_task` per known-frequency task and touches nothing else |
| `Registry.SharedLayoutScheduled` | src/elt_integrations_project/scheduler/c_scheduler.py:32-36 | after a pass from an empty job list, a task is scheduled exactly when it is the last declared task of its known frequency |
| `Registry.RegisterAllStable` | src/elt_integrations_project/scheduler/c_scheduler.py:132-146 | a pass over tasks that are all scheduled or of unknown frequency changes nothing |
| `Registry.UnknownFrequencyNotRegistered` | src/elt_integrations_project/scheduler/c_scheduler.py:134-135 | a task whose frequency is not in the frequency map is silently left unscheduled |
| `Registry.PerTaskStepEffect` | src/elt_integrations_project/scheduler/c_scheduler.py:132-146 | intended registration (a job of its own per task): a step appends at most one job, exactly for a known-frequency task not yet scheduled, logs `schedule_task` exactly then, and leaves the task scheduled |
| `Registry.PerTaskKeepsScheduled` | src/elt_integrations_project/scheduler/c_scheduler.py:132-146 | intended registration: a task scheduled before the pass is scheduled after it |
| `Registry.PerTaskSchedulesKnown` | src/elt_integrations_project/scheduler/c_scheduler.py:132-146 | intended registration: after the pass every declared task of a known frequency is scheduled |
| `Registry.PerTaskOnlyAppends` | src/elt_integrations_project/scheduler/c_scheduler.py:132-146 | intended registration: the pass only appends jobs, each for a declared task of known frequency, and changes nothing but the jobs and the log |
| `Registry.PerTaskNoDuplicates` | src/elt_integrations_project/scheduler/c_scheduler.py:132-146 | intended registration: distinct handler names stay distinct |
| `Registry.PerTaskIdempotent` | src/elt_integrations_project/scheduler/c_scheduler.py:132-146 | intended registration: a second pass over the same tasks changes nothing |
| `Registry.PerTaskFresh` | src/elt_integrations_project/scheduler/c_scheduler.py:132-146 | intended registration: with known frequencies, distinct names and nothing scheduled, the pass adds one job per task, in declaration order, each running the declared path |
| `Launch.RunTask` | src/elt_integrations_project/scheduler/c_scheduler.py:67-104 | exactly one log entry for the task's base name: `skip_task` exactly when it is found running (then nothing is launched), otherwise a `start_task` success or failure; a launch happens exactly when a success is logged |
| `Launch.StartAllTasksEffect` | src/elt_integrations_project/scheduler/c_scheduler.py:106-113 | the start-up pass adds at most one `skip_task`/`start_task` entry per task, launches exactly the scripts it logs as started, and touches neither jobs, signals nor log files |
| `Launch.StartAllWhenAllBusy` | src/elt_integrations_project/scheduler/c_scheduler.py:106-113 | when every task is found running, the pass launches nothing and logs nothing |
| `Launch.StartAllOnQuietHost` | src/elt_integrations_project/scheduler/c_scheduler.py:106-113 | on a host with no processes, every declared script is launched in order with one success entry each |
| `Launch.RunAllEffect` | src/elt_integrations_project/scheduler/c_scheduler.py:151 | `schedule.run_all()` adds exactly one `run_task` entry per job, in job order, and launches exactly what it logs as started |
| `Launch.RunAllOnQuietHost` | src/elt_integrations_project/scheduler/c_scheduler.py:151 | on a quiet host every job's script is launched, in job order |
| `RunLog.CreateLogFile` | src/elt_integrations_project/scheduler/c_scheduler.py:286-329 | one file at `<log dir>/scheduler/<date>/<time>.json` holding the status listing, the running tasks (a sub-list of it), the start delay and jobs, and the pending messages followed by the status entries; the messages are then cleared |
| `RunLog.RunningFilterExtremes` | src/elt_integrations_project/scheduler/c_scheduler.py:304-306 | `running_tasks` is empty when no task is ever found running and the whole listing when every task always is |
| `RunLog.LogFilePathParts` | src/elt_integrations_project/scheduler/c_scheduler.py:288-300 | the run log file is named after the time of day inside the per-date directory under `<log dir>/scheduler` |
| `Terminate.TerminateProcess` | src/elt_integrations_project/scheduler/c_scheduler.py:159-170 | the calls made: SIGTERM first, at most ten liveness probes, and SIGKILL exactly when the process survived SIGTERM and all ten probes |
| `Terminate.ProbeLoop` | src/elt_integrations_project/scheduler/c_scheduler.py:163-167 | the probe loop makes the calls of the reference trace: a failing probe ends it, ten live probes are followed by SIGKILL |
| `Terminate.TerminateTraceShape` | src/elt_integrations_project/scheduler/c_scheduler.py:159-170 | SIGTERM first, probes in between, SIGKILL last and only after exactly ten probes that found the process alive |
| `Terminate.NoKillWhenProcessEnds` | src/elt_integrations_project/scheduler/c_scheduler.py:161-170 | a process gone at SIGTERM or at any of the ten probes is never sent SIGKILL |
| `Scheduler.StartScheduler` | src/elt_integrations_project/scheduler/c_scheduler.py:122-128 | the scheduler exits early exactly when the probe finds a `start_scheduler.py` process |
| `Scheduler.AlreadyRunningChangesNothing` | src/elt_integrations_project/scheduler/c_scheduler.py:123-128 | the early exit launches, schedules, signals and writes nothing; its `already_running` message stays unwritten |
| `Scheduler.StartUp` | src/elt_integrations_project/scheduler/c_scheduler.py:130-148 | the start-up pass sends no signal, only adds launches, writes one run log and clears the messages; from an empty job list with distinct names it leaves one entry per known-frequency task, each running the last task of its frequency, and one job per frequency stays one job |
| `Scheduler.StartSchedulerEffect` | src/elt_integrations_project/scheduler/c_scheduler.py:122-157 | a start-up that does not exit early writes two run logs, ends with no pending message, sends no signal, only adds launches, keeps one job per frequency, and from an empty job list with distinct names leaves one entry per known-frequency task running the last task of its frequency |
| `Scheduler.FirstRun` | src/elt_integrations_project/scheduler/c_scheduler.py:150-157 | the first run keeps the jobs, sends no signal and writes one more run log |
| `Scheduler.FirstRunLog` | src/elt_integrations_project/scheduler/c_scheduler.py:150-157 | the second run log holds the pending messages, one `run_task` entry per job in job order, then `scheduler_finished` |
| `Scheduler.QuietStartupLaunches` | src/elt_integrations_project/scheduler/c_scheduler.py:122-151 | on a quiet host a first start-up from an empty job list does not exit early, leaves one entry per known-frequency task running the last task of its frequency, and launches every declared script in declaration order followed by each entry's script in job order |
| `Scheduler.SurvivingPids` | src/elt_integrations_project/scheduler/c_scheduler.py:187-194 | the pids kept by `grep -v <own pid>` are exactly the listed pids whose text does not contain the scheduler's pid |
| `Scheduler.OwnPidFilterOverExcludes` | src/elt_integrations_project/scheduler/c_scheduler.py:189 | with the scheduler as pid 12, the task process 312 is filtered out |
| `Scheduler.StopPids` | src/elt_integrations_project/scheduler/c_scheduler.py:196-210 | every listed pid is logged as a `stop_task` success, in order; signals are only added, and only to listed pids |
| `Scheduler.StopOne` | src/elt_integrations_project/scheduler/c_scheduler.py:183-247 | one task of the stop loop only appends stop entries, the tally counts exactly them, at most one failure, and the own pid is never signalled |
| `Scheduler.StopOneListing` | src/elt_integrations_project/scheduler/c_scheduler.py:183-247 | a task counts as one failure exactly when its `pgrep` listing is empty after the own-pid filter, and otherwise as one stop per surviving pid; it logs `not_running` or one success per surviving pid |
| `Scheduler.StopOneSignals` | src/elt_integrations_project/scheduler/c_scheduler.py:196-210 | the signals one task sends are the `terminate_process` calls for each surviving pid in turn, starting just after the listing |
| `Scheduler.StopOneNoPids` | src/elt_integrations_project/scheduler/c_scheduler.py:236-247 | when `pgrep` lists nothing for the task, it is logged `not_running` and counted as one failure, with no signal |
| `Scheduler.StopAll` | src/elt_integrations_project/scheduler/c_scheduler.py:183-247 | the stop loop's tally counts exactly its success and `not_running` entries, at most one failure per task, and never signals the own pid |
| `Scheduler.StopAllListings` | src/elt_integrations_project/scheduler/c_scheduler.py:183-247 | with the listings taken in declaration order, each after the previous task's terminations, the tally adds the number of surviving pids as stopped and the number of empty listings as failed, and the log adds each task's entries in order |
| `Scheduler.StopAllSignals` | src/elt_integrations_project/scheduler/c_scheduler.py:183-247 | the stop loop's signals are the `terminate_process` calls of every surviving pid, task by task and pid by pid |
| `Scheduler.StopAllWithNoProcesses` | src/elt_integrations_project/scheduler/c_scheduler.py:183-247 | when `pgrep` lists nothing, every task is logged `not_running`, in order, no signal is sent, and the tally is (0, number of tasks) |
| `Scheduler.AnyRunning` | src/elt_integrations_project/scheduler/c_scheduler.py:251-254 | `any(...)` holds exactly when some listed task is found running, probing in order and stopping at the first hit |
| `Scheduler.PollOnce` | src/elt_integrations_project/scheduler/c_scheduler.py:251-254 | one poll appends one status entry per declared task, changes nothing else, and finds a task running exactly when one of the probes, made in order from the poll's moment, does |
| `Scheduler.WaitLoop` | src/elt_integrations_project/scheduler/c_scheduler.py:249-259 | the wait loop only appends status entries and changes nothing else |
| `Scheduler.WaitLoopPolls` | src/elt_integrations_project/scheduler/c_scheduler.py:249-259 | the loop polls at most `rounds` times and at least once; every poll but the last found a task running; it stops before `rounds` polls only at a poll that found none; each poll lists every task |
| `Scheduler.WaitLoopSingleRound` | src/elt_integrations_project/scheduler/c_scheduler.py:249-256 | when no task is found running the loop polls once |
| `Scheduler.StopSchedulerReport` | src/elt_integrations_project/scheduler/c_scheduler.py:172-284 | the run log written holds the `finished` tally, which counts exactly the stop loop's success and `not_running` entries, at most one failure per task, no signal to the own pid |
| `Scheduler.StopSchedulerListings` | src/elt_integrations_project/scheduler/c_scheduler.py:172-247 | the reported tally is (surviving pids, tasks with an empty listing) over the per-task listings in declaration order, and the signals sent are exactly the `terminate_process` calls for those pids |
| `Extract.GetData` | src/elt_integrations_project/extract/c_extract_data.py:40-85 | unknown or empty indicator: no request; a request exactly when a `code` is present, to the base URL followed directly by the code, with the headers and one `$filter`; a transport error or a status other than 200 fails with its message, or with the status and text, before any file is opened; on 200 the landing file `<out>/<key>/<date>/<HHMM>.json` is opened, and the body is saved there exactly when it decodes, otherwise the decoding error is raised and the file stays empty |
| `Extract.QuotedValuesRoundTrip` | src/elt_integrations_project/extract/c_extract_data.py:23-38 | for quote-free keys and values, the quoted stretches of the filter expression are every filter value, in order |
| `Extract.ParenthesisedIffSeveral` | src/elt_integrations_project/extract/c_extract_data.py:29-33 | a list clause is parenthesised exactly when it has more than one value; one value gives `key eq 'v'`, none the empty text |
| `Extract.FilterQueryAppend` | src/elt_integrations_project/extract/c_extract_data.py:36-38 | the expression of two filter lists is their expressions joined by ` and ` |
| `Extract.FilterQueryOfOne` | src/elt_integrations_project/extract/c_extract_data.py:27-38 | no filters give the empty text; one filter gives its clause |
| `Extract.SavedFileLocation` | src/elt_integrations_project/extract/c_extract_data.py:67-78 | the saved file is `<HHMM>.json` inside the per-date directory of the indicator |
| `Psql.CreateTableSqlReadsBack` | src/elt_integrations_project/database/c_psql.py:81-86 | the CREATE TABLE statement names the table and its column list reads back as the declared names in order |
| `Psql.CreateTableEffect` | src/elt_integrations_project/database/c_psql.py:84-91 | `CREATE TABLE IF NOT EXISTS` leaves an existing table alone, gives a new one the declared columns, and fails on a repeated name |
| `Psql.AddColumnEffect` | src/elt_integrations_project/database/c_psql.py:119-124 | `ADD COLUMN` appends the column, and fails on a missing table or an existing column |
| `Psql.MissingColumns` | src/elt_integrations_project/database/c_psql.py:114-118 | the declared columns whose names the table lacks, and only those |
| `Psql.AddMissing` | src/elt_integrations_project/database/c_psql.py:117-130 | the ALTER loop only adds columns to its table, and a failure is logged at ERROR as the last entry |
| `Psql.AlterTableForSchema` | src/elt_integrations_project/database/c_psql.py:98-130 | only a missing dataset or schema raises; otherwise tables only grow and other tables are untouched |
| `Psql.CreateTableFromSchema` | src/elt_integrations_project/database/c_psql.py:72-96 | a failing CREATE is logged at ERROR and leaves the catalogue as it was; otherwise at least one entry is logged and only the dataset's table changes |
| `Psql.CreateAllTablesFails` | src/elt_integrations_project/database/c_psql.py:152-158 | the pass raises exactly when some configured dataset has no schema |
| `Psql.CreateAllTables` | src/elt_integrations_project/database/c_psql.py:152-158 | the pooled connection is returned however the pass ends; tables only grow |
| `Psql.AddMissingExact` | src/elt_integrations_project/database/c_psql.py:117-127 | on a healthy server the loop adds exactly the missing declared columns, after the existing ones, in declaration order, one log entry each |
| `Psql.NothingMissingNoAlter` | src/elt_integrations_project/database/c_psql.py:117-118 | a table that has every declared column gets no ALTER and no log entry |
| `Psql.AlterAddsMissing` | src/elt_integrations_project/database/c_psql.py:98-127 | on a healthy server an existing table ends with its old columns followed by the missing declared ones |
| `Psql.AlterCompletesTable` | src/elt_integrations_project/database/c_psql.py:98-127 | on a healthy server an existing table ends with every declared column |
| `Psql.AlterRerunChangesNothing` | src/elt_integrations_project/database/c_psql.py:98-127 | reconciling a complete table again changes and logs nothing |
| `Psql.CreateGivesDeclaredColumns` | src/elt_integrations_project/database/c_psql.py:72-96 | on a healthy server the table ends with every declared column, whether or not it existed |
| `Psql.CreateAllCompletes` | src/elt_integrations_project/database/c_psql.py:152-158 | on a healthy server every configured table ends with every column its schema declares |
| `Transform.GetDataFile` | src/elt_integrations_project/transform/c_transform_data.py:72-88 | a frame exactly when the file decodes to an object with a non-empty `value` that polars accepts; any failure keeps the previous frame |
| `Transform.MapCells` | src/elt_integrations_project/transform/c_transform_data.py:95-112 | a cast succeeds exactly when every cell converts, cell by cell |
| `Transform.SetColumn` | src/elt_integrations_project/transform/c_transform_data.py:95-112 | `with_columns` replaces a column of the same name in place and appends a new one |
| `Transform.SetColumnsLookup` | src/elt_integrations_project/transform/c_transform_data.py:95-112 | after `with_columns`, a column not produced is as it was and each produced column holds its new cells |
| `Transform.WithColumns` | src/elt_integrations_project/transform/c_transform_data.py:95-112 | `with_columns` succeeds exactly when the source columns are present and every conversion succeeds |
| `Transform.DropListed` | src/elt_integrations_project/transform/c_transform_data.py:114-128 | the dropped frame has exactly the names not listed, still distinct |
| `Transform.RenameLower` | src/elt_integrations_project/transform/c_transform_data.py:130-132 | the rename fails exactly when two columns' names agree once lower-cased; otherwise column i keeps its cells under the lower-cased name, and the new names are distinct |
| `Transform.TransformData` | src/elt_integrations_project/transform/c_transform_data.py:90-138 | no frame gives nothing; a frame without the source columns is returned as failure and kept; a result becomes the transformer's frame |
| `Transform.TransformSucceeds` | src/elt_integrations_project/transform/c_transform_data.py:90-138 | the transformation succeeds exactly when the source columns are present, every conversion succeeds and no two surviving names differ only in case |
| `Transform.TransformNames` | src/elt_integrations_project/transform/c_transform_data.py:90-138 | the result's names are distinct and lower-case, include `country`, `sex` and `transformed_epoch`, and none of the dropped names |
| `Transform.TransformKeeps` | src/elt_integrations_project/transform/c_transform_data.py:90-138 | the result's names are exactly the lower-case forms of the surviving names |
| `Transform.TransformCells` | src/elt_integrations_project/transform/c_transform_data.py:95-112 | `country` copies `SpatialDim`, `sex` copies `Dim1`, `transformed_epoch` holds the epoch in every row, `numericvalue` the converted `NumericValue` |
| `Transform.TransformCarries` | src/elt_integrations_project/transform/c_transform_data.py:90-138 | a column neither produced nor dropped reaches the result unchanged under its lower-case name |
| `Transform.TransformNotReapplicable` | src/elt_integrations_project/transform/c_transform_data.py:90-138 | a transformed frame cannot be transformed again |
| `Transform.TransformLeavesSpent` | src/elt_integrations_project/transform/c_transform_data.py:90-138 | whatever happens, the frame left behind is one the transformation fails on |
| `Transform.StagingMirrorsLanding` | src/elt_integrations_project/transform/c_transform_data.py:147-156 | a landing file `d/name` is staged as `d/<HHMM>.json` below the staging root |
| `Transform.LogNamedAfterInput` | src/elt_integrations_project/transform/c_transform_data.py:171-181 | the log of landing file `d/stem.json` is `stem.json` in directory `d` below `<log root>/transform` |
| `Transform.ProcessSingleFile` | src/elt_integrations_project/transform/c_transform_data.py:38-70 | one log document per file; success exactly when the frame is transformed and saved, then the staged output and schema are recorded and the landing file deleted; otherwise it is kept |
| `Transform.ProcessFiles` | src/elt_integrations_project/transform/c_transform_data.py:23-36 | one log document per file in order; no failure stops the run |
| `Transform.ProcessFilesDeletes` | src/elt_integrations_project/transform/c_transform_data.py:23-70 | the deleted landing files are exactly those whose log reports success, in order |
| `Transform.ProcessAllFiles` | src/elt_integrations_project/transform/c_transform_data.py:23-36 | every `.json` landing file of every configured dataset gets one log in walk order; a file that yields no frame is never deleted |
| `Load.UpsertOne` | src/elt_integrations_project/load/c_load_data.py:80-101 | a record fails exactly when it is not an object, has no `id`, the table is missing or the server refuses its UPDATE (id present) or INSERT (id absent) against the table as it stands; on success the table is the one the record's store leaves |
| `Load.UpsertOneEffect` | src/elt_integrations_project/load/c_load_data.py:84-101 | a stored record changes exactly the row of its `id`, which then holds each of its columns |
| `Load.UpsertAll` | src/elt_integrations_project/load/c_load_data.py:80-101 | the batch succeeds exactly when every record can be stored into the table the records before it leave; on success the table is the records stored in order, the tally adds one per record, none skipped, and new ids equal the inserted count |
| `Load.AllStorableEach` | src/elt_integrations_project/load/c_load_data.py:80-101 | the batch is storable exactly when each record passes the server's check against the table as the earlier records left it |
| `Load.StoreAllIds` | src/elt_integrations_project/load/c_load_data.py:84-101 | storing records leaves the old ids and the records' ids |
| `Load.StoreAllLastWins` | src/elt_integrations_project/load/c_load_data.py:84-101 | storing records, the last record with an id decides each column it carries |
| `Load.UpsertAllKeepsOthers` | src/elt_integrations_project/load/c_load_data.py:80-101 | rows of ids no record carries are unchanged |
| `Load.UpsertAllIds` | src/elt_integrations_project/load/c_load_data.py:80-101 | afterwards the ids are the old ids plus the records' ids |
| `Load.UpsertAllLastWins` | src/elt_integrations_project/load/c_load_data.py:80-101 | the last record with an id decides each column it carries |
| `Load.InsertJsonData` | src/elt_integrations_project/load/c_load_data.py:69-113 | success exactly when the connection opens and every record can be stored into the table as the earlier records left it; the table is then the records stored in order; a failure rolls the whole batch back; only the dataset's table changes |
| `Load.MissingTableOnlyForEmptyBatch` | src/elt_integrations_project/load/c_load_data.py:84-86 | a non-empty batch into a missing table fails |
| `Load.InsertJsonDataStoresRecords` | src/elt_integrations_project/load/c_load_data.py:69-105 | after success every record's columns are in the table, the last record with an id winning |
| `Load.ReloadMeetsUpdate` | src/elt_integrations_project/load/c_load_data.py:85-100 | with a server that refuses every UPDATE, `[{"id": 1}]` loads into an empty table and fails when loaded again |
| `Load.LoadLogPathOfStagedFile` | src/elt_integrations_project/load/c_load_data.py:115-126 | a staged file `<staging>/<dataset>/<name>` is logged at `<log dir>/load/<dataset>/<HHMM>.json` |
| `Load.ProcessFile` | src/elt_integrations_project/load/c_load_data.py:42-67 | read, load, one log document, and deletion exactly when the load succeeded and the deletion test holds |
| `Load.ProcessSingleFileAsWritten` | src/elt_integrations_project/load/c_load_data.py:54-57 | as written, a loaded file is deleted exactly when the payload is a list or an object with a single key |
| `Load.LenTallyOfLoadedPayload` | src/elt_integrations_project/load/c_load_data.py:54-57 | for a loaded payload, the tally equals `len()` exactly for a list or a one-key object |
| `Load.ObjectFileKept` | src/elt_integrations_project/load/c_load_data.py:54-57 | the file `{"id": 1, "x": 2}` loads but is not deleted |
| `Load.LoadedPayloadShape` | src/elt_integrations_project/load/c_load_data.py:73-101 | a payload that loads is a list or an object, and the tally is its number of records |
| `Load.ProcessSingleFile` | src/elt_integrations_project/load/c_load_data.py:42-67 | with the intended test, a file is deleted exactly when its load succeeded; a failure leaves the database as it was |
| `Load.ProcessFiles` | src/elt_integrations_project/load/c_load_data.py:27-40 | one log per file in order until the first failure, which ends the run after its failure log |
| `Load.ProcessFilesDeletesSucceeded` | src/elt_integrations_project/load/c_load_data.py:27-67 | a run deletes only staging files whose log reports success, in order |
| `Load.ProcessFilesDeletes` | src/elt_integrations_project/load/c_load_data.py:27-67 | with a step that deletes exactly on success, the deleted staging files are exactly those whose log reports success, in order |
| `Load.ProcessAllFilesAsWritten` | src/elt_integrations_project/load/c_load_data.py:27-67 | as written, the log documents name the `.json` staging files in walk order, one each; a failure ends the run after its failure log; with no failure every candidate is logged; the deleted files are some of the successful ones, in order |
| `Load.ProcessAllFiles` | src/elt_integrations_project/load/c_load_data.py:27-67 | with the intended deletion test, the log documents name the `.json` staging files in walk order, one each; a failure ends the run after its failure log; with no failure every candidate is logged; the deleted files are exactly the successful ones |
| `Walk.Candidates` | src/elt_integrations_project/load/c_load_data.py:28-39 | the visited files belong to configured datasets and end in `.json` |
| `Requirements.RequirementLines` | utils/advanced_requirements_checker.py:48-51 | exactly the stripped lines that are not blank and do not start with `#`, in order, none empty |
| `Requirements.RequirementLinesAppend` | utils/advanced_requirements_checker.py:48-51 | reading a file in two parts reads each part's requirements in turn |
| `Requirements.RequirementsStripped` | utils/advanced_requirements_checker.py:51 | no requirement starts or ends with white space |
| `Requirements.IndentedCommentKept` | utils/advanced_requirements_checker.py:51 | ` # pinned` is read as the requirement `# pinned` |
| `Requirements.CommentDropped` | utils/advanced_requirements_checker.py:51 | a line starting with `#` is not a requirement |
| `Requirements.ShowVersion` | utils/advanced_requirements_checker.py:57 | the version is the second `": "` field of the first `Version: ` line, or `Unknown` when there is none |
| `Requirements.ShowVersionReadsField` | utils/advanced_requirements_checker.py:57 | output whose first `Version: ` line carries `v` yields `v`, whatever the other lines say |
| `Requirements.SystemEntryLabel` | utils/advanced_requirements_checker.py:67-71 | a system entry reads `Python <v>: <version>` or `Python <v>: Not installed` |
| `Requirements.VenvEntryLabel` | utils/advanced_requirements_checker.py:74-79 | a virtual-environment entry runs `<venv>/bin/python` and reads `<venv>: <version>` or `<venv>: Not installed` |
| `Requirements.CheckPackages` | utils/advanced_requirements_checker.py:62-82 | the result has one key per requirement and no other |
| `Requirements.CheckPackagesAt` | utils/advanced_requirements_checker.py:62-82 | under each requirement, per interpreter and then per virtual environment with an interpreter, one entry per time it is listed |
| `Requirements.CheckPackagesDistinct` | utils/advanced_requirements_checker.py:62-82 | a requirement listed once has one entry per interpreter and one per virtual environment with an interpreter |
| `Requirements.DuplicateRequirementTwice` | utils/advanced_requirements_checker.py:64-71 | a requirement listed twice gets each entry twice |
| `Requirements.RunChecker` | utils/advanced_requirements_checker.py:97-107 | a report exactly for one argument naming an existing file that can be read, keyed by its requirements; exit 1 with the usage or file-not-found message; an existing file that cannot be read ends with the uncaught error |
| `Settings.SpatialFilterQuery` | config/config.py:34-43 | the configured filter becomes `(SpatialDim eq 'ZAF' or ... or SpatialDim eq 'LSO')` |
| `Settings.LifeExpectancyRequest` | config/config.py:5-6 | extracting the configured dataset requests `<base URL>WHOSIS_000001` with the JSON header and the country filter |
| `Settings.ScheduleRules` | config/config.py:74-91 | the start delay is 5 s, the database set-up runs weekly and the three stages hourly |
| `Settings.JobsRegistrable` | config/config.py:76-91 | the configured jobs have known frequencies and distinct names |
| `Settings.DeployedLayout` | config/config.py:76-91 | the only job list a registration pass from an empty list can leave for the configured jobs is the weekly job followed by the hourly job three times, running the load stage |
| `Settings.DeployedRegistration` | config/config.py:76-91 | registering the configured jobs from an empty list leaves that job list: the database set-up and the load stage are scheduled, the extract and transform stages are not |
| `Settings.DeployedPerTask` | config/config.py:76-91 | with a job of its own per task, the same pass schedules all four configured jobs, in order, each running its script |
| `Settings.DeployedQuietStart` | config/config.py:76-91 | on a quiet host the first start-up launches the database set-up, extract, transform and load stages, then the database set-up once and the load stage three times |
| `Settings.StagingSchemaDistinct` | config/config.py:46-68 | the staging schema declares nineteen distinct column names |
| `Settings.StagingNamesDistinct` | config/config.py:46-68 | no two staging column names coincide |
| `Settings.StagingTableComplete` | config/config.py:46-68 | on a healthy server the database set-up leaves the staging table with all nineteen columns |

## Left out

- `c_psql.create_database_if_not_exists`, `create_connection_pool` and `save_logs`: server administration and file output; the pool is modelled only as a count of checked-out connections.
- PostgreSQL itself: a refusal for a bad type name, a lost connection or missing privileges is an oracle of the server; a table is a map from `id` to columns. Ids are compared as JSON values, with no coercion to the `SERIAL` column's type, so `1` and `"1"` are two rows in the model where PostgreSQL casts the parameter and finds one.
- The command line of `c_scheduler.py` (`stop` as first argument runs `stop_scheduler`, anything else `start_scheduler`): a two-way choice between the entry points, which are modelled as `Scheduler.StopScheduler` and `Scheduler.StartScheduler`.
- polars: building a frame from records, casts and date parsing and formatting are oracles on single cells; `to_dicts()` and the schema's string form are a frame and its column names.
- `Text.Lower`: lower-cases ASCII letters only; Python's `str.lower()` also folds other alphabets.
- Timestamps: `datetime.now()` is a parameter, and `isoformat()` timestamps written into log documents are not modelled.
- `RunLog.CreateLogFile`: takes date and time from one clock reading; the source reads the clock twice, which differs only at midnight.
- `os.makedirs`, `os.remove` and writing log documents are assumed to succeed; a failure there would raise out of the handlers.
- Colours and console output (`print`, `colorama`), and `print_results` of the requirements checker.
- `get_python_versions` and `get_virtual_env_paths`: probing interpreters and listing directories are parameters of `Requirements.RunChecker`.
- `check_package`: only a failing `pip show` is modelled; a missing interpreter (`FileNotFoundError`) is not caught in the source and is not modelled.
- Universal-newline translation when reading the requirements file: lines split on `\n` only.
- `BACKUP_CONFIG` and `PSQL_SERVER_PARAMS`: used by tools outside this model.
- `terminate_process`: the 0.1-second sleeps are not modelled; the moment of each call is the ordering.
- `Scheduler.WaitLoop`: `time.sleep` and the 60-second timeout become a `rounds` parameter, the number of polls that fit.
- `Scheduler.StopScheduler`: has no contract of its own; `Scheduler.StopSchedulerReport` states its properties.
- The `process_not_found` and `permission_denied` branches of `stop_scheduler` are not modelled: `terminate_process` swallows every `OSError`, so they cannot be reached.
- The `schedule` library's timing (when a recurring job is next due) is not modelled: the scheduler registers jobs and runs them once, and never waits for the next occurrence.
- `start_extract.py` and the other launcher scripts: thin wrappers that call the modelled components.
- `SchedState.Running`: is the probe as intended (extended syntax). As written, the basic-syntax pattern never matches a plain `python3 <name>` line (see Findings), so the program as written never exits early, never logs `skip_task` and always writes an empty `running_tasks`; those consequences are not modelled.
- `Scheduler.StartScheduler`: exits early when the intended probe finds a running scheduler; as written the probe never finds one, so the program never exits early.
- `Probe.AnyLineMatches`: states the intended probe, not the pattern as written; the pattern as written is covered by `Probe.AsWrittenNeedsLiteralSuffix`.
- `Load.UpsertOne`: the `skipped` branch (an UPDATE that matches no row after the SELECT found one) is not modelled; it needs another writer to remove the row in between, and the model's server has no other writer.
- `Load.UpsertAll`: "none skipped" holds only because the `skipped` branch is not modelled (see `Load.UpsertOne`).
- `Load.InsertJsonData`: the server's refusal depends on the table being written, its rows and the statement (UPDATE or INSERT), but not on other tables or on earlier transactions' locks.
- `JsonValue.Json`: a float is held as the exact real it denotes; binary rounding, `NaN` and infinities are not modelled, and an integer and an equal float are different values, where Python treats `1 == 1.0`.
- `SchedState.TaskDecl`: every configured job has a `path`; the source reads it with `config.get("path")`, and a job without one makes `os.path.basename(None)` raise in `start_all_tasks` and `stop_scheduler`, which the model does not cover.
- `Extract.GetData`: what the landing file holds after a body that does not decode is not modelled beyond its being opened; the deployed configuration always has a `code`.

## Findings

| source | as written | input that shows it | evidently intended | confidence | as-written member | corrected member |
|---|---|---|---|---|---|---|
| src/elt_integrations_project/scheduler/c_scheduler.py:61 | the `grep` pattern is a basic regular expression, so its trailing group (space or end of line) is five literal characters | `ps aux` line `python3 start_extract.py` | the task name followed by a space or the end of the line (extended syntax) | high; not executed | `Probe.AsWrittenMissesRunningTask` | `Probe.AnyLineMatches` |
| src/elt_integrations_project/scheduler/c_scheduler.py:23-28 | the frequency map holds one job per frequency, so `do` for a second task of a frequency replaces the first task's handler and appends the same job again | the deployed jobs (one weekly, three hourly tasks) from an empty job list: only `start_psql` and `start_load` end up scheduled | a job of its own per task, so every task of a known frequency is scheduled | high; not executed | `Settings.DeployedRegistration` | `Settings.DeployedPerTask` |
| src/elt_integrations_project/load/c_load_data.py:54-57 | the tally is compared with `len(json_data)`, which for a single object is its number of keys | staging file `{"id": 1, "x": 2}` into an existing table | delete the file when every record was processed | high; not executed | `Load.ObjectFileKept` | `Load.ProcessSingleFile` |

=== FILE: common.dfy ===
/** Small shared vocabulary: optional values, results, and a few sequence
    functions (filter, count, subsequence) used by every component. */
module Common {

  /** A value that may be absent (Python's `None`). */
  datatype Option<+T> = None | Some(value: T) {
    function GetOr(default: T): T {
      match this
      case Some(v) => v
      case None => default
    }
  }

  /** The outcome of an operation that may raise: `Err` carries the exception. */
  datatype Result<+T, +E> = Ok(value: T) | Err(error: E)

  /** A clock reading as the pipeline formats it for file and directory
      names: the date as `%Y%m%d` and the time of day (`%H%M` or
      `%H%M%S`, depending on the component). */
  datatype Stamp = Stamp(date: string, time: string)

  /** The elements of `s` that satisfy `keep`, in their original order. */
  function Filter<T>(s: seq<T>, keep: T -> bool): (r: seq<T>)
    ensures |r| <= |s|
    ensures forall i :: 0 <= i < |r| ==> r[i] in s && keep(r[i])
    ensures forall i :: 0 <= i < |s| && keep(s[i]) ==> s[i] in r
  {
    if |s| == 0 then []
    else if keep(s[0]) then [s[0]] + Filter(s[1..], keep)
    else Filter(s[1..], keep)
  }

  /** Number of occurrences of `x` in `s`. */
  function Count<T(==)>(s: seq<T>, x: T): nat
  {
    if |s| == 0 then 0
    else (if s[0] == x then 1 else 0) + Count(s[1..], x)
  }

  /** Number of elements of `s` that satisfy `p`. */
  function CountIf<T>(s: seq<T>, p: T -> bool): (n: nat)
    ensures n <= |s|
  {
    if |s| == 0 then 0
    else (if p(s[0]) then 1 else 0) + CountIf(s[1..], p)
  }

  /** `a` is obtained from `b` by deleting zero or more elements. */
  predicate IsSubsequence<T(==)>(a: seq<T>, b: seq<T>)
    decreases |b|
  {
    if |a| == 0 then true
    else if |b| == 0 then false
    else if a[0] == b[0] then IsSubsequence(a[1..], b[1..])
    else IsSubsequence(a, b[1..])
  }

  /** Elements are pairwise distinct. */
  predicate Distinct<T(==)>(s: seq<T>)
  {
    forall i, j :: 0 <= i < j < |s| ==> s[i] != s[j]
  }

  lemma AppendAssoc<T>(a: seq<T>, b: seq<T>, c: seq<T>)
    ensures (a + b) + c == a + (b + c)
  {
  }

  /** A suffix that starts inside the sequence is its first element
      followed by the rest. */
  lemma SuffixCons<T>(s: seq<T>, n: nat)
    requires n < |s|
    ensures s[n..] == [s[n]] + s[n + 1..]
  {
  }

  /** What a sequence gained over a prefix of a prefix is what it gained
      in two steps. */
  lemma SuffixSplit<T>(a: seq<T>, b: seq<T>, c: seq<T>)
    requires a <= b <= c
    ensures c[|a|..] == b[|a|..] + c[|b|..]
  {
  }

  lemma {:induction false} CountAppend<T>(a: seq<T>, b: seq<T>, x: T)
    ensures Count(a + b, x) == Count(a, x) + Count(b, x)
  {
    if |a| == 0 {
      assert a + b == b;
    } else {
      assert (a + b)[1..] == a[1..] + b;
      CountAppend(a[1..], b, x);
    }
  }

  lemma {:induction false} CountIfAppend<T>(a: seq<T>, b: seq<T>, p: T -> bool)
    ensures CountIf(a + b, p) == CountIf(a, p) + CountIf(b, p)
  {
    if |a| == 0 {
      assert a + b == b;
    } else {
      assert (a + b)[1..] == a[1..] + b;
      CountIfAppend(a[1..], b, p);
    }
  }

  lemma {:induction false} CountAbsent<T>(s: seq<T>, x: T)
    requires x !in s
    ensures Count(s, x) == 0
  {
    if |s| > 0 {
      CountAbsent(s[1..], x);
    }
  }

  /** A filtered sequence keeps the order of the original. */
  lemma {:induction false} FilterIsSubsequence<T>(s: seq<T>, keep: T -> bool)
    ensures IsSubsequence(Filter(s, keep), s)
  {
    if |s| > 0 {
      FilterIsSubsequence(s[1..], keep);
      if !keep(s[0]) {
        SubsequenceOfTail(Filter(s[1..], keep), s);
      }
    }
  }

  lemma {:induction false} SubsequenceOfTail<T>(a: seq<T>, b: seq<T>)
    requires |b| > 0 && IsSubsequence(a, b[1..])
    ensures IsSubsequence(a, b)
    decreases |b|, 0
  {
    if |a| > 0 && a[0] == b[0] {
      SubsequenceDropHead(a, b[1..]);
    }
  }

  lemma {:induction false} SubsequenceDropHead<T>(a: seq<T>, b: seq<T>)
    requires |a| > 0 && IsSubsequence(a, b)
    ensures IsSubsequence(a[1..], b)
    decreases |b|, 1
  {
    if a[0] == b[0] {
      SubsequenceOfTail(a[1..], b);
    } else {
      SubsequenceDropHead(a, b[1..]);
      SubsequenceOfTail(a[1..], b);
    }
  }

  /** Filtering keeps a sequence whose every element is kept. */
  lemma {:induction false} FilterAll<T>(s: seq<T>, keep: T -> bool)
    requires forall i :: 0 <= i < |s| ==> keep(s[i])
    ensures Filter(s, keep) == s
  {
    if |s| > 0 {
      FilterAll(s[1..], keep);
    }
  }

  lemma {:induction false} FilterAppend<T>(a: seq<T>, b: seq<T>, keep: T -> bool)
    ensures Filter(a + b, keep) == Filter(a, keep) + Filter(b, keep)
  {
    if |a| == 0 {
      assert a + b == b;
    } else {
      assert (a + b)[1..] == a[1..] + b;
      FilterAppend(a[1..], b, keep);
    }
  }

  /** A sequence with a new first element is distinct exactly when the
      element is new and the rest is distinct. */
  lemma DistinctCons<T>(x: T, s: seq<T>)
    ensures Distinct([x] + s) <==> x !in s && Distinct(s)
  {
    var t := [x] + s;
    if x !in s && Distinct(s) {
      forall i, j | 0 <= i < j < |t|
        ensures t[i] != t[j]
      {
        if i > 0 { assert t[i] == s[i - 1] && t[j] == s[j - 1]; }
        else { assert t[j] == s[j - 1]; }
      }
    }
    if Distinct(t) {
      forall i, j | 0 <= i < j < |s|
        ensures s[i] != s[j]
      {
        assert s[i] == t[i + 1] && s[j] == t[j + 1];
      }
      forall k | 0 <= k < |s|
        ensures s[k] != x
      {
        assert s[k] == t[k + 1] && x == t[0];
      }
    }
  }
}

=== FILE: extract.dfy ===
/** The extractor (c_extract_data.py): the OData `$filter` expression built
    from an indicator's filters (OData Version 4.0 Part 2: URL Conventions,
    section 5.1.1, the `eq`, `ge`, `or` and `and` operators), and the
    checks, request and output path of `get_data`. The HTTP request and
    the clock are parameters. */
module Extract {
  import opened Common
  import opened Text
  import opened Paths
  import opened JsonValue

  /** The value of one filter key: a list of alternatives, or one value
      used as a lower bound. Values are the text Python's formatting
      renders them as. */
  datatype FilterValue = Many(values: seq<string>) | One(value: string)

  /** One `key: value` pair of the filters dictionary, in insertion order. */
  datatype Filter = Filter(key: string, value: FilterValue)

  /** `key eq 'value'`. */
  function EqTerm(key: string, v: string): string
  {
    key + " eq '" + v + "'"
  }

  function EqTerms(key: string, vs: seq<string>): (r: seq<string>)
    ensures |r| == |vs|
    ensures forall i :: 0 <= i < |vs| ==> r[i] == EqTerm(key, vs[i])
  {
    seq(|vs|, i requires 0 <= i < |vs| => EqTerm(key, vs[i]))
  }

  /** The clause of one filter: alternatives joined by ` or `, in
      parentheses when there are several; a single value as `key ge 'value'`. */
  function Clause(f: Filter): string
  {
    match f.value
    case Many(vs) =>
      var part := Join(EqTerms(f.key, vs), " or ");
      if |vs| > 1 then "(" + part + ")" else part
    case One(v) => f.key + " ge '" + v + "'"
  }

  function Clauses(fs: seq<Filter>): (r: seq<string>)
    ensures |r| == |fs|
    ensures forall i :: 0 <= i < |fs| ==> r[i] == Clause(fs[i])
  {
    seq(|fs|, i requires 0 <= i < |fs| => Clause(fs[i]))
  }

  /** `construct_filter_query`: the clauses, in key order, joined by ` and `. */
  function FilterQuery(fs: seq<Filter>): string
  {
    Join(Clauses(fs), " and ")
  }

  // ---------------------------------------------------------------------
  // The quoted values of a filter expression

  /** Every value of the filters, in order: the alternatives of a list, or
      the single value. */
  function Values(fs: seq<Filter>): seq<string>
  {
    if |fs| == 0 then [] else ClauseValues(fs[0]) + Values(fs[1..])
  }

  function ClauseValues(f: Filter): seq<string>
  {
    match f.value
    case Many(vs) => vs
    case One(v) => [v]
  }

  /** The elements at odd positions: for the pieces of a text split at
      `'`, the quoted stretches. */
  function Odds(s: seq<string>): (r: seq<string>)
    ensures |r| == |s| / 2
    ensures forall i :: 0 <= i < |s| / 2 ==> r[i] == s[2 * i + 1]
  {
    seq(|s| / 2, i requires 0 <= i < |s| / 2 => s[2 * i + 1])
  }

  /** The text between the first, third, fifth, ... single quote of `q`
      and the quote after it: what a reader takes as the quoted values. */
  function QuotedValues(q: string): seq<string>
  {
    Odds(Split(q, "'"))
  }

  /** Neither the key nor a value of the filter contains a single quote. */
  predicate FilterQuoteFree(f: Filter)
  {
    '\'' !in f.key && match f.value
      case Many(vs) => forall j :: 0 <= j < |vs| ==> '\'' !in vs[j]
      case One(v) => '\'' !in v
  }

  predicate QuoteFree(fs: seq<Filter>)
  {
    forall i :: 0 <= i < |fs| ==> FilterQuoteFree(fs[i])
  }

  /** Two piece lists spliced at `t`: the last piece of `ps`, `t` and the
      first piece of `qs` become one piece. */
  function Merge(ps: seq<string>, t: string, qs: seq<string>): (r: seq<string>)
    requires |ps| > 0 && |qs| > 0
    ensures |r| == |ps| + |qs| - 1
  {
    ps[..|ps| - 1] + [ps[|ps| - 1] + t + qs[0]] + qs[1..]
  }

  /** The pieces of the alternatives of one key, cut at every quote. */
  function EqParts(key: string, vs: seq<string>): (r: seq<string>)
    requires |vs| > 0
    ensures |r| == 2 * |vs| + 1
    decreases |vs|
  {
    if |vs| == 1 then [key + " eq ", vs[0], ""]
    else Merge([key + " eq ", vs[0], ""], " or ", EqParts(key, vs[1..]))
  }

  /** The pieces of one clause, cut at every quote. */
  function ClauseParts(f: Filter): (r: seq<string>)
    ensures |r| == 2 * |ClauseValues(f)| + 1
  {
    match f.value
    case Many(vs) =>
      if |vs| == 0 then [""]
      else if |vs| == 1 then EqParts(f.key, vs)
      else
        var p := EqParts(f.key, vs);
        ["(" + p[0]] + p[1..|p| - 1] + [p[|p| - 1] + ")"]
    case One(v) => [f.key + " ge ", v, ""]
  }

  /** The pieces of a whole filter expression, cut at every quote. */
  function QueryParts(fs: seq<Filter>): (r: seq<string>)
    ensures |r| == 2 * |Values(fs)| + 1
    decreases |fs|
  {
    if |fs| == 0 then [""]
    else if |fs| == 1 then ClauseParts(fs[0])
    else Merge(ClauseParts(fs[0]), " and ", QueryParts(fs[1..]))
  }

  // ---------------------------------------------------------------------
  // get_data

  /** An indicator's entry of the dataset configuration: its `code`, its
      `filters`, and how many other keys it has (they matter only for
      whether the entry is empty). */
  datatype Indicator = Indicator(code: Option<string>, filters: Option<seq<Filter>>, otherKeys: nat)

  /** The entry is an empty dictionary, which Python treats as false. */
  predicate IsEmptyEntry(ind: Indicator)
  {
    ind.code.None? && ind.filters.None? && ind.otherKeys == 0
  }

  /** The extractor's settings: the dataset configuration, the API base
      URL, the request headers and the landing directory. */
  datatype Extractor = Extractor(
    datasets: map<string, Indicator>,
    baseUrl: string,
    headers: seq<(string, string)>,
    outputDir: string)

  /** An HTTP GET: URL, headers and query parameters. */
  datatype Request = Request(url: string, headers: seq<(string, string)>, params: seq<(string, string)>)

  /** A response: the status code, the text, and what `response.json()`
      gives, a decoded body or the text of the error it raises. */
  datatype Response = Response(status: int, text: string, body: Result<Json, string>)

  datatype ExtractError =
    | UnknownIndicator(key: string)
    | MissingCode(key: string)
    | RequestFailed(message: string)
    | FetchFailed(status: int, text: string)
    | NotJson(message: string)

  /** A response body written to `path` inside the created directory `dir`. */
  datatype Saved = Saved(dir: string, path: string, body: Json)

  /** What `get_data` did: the request it sent, if any, the landing file
      it opened for writing, if any, and the outcome. */
  datatype Fetch = Fetch(sent: Option<Request>, landing: Option<string>, outcome: Result<Saved, ExtractError>)

  /** `output_dir/indicator_key/YYYYMMDD/HHMM.json`. */
  function OutputPath(outputDir: string, key: string, now: Stamp): string
  {
    PathJoin(PathJoin(PathJoin(outputDir, key), now.date), now.time + ".json")
  }

  /** The request for a configured indicator: the code appended to the
      base URL, and a single `$filter` parameter (no filters: `{}`). */
  function RequestFor(ex: Extractor, code: string, filters: Option<seq<Filter>>): Request
  {
    Request(ex.baseUrl + code, ex.headers, [("$filter", FilterQuery(filters.GetOr([])))])
  }

  /** The entry of `key` is present and non-empty. */
  predicate Configured(ex: Extractor, key: string)
  {
    key in ex.datasets && !IsEmptyEntry(ex.datasets[key])
  }

  /** `get_data(indicator_key)`: look the indicator up (missing or empty:
      `ValueError`; no `code`: `KeyError`), send the request through
      `respond` (which gives the response, or the text of the exception
      `requests.get` raises), reject a status other than 200, open the
      landing file, and write the decoded body into it. The file is opened
      before the body is decoded, so a body that is not JSON leaves an
      empty landing file behind. */
  function GetData(ex: Extractor, key: string, respond: Request -> Result<Response, string>, now: Stamp): (r: Fetch)
    ensures !Configured(ex, key) ==> r == Fetch(None, None, Err(UnknownIndicator(key)))
    ensures Configured(ex, key) && ex.datasets[key].code.None? ==>
      r == Fetch(None, None, Err(MissingCode(key)))
    ensures r.sent.Some? <==> Configured(ex, key) && ex.datasets[key].code.Some?
    ensures r.sent.Some? ==>
      r.sent.value == RequestFor(ex, ex.datasets[key].code.value, ex.datasets[key].filters)
    ensures r.sent.Some? && respond(r.sent.value).Err? ==>
      r.outcome == Err(RequestFailed(respond(r.sent.value).error))
    ensures r.sent.Some? && respond(r.sent.value).Ok? && respond(r.sent.value).value.status != 200 ==>
      r.outcome == Err(FetchFailed(respond(r.sent.value).value.status, respond(r.sent.value).value.text))
    ensures r.landing.Some? <==> r.sent.Some? && respond(r.sent.value).Ok? && respond(r.sent.value).value.status == 200
    ensures r.landing.Some? ==> r.landing.value == OutputPath(ex.outputDir, key, now)
    ensures r.outcome.Ok? <==> r.landing.Some? && respond(r.sent.value).value.body.Ok?
    ensures r.landing.Some? && respond(r.sent.value).value.body.Err? ==>
      r.outcome == Err(NotJson(respond(r.sent.value).value.body.error))
    ensures r.outcome.Ok? ==>
      && r.outcome.value.path == r.landing.value
      && r.outcome.value.dir == PathJoin(PathJoin(ex.outputDir, key), now.date)
      && r.outcome.value.body == respond(r.sent.value).value.body.value
  {
    if !Configured(ex, key) then Fetch(None, None, Err(UnknownIndicator(key)))
    else
      var ind := ex.datasets[key];
      match ind.code
      case None => Fetch(None, None, Err(MissingCode(key)))
      case Some(code) =>
        var req := RequestFor(ex, code, ind.filters);
        match respond(req)
        case Err(m) => Fetch(Some(req), None, Err(RequestFailed(m)))
        case Ok(resp) =>
          if resp.status != 200 then Fetch(Some(req), None, Err(FetchFailed(resp.status, resp.text)))
          else
            var dir := PathJoin(PathJoin(ex.outputDir, key), now.date);
            var path := PathJoin(dir, now.time + ".json");
            match resp.body
            case Err(m) => Fetch(Some(req), Some(path), Err(NotJson(m)))
            case Ok(body) => Fetch(Some(req), Some(path), Ok(Saved(dir, path, body)))
  }

  /** No piece contains a single quote. */
  predicate NoQuote(ps: seq<string>)
  {
    forall k :: 0 <= k < |ps| ==> '\'' !in ps[k]
  }

  // ---------------------------------------------------------------------
  // Properties

  /** Joining spliced piece lists is splicing their joins. */
  lemma {:induction false} JoinMerge(ps: seq<string>, t: string, qs: seq<string>, sep: string)
    requires |ps| > 0 && |qs| > 0
    ensures Join(Merge(ps, t, qs), sep) == Join(ps, sep) + t + Join(qs, sep)
    decreases |ps|
  {
    var m := Merge(ps, t, qs);
    if |ps| == 1 {
      assert m == [ps[0] + t + qs[0]] + qs[1..];
      if |qs| > 1 {
        JoinCons(ps[0] + t + qs[0], qs[1..], sep);
        JoinCons(qs[0], qs[1..], sep);
        assert qs == [qs[0]] + qs[1..];
      }
    } else {
      assert m == [ps[0]] + Merge(ps[1..], t, qs);
      JoinCons(ps[0], Merge(ps[1..], t, qs), sep);
      JoinMerge(ps[1..], t, qs, sep);
      JoinCons(ps[0], ps[1..], sep);
      assert ps == [ps[0]] + ps[1..];
    }
  }

  /** Splicing after an odd number of pieces keeps the quoted stretches of
      both lists, in order. */
  lemma OddsMerge(ps: seq<string>, t: string, qs: seq<string>, m: nat)
    requires |ps| == 2 * m + 1 && |qs| > 0
    ensures Odds(Merge(ps, t, qs)) == Odds(ps) + Odds(qs)
  {
    var r := Merge(ps, t, qs);
    forall i | 0 <= i < |r| / 2
      ensures r[2 * i + 1] == (Odds(ps) + Odds(qs))[i]
    {
      if i < m {
        assert r[2 * i + 1] == ps[2 * i + 1];
      } else {
        assert r[2 * i + 1] == qs[2 * (i - m) + 1];
      }
    }
  }

  lemma MergeNoQuote(ps: seq<string>, t: string, qs: seq<string>)
    requires |ps| > 0 && |qs| > 0 && NoQuote(ps) && NoQuote(qs) && '\'' !in t
    ensures NoQuote(Merge(ps, t, qs))
  {
    var r := Merge(ps, t, qs);
    forall k | 0 <= k < |r|
      ensures '\'' !in r[k]
    {
      if k < |ps| - 1 {
        assert r[k] == ps[k];
      } else if k == |ps| - 1 {
        assert r[k] == ps[|ps| - 1] + t + qs[0];
      } else {
        assert r[k] == qs[k - |ps| + 1];
      }
    }
  }

  /** The pieces of one key's alternatives: they start with `key eq `,
      end with the empty piece, join (at quotes) to the ` or ` expression,
      and hold the values at the odd positions. */
  lemma EqPartsShape(key: string, vs: seq<string>)
    requires |vs| > 0
    ensures var p := EqParts(key, vs);
      && p[0] == key + " eq " && p[|p| - 1] == ""
      && Join(p, "'") == Join(EqTerms(key, vs), " or ")
      && Odds(p) == vs
  {
    EqPartsEnds(key, vs);
    EqPartsJoin(key, vs);
    EqPartsOdds(key, vs);
  }

  lemma {:induction false} EqPartsEnds(key: string, vs: seq<string>)
    requires |vs| > 0
    ensures var p := EqParts(key, vs); p[0] == key + " eq " && p[|p| - 1] == ""
    decreases |vs|
  {
    if |vs| > 1 {
      var rest := EqParts(key, vs[1..]);
      EqPartsEnds(key, vs[1..]);
      var m := Merge([key + " eq ", vs[0], ""], " or ", rest);
      assert m[|m| - 1] == rest[|rest| - 1];
    }
  }

  lemma {:induction false} EqPartsJoin(key: string, vs: seq<string>)
    requires |vs| > 0
    ensures Join(EqParts(key, vs), "'") == Join(EqTerms(key, vs), " or ")
    decreases |vs|
  {
    var head := [key + " eq ", vs[0], ""];
    assert Join(head, "'") == EqTerm(key, vs[0]) by {
      JoinCons(key + " eq ", [vs[0], ""], "'");
      JoinCons(vs[0], [""], "'");
    }
    if |vs| > 1 {
      var rest := EqParts(key, vs[1..]);
      EqPartsJoin(key, vs[1..]);
      JoinMerge(head, " or ", rest, "'");
      assert EqTerms(key, vs) == [EqTerm(key, vs[0])] + EqTerms(key, vs[1..]);
      JoinCons(EqTerm(key, vs[0]), EqTerms(key, vs[1..]), " or ");
    } else {
      assert EqTerms(key, vs) == [EqTerm(key, vs[0])];
    }
  }

  lemma {:induction false} EqPartsOdds(key: string, vs: seq<string>)
    requires |vs| > 0
    ensures Odds(EqParts(key, vs)) == vs
    decreases |vs|
  {
    var head := [key + " eq ", vs[0], ""];
    assert Odds(head) == [vs[0]];
    if |vs| > 1 {
      var rest := EqParts(key, vs[1..]);
      EqPartsOdds(key, vs[1..]);
      OddsMerge(head, " or ", rest, 1);
      assert vs == [vs[0]] + vs[1..];
    }
  }

  lemma {:induction false} EqPartsNoQuote(key: string, vs: seq<string>)
    requires |vs| > 0 && '\'' !in key
    requires forall j :: 0 <= j < |vs| ==> '\'' !in vs[j]
    ensures NoQuote(EqParts(key, vs))
    decreases |vs|
  {
    var head := [key + " eq ", vs[0], ""];
    assert NoQuote(head);
    if |vs| > 1 {
      EqPartsNoQuote(key, vs[1..]);
      MergeNoQuote(head, " or ", EqParts(key, vs[1..]));
    }
  }

  /** Putting a prefix on the first piece and a suffix on the last piece
      puts them around the join. */
  lemma WrapJoin(p: seq<string>, open: string, close: string, sep: string)
    requires |p| >= 2
    ensures Join([open + p[0]] + p[1..|p| - 1] + [p[|p| - 1] + close], sep) == open + Join(p, sep) + close
  {
    var mid := p[1..|p| - 1];
    var last := [p[|p| - 1] + close];
    assert p == [p[0]] + mid + [p[|p| - 1]];
    if |mid| == 0 {
      assert [open + p[0]] + mid + last == [open + p[0]] + last;
      JoinCons(open + p[0], last, sep);
      JoinCons(p[0], [p[|p| - 1]], sep);
    } else {
      JoinConcat([open + p[0]] + mid, last, sep);
      JoinCons(open + p[0], mid, sep);
      JoinConcat([p[0]] + mid, [p[|p| - 1]], sep);
      JoinCons(p[0], mid, sep);
    }
  }

  /** The pieces of a clause join (at quotes) to the clause, and hold its
      values at the odd positions. */
  lemma ClausePartsShape(f: Filter)
    ensures Join(ClauseParts(f), "'") == Clause(f)
    ensures Odds(ClauseParts(f)) == ClauseValues(f)
  {
    match f.value
    case Many(vs) =>
      if |vs| == 0 {
        assert EqTerms(f.key, vs) == [];
      } else if |vs| == 1 {
        EqPartsShape(f.key, vs);
      } else {
        SeveralPartsShape(f.key, vs);
      }
    case One(v) =>
      JoinCons(f.key + " ge ", [v, ""], "'");
      JoinCons(v, [""], "'");
      assert Odds([f.key + " ge ", v, ""]) == [v];
  }

  lemma SeveralPartsShape(key: string, vs: seq<string>)
    requires |vs| > 1
    ensures var w := ClauseParts(Filter(key, Many(vs)));
      Join(w, "'") == Clause(Filter(key, Many(vs))) && Odds(w) == vs
  {
    SeveralPartsJoin(key, vs);
    SeveralPartsOdds(key, vs);
  }

  lemma SeveralPartsJoin(key: string, vs: seq<string>)
    requires |vs| > 1
    ensures Join(ClauseParts(Filter(key, Many(vs))), "'") == Clause(Filter(key, Many(vs)))
  {
    var p := EqParts(key, vs);
    EqPartsJoin(key, vs);
    WrapJoin(p, "(", ")", "'");
  }

  lemma SeveralPartsOdds(key: string, vs: seq<string>)
    requires |vs| > 1
    ensures Odds(ClauseParts(Filter(key, Many(vs)))) == vs
  {
    var p := EqParts(key, vs);
    EqPartsOdds(key, vs);
    var w := ClauseParts(Filter(key, Many(vs)));
    assert w == ["(" + p[0]] + p[1..|p| - 1] + [p[|p| - 1] + ")"];
    forall i | 0 <= i < |w| / 2
      ensures w[2 * i + 1] == p[2 * i + 1]
    {
    }
  }

  lemma ClausePartsNoQuote(f: Filter)
    requires FilterQuoteFree(f)
    ensures NoQuote(ClauseParts(f))
  {
    match f.value
    case Many(vs) =>
      if |vs| > 0 {
        EqPartsNoQuote(f.key, vs);
        var p := EqParts(f.key, vs);
        var w := ClauseParts(f);
        forall k | 0 <= k < |w|
          ensures '\'' !in w[k]
        {
          if 0 < k < |w| - 1 {
            assert w[k] == p[k];
          }
        }
      }
    case One(v) =>
      assert NoQuote([f.key + " ge ", v, ""]);
  }

  /** The pieces of a filter expression join (at quotes) to the expression. */
  lemma {:induction false} QueryPartsJoin(fs: seq<Filter>)
    ensures Join(QueryParts(fs), "'") == FilterQuery(fs)
    decreases |fs|
  {
    if |fs| == 0 {
      assert Clauses(fs) == [];
    } else if |fs| == 1 {
      ClausePartsShape(fs[0]);
      assert Clauses(fs) == [Clause(fs[0])];
    } else {
      QueryPartsJoin(fs[1..]);
      QueryPartsFront(fs);
      FilterQueryFront(fs);
    }
  }

  lemma QueryPartsFront(fs: seq<Filter>)
    requires |fs| >= 2
    ensures Join(QueryParts(fs), "'") == Clause(fs[0]) + " and " + Join(QueryParts(fs[1..]), "'")
  {
    ClausePartsShape(fs[0]);
    JoinMerge(ClauseParts(fs[0]), " and ", QueryParts(fs[1..]), "'");
  }

  lemma FilterQueryFront(fs: seq<Filter>)
    requires |fs| >= 2
    ensures FilterQuery(fs) == Clause(fs[0]) + " and " + FilterQuery(fs[1..])
  {
    assert Clauses(fs) == [Clause(fs[0])] + Clauses(fs[1..]);
    JoinCons(Clause(fs[0]), Clauses(fs[1..]), " and ");
  }

  /** The pieces of a filter expression hold every value at the odd
      positions, in order. */
  lemma {:induction false} QueryPartsOdds(fs: seq<Filter>)
    ensures Odds(QueryParts(fs)) == Values(fs)
    decreases |fs|
  {
    if |fs| == 0 {
    } else {
      ClausePartsShape(fs[0]);
      if |fs| == 1 {
        assert Values(fs) == ClauseValues(fs[0]) + [];
      } else {
        QueryPartsOdds(fs[1..]);
        OddsMerge(ClauseParts(fs[0]), " and ", QueryParts(fs[1..]), |ClauseValues(fs[0])|);
      }
    }
  }

  lemma {:induction false} QueryPartsNoQuote(fs: seq<Filter>)
    requires QuoteFree(fs)
    ensures NoQuote(QueryParts(fs))
    decreases |fs|
  {
    if |fs| > 0 {
      ClausePartsNoQuote(fs[0]);
      if |fs| > 1 {
        assert QuoteFree(fs[1..]) by {
          forall i | 0 <= i < |fs[1..]|
            ensures FilterQuoteFree(fs[1..][i])
          {
            assert fs[1..][i] == fs[i + 1];
          }
        }
        QueryPartsNoQuote(fs[1..]);
        MergeNoQuote(ClauseParts(fs[0]), " and ", QueryParts(fs[1..]));
      }
    }
  }

  /** Values go into the expression verbatim: when no key or value
      contains a single quote, reading the quoted stretches of the
      expression back gives every filter value, in order. */
  lemma QuotedValuesRoundTrip(fs: seq<Filter>)
    requires QuoteFree(fs)
    ensures QuotedValues(FilterQuery(fs)) == Values(fs)
  {
    QueryPartsJoin(fs);
    QueryPartsOdds(fs);
    QueryPartsNoQuote(fs);
    SplitJoin(QueryParts(fs), "'");
  }

  /** A list clause is parenthesised exactly when the list has more than
      one value: one value gives the bare `key eq 'v'`, none the empty text. */
  lemma ParenthesisedIffSeveral(key: string, vs: seq<string>)
    ensures EndsWith(Clause(Filter(key, Many(vs))), ")") <==> |vs| > 1
    ensures |vs| > 1 ==> StartsWith(Clause(Filter(key, Many(vs))), "(")
    ensures |vs| == 1 ==> Clause(Filter(key, Many(vs))) == EqTerm(key, vs[0])
    ensures |vs| == 0 ==> Clause(Filter(key, Many(vs))) == ""
  {
    if |vs| == 1 {
      assert EqTerms(key, vs) == [EqTerm(key, vs[0])];
      var c := EqTerm(key, vs[0]);
      assert c[|c| - 1] == '\'';
    } else if |vs| == 0 {
      assert EqTerms(key, vs) == [];
    }
  }

  /** The expression of a concatenation of filter lists is the two
      expressions joined by ` and `; no filters give the empty text. */
  lemma FilterQueryAppend(a: seq<Filter>, b: seq<Filter>)
    requires |a| > 0 && |b| > 0
    ensures FilterQuery(a + b) == FilterQuery(a) + " and " + FilterQuery(b)
  {
    assert Clauses(a + b) == Clauses(a) + Clauses(b);
    JoinConcat(Clauses(a), Clauses(b), " and ");
  }

  lemma FilterQueryOfOne(f: Filter)
    ensures FilterQuery([]) == ""
    ensures FilterQuery([f]) == Clause(f)
  {
    assert Clauses([]) == [];
    assert Clauses([f]) == [Clause(f)];
  }

  /** A saved file sits in the per-date directory of its indicator and is
      named after the hour and minute, for keys and dates without `/`. */
  lemma SavedFileLocation(ex: Extractor, key: string, respond: Request -> Result<Response, string>, now: Stamp)
    requires |now.date| > 0 && '/' !in now.date && '/' !in now.time
    requires GetData(ex, key, respond, now).outcome.Ok?
    ensures var f := GetData(ex, key, respond, now).outcome.value;
      && Basename(f.path) == now.time + ".json"
      && Dirname(f.path) == f.dir
  {
    JsonFileInSubdir(PathJoin(ex.outputDir, key), now.date, now.time);
  }
}

=== FILE: json.dfy ===
/** JSON values as Python's `json` module hands them to the pipeline, with
    Python's truthiness and `len` on them. */
module JsonValue {
  import opened Common

  /** A decoded JSON document. A number without a fraction or exponent is
      an `int`, any other a `float`, held here as the real number it
      denotes; objects are maps from key to value (a Python `dict` has no
      duplicate keys). */
  datatype Json =
    | JNull
    | JBool(b: bool)
    | JNum(n: int)
    | JFloat(x: real)
    | JStr(s: string)
    | JArray(items: seq<Json>)
    | JObject(fields: map<string, Json>)

  /** Python's `bool(value)`: empty containers, empty strings, zero, `False`
      and `None` are false. */
  predicate Truthy(j: Json)
  {
    match j
    case JNull => false
    case JBool(b) => b
    case JNum(n) => n != 0
    case JFloat(x) => x != 0.0
    case JStr(s) => |s| > 0
    case JArray(items) => |items| > 0
    case JObject(fields) => |fields| > 0
  }

  /** Python's `len(value)`; `None` where `len` raises `TypeError`. */
  function PyLen(j: Json): Option<nat>
  {
    match j
    case JStr(s) => Some(|s|)
    case JArray(items) => Some(|items|)
    case JObject(fields) => Some(|fields|)
    case _ => None
  }
}

=== FILE: load.dfy ===
/** The loader (c_load_data.py): upserting the records of a staging file
    into the dataset's table, the tally of inserted, updated and skipped
    records, the rule that deletes the staging file, the run log path, and
    the walk over staging files.

    A table is a map from the `id` value to the row's columns. The
    database server is a parameter: whether the connection opens, and
    whether it rejects the statement for a record (an unknown column, a
    value of the wrong type, a constraint), given the table as it stands
    when the statement runs. */
module Load {
  import opened Common
  import opened Text
  import opened Paths
  import opened JsonValue
  import opened Walk

  type Row = map<string, Json>
  type Table = map<Json, Row>

  datatype Stats = Stats(skipped: nat, inserted: nat, updated: nat)

  function Total(s: Stats): nat
  {
    s.skipped + s.inserted + s.updated
  }

  datatype Server = Server(
    /** `psycopg2.connect` raises with this text, or succeeds */
    connectError: Option<string>,
    /** the statement for a record raises with this text, given the table's
        name and its rows at that moment: an UPDATE when the record's id is
        among the rows, an INSERT otherwise */
    rejects: (string, Table, Row) -> Option<string>)

  datatype LoadError =
    | ConnectFailed(message: string)
    | NoSuchTable(table: string)
    | NotAnObject(record: Json)
    | MissingId(row: Row)
    | Rejected(message: string)
    | ReadFailed(message: string)

  /** The records of a payload: a list as it is, anything else wrapped
      into a one-element list. */
  function Records(payload: Json): (r: seq<Json>)
    ensures payload.JArray? ==> r == payload.items
    ensures !payload.JArray? ==> r == [payload]
  {
    if payload.JArray? then payload.items else [payload]
  }

  /** Why a record cannot be stored into `t`, if it cannot, in the order
      the loop body finds out: it is not an object (`data.keys()` raises),
      it has no `id` (`data["id"]` raises), the table does not exist (the
      SELECT raises), or the server rejects its UPDATE or INSERT. */
  function Problem(table: string, known: bool, t: Table, rec: Json, server: Server): Option<LoadError>
  {
    if !rec.JObject? then Some(NotAnObject(rec))
    else if "id" !in rec.fields then Some(MissingId(rec.fields))
    else if !known then Some(NoSuchTable(table))
    else match server.rejects(table, t, rec.fields)
      case Some(m) => Some(Rejected(m))
      case None => None
  }

  /** The table once a record is stored: the row of its id takes the
      record's columns, or the record becomes the row of a new id. Anything
      but an object with an `id` leaves the table as it is. */
  function Store(t: Table, rec: Json): Table
  {
    if rec.JObject? && "id" in rec.fields then
      var id := rec.fields["id"];
      if id in t then t[id := t[id] + rec.fields] else t[id := rec.fields]
    else t
  }

  /** The table once the records are stored in order. */
  function StoreAll(t: Table, recs: seq<Json>): Table
    decreases |recs|
  {
    if |recs| == 0 then t else StoreAll(Store(t, recs[0]), recs[1..])
  }

  /** Every record can be stored into the table as the records before it
      leave it. */
  predicate AllStorable(table: string, known: bool, t: Table, recs: seq<Json>, server: Server)
    decreases |recs|
  {
    |recs| == 0
    || (Problem(table, known, t, recs[0], server).None? && AllStorable(table, known, Store(t, recs[0]), recs[1..], server))
  }

  lemma StoreAllCons(t: Table, recs: seq<Json>, i: nat)
    requires 0 < i <= |recs|
    ensures StoreAll(t, recs[..i]) == StoreAll(Store(t, recs[0]), recs[1..][..i - 1])
  {
    assert recs[..i][0] == recs[0];
    assert recs[..i][1..] == recs[1..][..i - 1];
  }

  /** The records are storable exactly when each one can be stored into
      the table the records before it leave. */
  lemma {:induction false} AllStorableEach(table: string, known: bool, t: Table, recs: seq<Json>, server: Server)
    ensures AllStorable(table, known, t, recs, server) <==>
      forall i :: 0 <= i < |recs| ==> Problem(table, known, StoreAll(t, recs[..i]), recs[i], server).None?
    decreases |recs|
  {
    if |recs| > 0 {
      assert recs[..0] == [];
      AllStorableEach(table, known, Store(t, recs[0]), recs[1..], server);
      forall i | 1 <= i < |recs|
        ensures recs[i] == recs[1..][i - 1]
        ensures StoreAll(t, recs[..i]) == StoreAll(Store(t, recs[0]), recs[1..][..i - 1])
      {
        StoreAllCons(t, recs, i);
      }
    }
  }

  /** One record of the loop: present id: update the row with the
      record's columns, counted as updated; absent id: insert the record,
      counted as inserted. The `skipped` branch (an UPDATE that matches no
      row) is not modelled: it needs another writer to remove the row
      between the SELECT and the UPDATE, and the model's server has no
      other writer. */
  function UpsertOne(table: string, known: bool, t: Table, stats: Stats, rec: Json, server: Server): (r: Result<(Table, Stats), LoadError>)
    ensures r.Err? <==> Problem(table, known, t, rec, server).Some?
    ensures r.Ok? ==> r.value.0 == Store(t, rec)
  {
    match Problem(table, known, t, rec, server)
    case Some(e) => Err(e)
    case None =>
      var row := rec.fields;
      var id := row["id"];
      if id in t then
        Ok((t[id := t[id] + row], stats.(updated := stats.updated + 1)))
      else Ok((t[id := row], stats.(inserted := stats.inserted + 1)))
  }

  /** The loop over the records, in order; the first failing record ends
      it with that error. Each record meets the table as the records before
      it left it. */
  function UpsertAll(table: string, known: bool, t: Table, stats: Stats, recs: seq<Json>, server: Server): (r: Result<(Table, Stats), LoadError>)
    ensures r.Ok? <==> AllStorable(table, known, t, recs, server)
    ensures r.Ok? ==> r.value.0 == StoreAll(t, recs)
    ensures r.Ok? ==> Total(r.value.1) == Total(stats) + |recs|
    ensures r.Ok? ==> r.value.1.skipped == stats.skipped
    ensures r.Ok? ==> t.Keys <= r.value.0.Keys
    ensures r.Ok? ==> |r.value.0.Keys| == |t.Keys| + r.value.1.inserted - stats.inserted
    decreases |recs|
  {
    if |recs| == 0 then Ok((t, stats))
    else
      match UpsertOne(table, known, t, stats, recs[0], server)
      case Err(e) => Err(e)
      case Ok(step) => UpsertAll(table, known, step.0, step.1, recs[1..], server)
  }

  /** The record is an object whose `id` is `id`. */
  predicate HasId(rec: Json, id: Json)
  {
    rec.JObject? && "id" in rec.fields && rec.fields["id"] == id
  }

  /** No record after position `i` has the id `id`. */
  predicate LastWith(recs: seq<Json>, i: nat, id: Json)
  {
    forall j :: i < j < |recs| ==> !HasId(recs[j], id)
  }

  // ---------------------------------------------------------------------
  // Properties of the upsert

  /** One successful step changes exactly the row of the record's id. */
  lemma UpsertOneEffect(table: string, known: bool, t: Table, stats: Stats, rec: Json, server: Server)
    requires UpsertOne(table, known, t, stats, rec, server).Ok?
    ensures var s := UpsertOne(table, known, t, stats, rec, server).value.0;
      && rec.JObject? && "id" in rec.fields
      && s.Keys == t.Keys + {rec.fields["id"]}
      && (forall id :: id in t && id != rec.fields["id"] ==> s[id] == t[id])
      && (forall c :: c in rec.fields ==> c in s[rec.fields["id"]] && s[rec.fields["id"]][c] == rec.fields[c])
  {
  }

  /** Storing one record changes exactly the row of its id, which then
      holds each of the record's columns. */
  lemma StoreEffect(t: Table, rec: Json, id: Json)
    ensures id in Store(t, rec) <==> id in t || HasId(rec, id)
    ensures id in t && !HasId(rec, id) ==> Store(t, rec)[id] == t[id]
    ensures HasId(rec, id) ==> forall c :: c in rec.fields ==> c in Store(t, rec)[id] && Store(t, rec)[id][c] == rec.fields[c]
  {
  }

  /** Storing records leaves the rows of ids no record carries as they
      were. */
  lemma {:induction false} StoreAllKeepsOthers(t: Table, recs: seq<Json>, id: Json)
    requires id in t && forall i :: 0 <= i < |recs| ==> !HasId(recs[i], id)
    ensures id in StoreAll(t, recs) && StoreAll(t, recs)[id] == t[id]
    decreases |recs|
  {
    if |recs| > 0 {
      StoreEffect(t, recs[0], id);
      assert !HasId(recs[0], id);
      forall i | 0 <= i < |recs[1..]|
        ensures !HasId(recs[1..][i], id)
      {
        assert recs[1..][i] == recs[i + 1];
      }
      StoreAllKeepsOthers(Store(t, recs[0]), recs[1..], id);
    }
  }

  /** The ids after storing are the old ids and the records' ids. */
  lemma {:induction false} StoreAllIds(t: Table, recs: seq<Json>, id: Json)
    ensures id in StoreAll(t, recs) <==> id in t || exists i :: 0 <= i < |recs| && HasId(recs[i], id)
    decreases |recs|
  {
    if |recs| > 0 {
      StoreEffect(t, recs[0], id);
      StoreAllIds(Store(t, recs[0]), recs[1..], id);
      if exists i :: 0 <= i < |recs[1..]| && HasId(recs[1..][i], id) {
        var k :| 0 <= k < |recs[1..]| && HasId(recs[1..][k], id);
        assert HasId(recs[k + 1], id);
      }
      if exists i :: 0 <= i < |recs| && HasId(recs[i], id) {
        var k :| 0 <= k < |recs| && HasId(recs[k], id);
        if k > 0 {
          assert HasId(recs[1..][k - 1], id);
        }
      }
    }
  }

  /** Later records win: after storing, the row of a record that no later
      record with the same id follows holds that record's value in each of
      its columns. */
  lemma {:induction false} StoreAllLastWins(t: Table, recs: seq<Json>, i: nat, id: Json, column: string)
    requires i < |recs| && HasId(recs[i], id) && LastWith(recs, i, id)
    requires column in recs[i].fields
    ensures var r := StoreAll(t, recs);
      id in r && column in r[id] && r[id][column] == recs[i].fields[column]
    decreases |recs|
  {
    var t1 := Store(t, recs[0]);
    assert StoreAll(t, recs) == StoreAll(t1, recs[1..]);
    if i == 0 {
      StoreEffect(t, recs[0], id);
      forall j | 0 <= j < |recs[1..]|
        ensures !HasId(recs[1..][j], id)
      {
        assert recs[1..][j] == recs[j + 1];
      }
      StoreAllKeepsOthers(t1, recs[1..], id);
    } else {
      assert recs[1..][i - 1] == recs[i];
      assert LastWith(recs[1..], i - 1, id) by {
        forall j | i - 1 < j < |recs[1..]|
          ensures !HasId(recs[1..][j], id)
        {
          assert recs[1..][j] == recs[j + 1];
        }
      }
      StoreAllLastWins(t1, recs[1..], i - 1, id, column);
    }
  }

  /** A successful batch leaves the rows of ids no record carries as they
      were. */
  lemma UpsertAllKeepsOthers(table: string, known: bool, t: Table, stats: Stats, recs: seq<Json>, server: Server, id: Json)
    requires UpsertAll(table, known, t, stats, recs, server).Ok?
    requires id in t && forall i :: 0 <= i < |recs| ==> !HasId(recs[i], id)
    ensures var r := UpsertAll(table, known, t, stats, recs, server).value.0;
      id in r && r[id] == t[id]
  {
    StoreAllKeepsOthers(t, recs, id);
  }

  /** After a successful batch the table's ids are the old ids and the
      records' ids. */
  lemma UpsertAllIds(table: string, known: bool, t: Table, stats: Stats, recs: seq<Json>, server: Server, id: Json)
    requires UpsertAll(table, known, t, stats, recs, server).Ok?
    ensures var r := UpsertAll(table, known, t, stats, recs, server).value.0;
      id in r <==> id in t || exists i :: 0 <= i < |recs| && HasId(recs[i], id)
  {
    StoreAllIds(t, recs, id);
  }

  /** Later records win: the row of a record that no later record with
      the same id follows holds that record's value in each of its
      columns. */
  lemma UpsertAllLastWins(table: string, known: bool, t: Table, stats: Stats, recs: seq<Json>,
                          server: Server, i: nat, id: Json, column: string)
    requires UpsertAll(table, known, t, stats, recs, server).Ok?
    requires i < |recs| && HasId(recs[i], id) && LastWith(recs, i, id)
    requires column in recs[i].fields
    ensures var r := UpsertAll(table, known, t, stats, recs, server).value.0;
      id in r && column in r[id] && r[id][column] == recs[i].fields[column]
  {
    StoreAllLastWins(t, recs, i, id, column);
  }

  // ---------------------------------------------------------------------
  // insert_json_data_to_psql

  /** Loads one payload into the table named after the dataset, in one
      transaction: the connection is opened after the payload is decoded,
      and then the records are stored as `LoadBatch` says. */
  function InsertJsonData(db: map<string, Table>, table: string, payload: Json, server: Server)
    : (r: (Result<Stats, LoadError>, map<string, Table>))
    ensures r.0.Err? ==> r.1 == db
    ensures r.0.Ok? <==>
      && server.connectError.None?
      && AllStorable(table, table in db, Existing(db, table), Records(payload), server)
    ensures r.0.Ok? && table in db ==> table in r.1 && r.1[table] == StoreAll(db[table], Records(payload))
    ensures server.connectError.Some? ==> r.0 == Err(ConnectFailed(server.connectError.value))
    ensures r.0.Ok? ==> Total(r.0.value) == |Records(payload)| && r.0.value.skipped == 0
    ensures OnlyTableChanged(db, r.1, table)
  {
    match server.connectError
    case Some(m) => (Err(ConnectFailed(m)), db)
    case None => LoadBatch(db, table, Records(payload), server)
  }

  /** The records of one batch, stored in order: a failure anywhere rolls
      the whole batch back; the table is only consulted once there is a
      record to look up, so an empty batch succeeds even without it. */
  function LoadBatch(db: map<string, Table>, table: string, recs: seq<Json>, server: Server)
    : (r: (Result<Stats, LoadError>, map<string, Table>))
    ensures r.0.Err? ==> r.1 == db
    ensures r.0.Ok? <==> AllStorable(table, table in db, Existing(db, table), recs, server)
    ensures r.0.Ok? && table in db ==> table in r.1 && r.1[table] == StoreAll(db[table], recs)
    ensures r.0.Ok? ==> Total(r.0.value) == |recs| && r.0.value.skipped == 0
    ensures table !in db ==> r.1 == db
    ensures OnlyTableChanged(db, r.1, table)
  {
    var known := table in db;
    var t := Existing(db, table);
    var res := UpsertAll(table, known, t, Stats(0, 0, 0), recs, server);
    if res.Err? then (Err(res.error), db)
    else if known then
      StoreFrame(db, table, res.value.0);
      (Ok(res.value.1), db[table := res.value.0])
    else (Ok(res.value.1), db)
  }

  /** The rows of the table, or none when there is no such table. */
  function Existing(db: map<string, Table>, table: string): Table
  {
    if table in db then db[table] else map[]
  }

  /** `after` has the tables of `before`, and all but `table` as they were. */
  predicate OnlyTableChanged(before: map<string, Table>, after: map<string, Table>, table: string)
  {
    && after.Keys == before.Keys
    && forall other :: other in before && other != table ==> after[other] == before[other]
  }

  lemma StoreFrame(db: map<string, Table>, table: string, t: Table)
    requires table in db
    ensures OnlyTableChanged(db, db[table := t], table)
  {
  }

  /** A batch that loads succeeds only into an existing table, unless it
      has no records at all. */
  lemma MissingTableOnlyForEmptyBatch(db: map<string, Table>, table: string, payload: Json, server: Server)
    requires table !in db && |Records(payload)| > 0
    requires server.connectError.None?
    ensures InsertJsonData(db, table, payload, server).0.Err?
  {
    assert Problem(table, false, map[], Records(payload)[0], server).Some?;
  }

  /** After a successful load every record's columns are in the table, the
      last record with a given id deciding each column it carries. */
  lemma InsertJsonDataStoresRecords(db: map<string, Table>, table: string, payload: Json, server: Server,
                                    i: nat, column: string)
    requires InsertJsonData(db, table, payload, server).0.Ok?
    requires i < |Records(payload)|
    requires Records(payload)[i].JObject? && column in Records(payload)[i].fields && "id" in Records(payload)[i].fields
    requires LastWith(Records(payload), i, Records(payload)[i].fields["id"])
    ensures var db' := InsertJsonData(db, table, payload, server).1;
      var rec := Records(payload)[i].fields;
      table in db' && rec["id"] in db'[table] && column in db'[table][rec["id"]]
      && db'[table][rec["id"]][column] == rec[column]
  {
    var recs := Records(payload);
    AllStorableEach(table, true, db[table], recs, server);
    assert Problem(table, true, StoreAll(db[table], recs[..i]), recs[i], server).None?;
    var id := recs[i].fields["id"];
    UpsertAllLastWins(table, true, db[table], Stats(0, 0, 0), recs, server, i, id, column);
  }

  /** A refusal may depend on the statement: against a server that refuses
      every UPDATE, the file `[{"id": 1}]` loads into an empty table, and
      the same file loaded again fails, since its record now meets an
      existing row. */
  lemma ReloadMeetsUpdate()
    ensures var batch := JArray([JObject(map["id" := JNum(1)])]);
      var server := Server(None, (_, t: Table, row: Row) => if "id" in row && row["id"] in t then Some("UPDATE refused") else None);
      var first := InsertJsonData(map["who" := map[]], "who", batch, server);
      && first.0.Ok?
      && InsertJsonData(first.1, "who", batch, server).0.Err?
  {
    var row: Row := map["id" := JNum(1)];
    var rec := JObject(row);
    var batch := JArray([rec]);
    var server := Server(None, (_, t: Table, row: Row) => if "id" in row && row["id"] in t then Some("UPDATE refused") else None);
    assert Records(batch) == [rec];
    assert [rec][1..] == [];
    assert Problem("who", true, map[], rec, server).None?;
    assert AllStorable("who", true, map[], [rec], server);
    var first := InsertJsonData(map["who" := map[]], "who", batch, server);
    var stored := StoreAll(map[], [rec]);
    assert stored == Store(map[], rec);
    assert JNum(1) in stored;
    assert first.1["who"] == stored;
    assert Problem("who", true, stored, rec, server).Some?;
  }

  // ---------------------------------------------------------------------
  // The run log

  /** Where the loader's configuration puts things. */
  datatype LoaderConfig = LoaderConfig(stagingDir: string, logDir: string, datasets: seq<string>)

  /** One log document: the input file, the outcome, and either the tally
      or the error. */
  datatype LoadLog = LoadLog(path: string, inputFile: string, success: bool, stats: Option<Stats>, error: Option<LoadError>)

  /** `create_log_file`: `<log_dir>/load/<dirname of the file relative to
      the staging root>/<HHMM>.json`. The date the function computes is not
      part of the path. */
  function LoadLogPath(cfg: LoaderConfig, inputFile: string, now: Stamp): string
  {
    PathJoin(PathJoin(PathJoin(cfg.logDir, "load"), Dirname(Relpath(inputFile, cfg.stagingDir))), now.time + ".json")
  }

  /** A staged file `<staging>/<dataset>/<name>` is logged under
      `<log_dir>/load/<dataset>/<HHMM>.json`, so the log tree mirrors the
      staging tree. */
  lemma LoadLogPathOfStagedFile(cfg: LoaderConfig, dataset: string, name: string, now: Stamp)
    requires |dataset| > 0 && '/' !in dataset && |name| > 0 && '/' !in name && '/' !in now.time
    ensures var p := LoadLogPath(cfg, PathJoin(PathJoin(cfg.stagingDir, dataset), name), now);
      && p == PathJoin(PathJoin(PathJoin(cfg.logDir, "load"), dataset), now.time + ".json")
      && Dirname(p) == PathJoin(PathJoin(cfg.logDir, "load"), dataset)
      && Basename(p) == now.time + ".json"
  {
    var file := PathJoin(PathJoin(cfg.stagingDir, dataset), name);
    assert Relpath(file, cfg.stagingDir) == dataset + "/" + name by {
      StagedRelpath(cfg.stagingDir, dataset, name);
    }
    assert Dirname(dataset + "/" + name) == dataset by {
      assert !StartsWith(name, "/") by { assert name[0] in name; }
      assert !EndsWith(dataset, "/") by { assert dataset[|dataset| - 1] in dataset; }
      assert PathJoin(dataset, name) == dataset + "/" + name;
      DirnameOfJoin(dataset, name);
    }
    JsonFileInSubdir(PathJoin(cfg.logDir, "load"), dataset, now.time);
  }

  /** A non-empty name without `/` is a single path component. */
  lemma SingleComponent(x: string)
    requires |x| > 0 && '/' !in x
    ensures Components(x) == [x]
    ensures !StartsWith(x, "/")
  {
    assert x[0] in x;
    assert Find(x, "/").None? by {
      NoOccurrence(x, "/");
    }
    SplitNotFound(x, "/");
  }

  lemma StagedComponents(staging: string, dataset: string, name: string)
    requires |dataset| > 0 && '/' !in dataset && |name| > 0 && '/' !in name
    ensures Components(PathJoin(PathJoin(staging, dataset), name)) == Components(staging) + [dataset, name]
  {
    SingleComponent(dataset);
    SingleComponent(name);
    ComponentsOfJoin(staging, dataset);
    ComponentsOfJoin(PathJoin(staging, dataset), name);
    assert Components(staging) + [dataset] + [name] == Components(staging) + [dataset, name];
  }

  lemma StagedRelpath(staging: string, dataset: string, name: string)
    requires |dataset| > 0 && '/' !in dataset && |name| > 0 && '/' !in name
    ensures Relpath(PathJoin(PathJoin(staging, dataset), name), staging) == dataset + "/" + name
  {
    var sc := Components(staging);
    var pc := Components(PathJoin(PathJoin(staging, dataset), name));
    assert pc == sc + [dataset, name] by {
      StagedComponents(staging, dataset, name);
    }
    assert CommonPrefixLength(sc, pc) == |sc| by {
      CommonPrefixOfExtension(sc, [dataset, name]);
    }
    assert pc[|sc|..] == [dataset, name];
    assert Repeat("..", |sc| - |sc|) + pc[|sc|..] == [dataset, name];
    assert Join([dataset, name], "/") == dataset + "/" + name by {
      assert Join([name], "/") == name;
    }
  }

  // ---------------------------------------------------------------------
  // process_single_file

  /** The database, the log documents written so far, and the staging
      files deleted so far. */
  datatype LoadState = LoadState(db: map<string, Table>, logs: seq<LoadLog>, deleted: seq<string>)

  /** What one file's processing leaves behind. The clock is read once per
      log document, so `now(k)` is the time at which the `k`-th document
      is written. */
  function Step(cfg: LoaderConfig, now: nat -> Stamp, file: string, st: LoadState,
                db: map<string, Table>, outcome: Result<Stats, LoadError>, delete: bool): (r: LoadState)
    ensures |r.logs| == |st.logs| + 1 && st.logs <= r.logs
    ensures r.logs[|st.logs|].path == LoadLogPath(cfg, file, now(|st.logs|))
    ensures r.logs[|st.logs|].inputFile == file && r.logs[|st.logs|].success == outcome.Ok?
  {
    var log := match outcome
      case Ok(stats) => LoadLog(LoadLogPath(cfg, file, now(|st.logs|)), file, true, Some(stats), None)
      case Err(e) => LoadLog(LoadLogPath(cfg, file, now(|st.logs|)), file, false, None, Some(e));
    LoadState(db, st.logs + [log], if delete then st.deleted + [file] else st.deleted)
  }

  /** `process_single_file` with the deletion test as a parameter: read
      the file, load it, write the log document, then delete the file when
      `keep` says all of it was processed. Any failure writes a failure log
      document and is passed on. */
  function ProcessFile(cfg: LoaderConfig, fs: Files, server: Server, now: nat -> Stamp,
                       dataset: string, file: string, st: LoadState, allProcessed: (Stats, Json) -> bool)
    : (r: (Result<Stats, LoadError>, LoadState))
    ensures r.0.Err? <==> fs.read(file).Err? || InsertJsonData(st.db, dataset, fs.read(file).value, server).0.Err?
    ensures fs.read(file).Err? ==> r.0 == Err(ReadFailed(fs.read(file).error))
    ensures fs.read(file).Ok? ==> r.0 == InsertJsonData(st.db, dataset, fs.read(file).value, server).0
    ensures |r.1.logs| == |st.logs| + 1 && st.logs <= r.1.logs
    ensures r.1.logs[|st.logs|].path == LoadLogPath(cfg, file, now(|st.logs|))
    ensures r.1.logs[|st.logs|].inputFile == file && r.1.logs[|st.logs|].success == r.0.Ok?
    ensures r.0.Err? ==> r.1.db == st.db
    ensures r.0.Ok? ==> r.1.db == InsertJsonData(st.db, dataset, fs.read(file).value, server).1
    ensures r.1.deleted == st.deleted + [file] || r.1.deleted == st.deleted
    ensures r.1.deleted == st.deleted + [file] <==> r.0.Ok? && allProcessed(r.0.value, fs.read(file).value)
  {
    match fs.read(file)
    case Err(m) => (Err(ReadFailed(m)), Step(cfg, now, file, st, st.db, Err(ReadFailed(m)), false))
    case Ok(payload) =>
      var ins := InsertJsonData(st.db, dataset, payload, server);
      var delete := ins.0.Ok? && allProcessed(ins.0.value, payload);
      var r := (ins.0, Step(cfg, now, file, st, ins.1, ins.0, delete));
      assert r.1.deleted == st.deleted + [file] ==> delete by {
        if !delete { assert |r.1.deleted| == |st.deleted|; }
      }
      r
  }

  /** The deletion test as written: the tally against `len()` of the
      decoded payload, which for a list is its length but for a single
      object is its number of keys. */
  predicate TallyMatchesLen(stats: Stats, payload: Json)
  {
    PyLen(payload) == Some(Total(stats))
  }

  /** The deletion test as intended: the tally against the number of
      records. */
  predicate TallyMatchesRecords(stats: Stats, payload: Json)
  {
    Total(stats) == |Records(payload)|
  }

  /** `process_single_file` as written. */
  function ProcessSingleFileAsWritten(cfg: LoaderConfig, fs: Files, server: Server, now: nat -> Stamp,
                                      dataset: string, file: string, st: LoadState)
    : (r: (Result<Stats, LoadError>, LoadState))
    ensures r.0.Ok? ==> fs.read(file).Ok?
    ensures r.1.deleted == st.deleted + [file] <==>
      && r.0.Ok?
      && (fs.read(file).value.JArray? || (fs.read(file).value.JObject? && |fs.read(file).value.fields| == 1))
  {
    var r := ProcessFile(cfg, fs, server, now, dataset, file, st, TallyMatchesLen);
    if r.0.Ok? then
      var payload := fs.read(file).value;
      LoadedPayloadShape(st.db, dataset, payload, server);
      LenTallyOfLoadedPayload(r.0.value, payload);
      r
    else r
  }

  /** `process_single_file` with the intended deletion test: a file whose
      load succeeded is deleted, one whose load failed is kept. */
  function ProcessSingleFile(cfg: LoaderConfig, fs: Files, server: Server, now: nat -> Stamp,
                             dataset: string, file: string, st: LoadState)
    : (r: (Result<Stats, LoadError>, LoadState))
    ensures r.1.deleted == (if r.0.Ok? then st.deleted + [file] else st.deleted)
    ensures r.0.Err? ==> r.1.db == st.db
    ensures |r.1.logs| == |st.logs| + 1 && st.logs <= r.1.logs
    ensures r.1.logs[|st.logs|].inputFile == file && r.1.logs[|st.logs|].success == r.0.Ok?
  {
    ProcessFile(cfg, fs, server, now, dataset, file, st, TallyMatchesRecords)
  }

  /** A payload that loads is a list, or an object that becomes the one
      record; either way the tally is the number of records. */
  lemma LoadedPayloadShape(db: map<string, Table>, table: string, payload: Json, server: Server)
    requires InsertJsonData(db, table, payload, server).0.Ok?
    ensures payload.JArray? || payload.JObject?
    ensures TallyMatchesRecords(InsertJsonData(db, table, payload, server).0.value, payload)
  {
    if !payload.JArray? {
      assert Records(payload)[0] == payload;
      assert Problem(table, table in db, Existing(db, table), payload, server).None?;
    }
  }

  /** For a payload that loaded, the test as written holds exactly for a
      list and for an object with a single key. */
  lemma LenTallyOfLoadedPayload(stats: Stats, payload: Json)
    requires payload.JArray? || payload.JObject?
    requires TallyMatchesRecords(stats, payload)
    ensures TallyMatchesLen(stats, payload) <==> payload.JArray? || |payload.fields| == 1
  {
  }

  /** The file `{"id": 1, "x": 2}` loads into an existing table, yet the
      loader as written keeps it: one record was stored, but the object
      has two keys. */
  lemma ObjectFileKept()
    ensures var obj := JObject(map["id" := JNum(1), "x" := JNum(2)]);
      var fs := Files(_ => true, _ => [], _ => Ok(obj));
      var server := Server(None, (_, _, _) => None);
      var st := LoadState(map["who" := map[]], [], []);
      var r := ProcessSingleFileAsWritten(LoaderConfig("/staging", "/logs", ["who"]), fs, server,
                                          _ => Stamp("20240101", "1200"), "who", "/staging/who/a.json", st);
      r.0.Ok? && r.1.deleted == []
  {
    var fields := map["id" := JNum(1), "x" := JNum(2)];
    assert fields.Keys == {"id", "x"};
    assert |fields| == 2;
  }

  // ---------------------------------------------------------------------
  // process_all_files

  /** The input files of the successful log documents, in order. */
  function SucceededFiles(logs: seq<LoadLog>): seq<string>
  {
    if |logs| == 0 then []
    else (if logs[0].success then [logs[0].inputFile] else []) + SucceededFiles(logs[1..])
  }

  /** What processing one file does to the log and the deleted list: one
      log document for the file, telling whether it succeeded; the file is
      deleted only if it succeeded, and nothing else is deleted. */
  predicate StepShape(st: LoadState, file: string, out: (Result<Stats, LoadError>, LoadState))
  {
    && |out.1.logs| == |st.logs| + 1 && st.logs <= out.1.logs
    && out.1.logs[|st.logs|].inputFile == file && out.1.logs[|st.logs|].success == out.0.Ok?
    && (out.1.deleted == st.deleted || (out.0.Ok? && out.1.deleted == st.deleted + [file]))
  }

  /** The file is deleted exactly when it succeeded. */
  predicate DeletesOnSuccess(st: LoadState, file: string, out: (Result<Stats, LoadError>, LoadState))
  {
    out.1.deleted == (if out.0.Ok? then st.deleted + [file] else st.deleted)
  }

  /** Every call of `step` has that shape. */
  ghost predicate WellShaped(step: (string, string, LoadState) -> (Result<Stats, LoadError>, LoadState))
  {
    forall dataset, file, st :: StepShape(st, file, step(dataset, file, st))
  }

  /** Every call of `step` deletes its file exactly when it succeeds. */
  ghost predicate DeletesExactly(step: (string, string, LoadState) -> (Result<Stats, LoadError>, LoadState))
  {
    forall dataset, file, st :: DeletesOnSuccess(st, file, step(dataset, file, st))
  }

  /** The log documents from position `from` on name the files in order,
      one each, and there are at most as many as files. */
  predicate LogsFollow(logs: seq<LoadLog>, from: nat, files: seq<(string, string)>)
  {
    && from <= |logs| <= from + |files|
    && forall k :: from <= k < |logs| ==> logs[k].inputFile == files[k - from].1
  }

  /** Some log document was written from position `from` on, and the last
      one reports a failure. */
  predicate EndsInFailure(logs: seq<LoadLog>, from: nat)
  {
    from < |logs| && !logs[|logs| - 1].success
  }

  /** Processes the files in order, each with `step`; the first failure
      ends the run with its error, after its failure log document. */
  function ProcessFiles(step: (string, string, LoadState) -> (Result<Stats, LoadError>, LoadState),
                        files: seq<(string, string)>, st: LoadState): (r: (Option<LoadError>, LoadState))
    requires WellShaped(step)
    ensures st.logs <= r.1.logs
    ensures r.0.None? ==> |r.1.logs| == |st.logs| + |files|
    ensures r.0.Some? ==> |st.logs| < |r.1.logs| <= |st.logs| + |files| && !r.1.logs[|r.1.logs| - 1].success
    ensures forall k :: |st.logs| <= k < |r.1.logs| ==> r.1.logs[k].inputFile == files[k - |st.logs|].1
    ensures LogsFollow(r.1.logs, |st.logs|, files)
    ensures r.0.Some? ==> EndsInFailure(r.1.logs, |st.logs|)
    ensures forall k :: |st.logs| <= k < |r.1.logs| - 1 ==> r.1.logs[k].success
    ensures r.0.None? ==> forall k :: |st.logs| <= k < |r.1.logs| ==> r.1.logs[k].success
    decreases |files|
  {
    if |files| == 0 then (None, st)
    else
      var one := step(files[0].0, files[0].1, st);
      assert StepShape(st, files[0].1, one);
      if one.0.Err? then (Some(one.0.error), one.1)
      else
        var rest := ProcessFiles(step, files[1..], one.1);
        assert rest.1.logs[|st.logs|] == one.1.logs[|st.logs|];
        rest
  }

  /** The first step of a non-empty run, and the log documents it leaves. */
  lemma ProcessFilesCons(step: (string, string, LoadState) -> (Result<Stats, LoadError>, LoadState),
                         files: seq<(string, string)>, st: LoadState)
    returns (one: (Result<Stats, LoadError>, LoadState))
    requires WellShaped(step) && |files| > 0
    ensures one == step(files[0].0, files[0].1, st) && StepShape(st, files[0].1, one)
    ensures var r := ProcessFiles(step, files, st);
      var first := one.1.logs[|st.logs|];
      && (one.0.Err? ==> r == (Some(one.0.error), one.1) && r.1.logs[|st.logs|..] == [first])
      && (one.0.Ok? ==> r == ProcessFiles(step, files[1..], one.1)
                        && r.1.logs[|st.logs|..] == [first] + r.1.logs[|st.logs| + 1..])
  {
    one := step(files[0].0, files[0].1, st);
    assert StepShape(st, files[0].1, one);
    var r := ProcessFiles(step, files, st);
    var n := |st.logs|;
    if one.0.Ok? {
      assert r.1.logs[n] == one.1.logs[n];
      SuffixCons(r.1.logs, n);
    }
  }

  /** A run deletes only files whose log documents report success, in
      order. */
  lemma {:induction false} ProcessFilesDeletesSucceeded(step: (string, string, LoadState) -> (Result<Stats, LoadError>, LoadState),
                                                        files: seq<(string, string)>, st: LoadState)
    requires WellShaped(step)
    ensures var r := ProcessFiles(step, files, st);
      && st.deleted <= r.1.deleted
      && IsSubsequence(r.1.deleted[|st.deleted|..], SucceededFiles(r.1.logs[|st.logs|..]))
    decreases |files|
  {
    var r := ProcessFiles(step, files, st);
    var n := |st.logs|;
    if |files| == 0 {
      assert r.1.deleted[|st.deleted|..] == [];
    } else {
      var one := ProcessFilesCons(step, files, st);
      var first := one.1.logs[n];
      var mine := one.1.deleted[|st.deleted|..];
      assert mine == [] || (first.success && mine == [first.inputFile]);
      if one.0.Err? {
        assert r.1.deleted[|st.deleted|..] == [];
      } else {
        ProcessFilesDeletesSucceeded(step, files[1..], one.1);
        DeletedJoin(st.deleted, one.1.deleted, r.1.deleted, r.1.logs, n);
      }
    }
  }

  /** With a step that deletes exactly on success, a run deletes exactly
      the files whose log documents report success, in order. */
  lemma {:induction false} ProcessFilesDeletes(step: (string, string, LoadState) -> (Result<Stats, LoadError>, LoadState),
                                               files: seq<(string, string)>, st: LoadState)
    requires WellShaped(step)
    ensures DeletesExactly(step) ==> var r := ProcessFiles(step, files, st);
      r.1.deleted == st.deleted + SucceededFiles(r.1.logs[|st.logs|..])
    decreases |files|
  {
    if DeletesExactly(step) {
      var r := ProcessFiles(step, files, st);
      var n := |st.logs|;
      if |files| == 0 {
        assert r.1.logs[n..] == [];
      } else {
        var one := ProcessFilesCons(step, files, st);
        assert DeletesOnSuccess(st, files[0].1, one);
        var first := one.1.logs[n];
        if one.0.Err? {
          SucceededFilesCons(first, []);
        } else {
          var tail := r.1.logs[n + 1..];
          ProcessFilesDeletes(step, files[1..], one.1);
          SucceededFilesCons(first, tail);
          AppendAssoc(st.deleted, [first.inputFile], SucceededFiles(tail));
        }
      }
    }
  }

  /** One successful step's deletions followed by the later ones are a
      subsequence of the succeeded files. */
  lemma DeletedJoin(d0: seq<string>, d1: seq<string>, d2: seq<string>, logs: seq<LoadLog>, n: nat)
    requires d0 <= d1 <= d2 && n < |logs| && logs[n].success
    requires d1 == d0 || d1 == d0 + [logs[n].inputFile]
    requires IsSubsequence(d2[|d1|..], SucceededFiles(logs[n + 1..]))
    ensures IsSubsequence(d2[|d0|..], SucceededFiles(logs[n..]))
  {
    var first := logs[n];
    var later := d2[|d1|..];
    var ok := SucceededFiles(logs[n + 1..]);
    SuffixCons(logs, n);
    SucceededFilesCons(first, logs[n + 1..]);
    var all := [first.inputFile] + ok;
    assert SucceededFiles(logs[n..]) == all;
    assert all[1..] == ok;
    if d1 == d0 {
      assert d2[|d0|..] == later;
      SubsequenceOfTail(later, all);
    } else {
      assert d2[|d0|..] == [first.inputFile] + later;
      assert ([first.inputFile] + later)[1..] == later;
    }
  }

  lemma SucceededFilesCons(log: LoadLog, logs: seq<LoadLog>)
    ensures SucceededFiles([log] + logs) == (if log.success then [log.inputFile] else []) + SucceededFiles(logs)
  {
    assert ([log] + logs)[1..] == logs;
  }

  /** `process_single_file`, with the intended deletion test, as a step. */
  function SingleFileStep(cfg: LoaderConfig, fs: Files, server: Server, now: nat -> Stamp)
    : (r: (string, string, LoadState) -> (Result<Stats, LoadError>, LoadState))
    ensures WellShaped(r) && DeletesExactly(r)
  {
    var step := (dataset, file, st) => ProcessSingleFile(cfg, fs, server, now, dataset, file, st);
    assert WellShaped(step) && DeletesExactly(step) by {
      forall dataset, file, st
        ensures StepShape(st, file, step(dataset, file, st))
        ensures DeletesOnSuccess(st, file, step(dataset, file, st))
      {
        var out := ProcessSingleFile(cfg, fs, server, now, dataset, file, st);
        assert st.logs == out.1.logs[..|st.logs|];
      }
    }
    step
  }

  /** `process_single_file` as written, as a step: it may keep a file
      whose load succeeded. */
  function SingleFileStepAsWritten(cfg: LoaderConfig, fs: Files, server: Server, now: nat -> Stamp)
    : (r: (string, string, LoadState) -> (Result<Stats, LoadError>, LoadState))
    ensures WellShaped(r)
  {
    var step := (dataset, file, st) => ProcessSingleFileAsWritten(cfg, fs, server, now, dataset, file, st);
    assert WellShaped(step) by {
      forall dataset, file, st
        ensures StepShape(st, file, step(dataset, file, st))
      {
        var out := ProcessFile(cfg, fs, server, now, dataset, file, st, TallyMatchesLen);
        assert out == ProcessSingleFileAsWritten(cfg, fs, server, now, dataset, file, st);
        assert st.logs == out.1.logs[..|st.logs|];
      }
    }
    step
  }

  /** `process_all_files` as written: every configured dataset's staging
      files, in walk order, with the `len()` deletion test; the first
      failure ends the run after its log document, and it deletes only
      files whose load succeeded, in order. */
  function ProcessAllFilesAsWritten(cfg: LoaderConfig, fs: Files, server: Server, now: nat -> Stamp, st: LoadState)
    : (r: (Option<LoadError>, LoadState))
    ensures st.logs <= r.1.logs
    ensures r.0.None? ==> |r.1.logs| == |st.logs| + |Candidates(cfg.stagingDir, fs, cfg.datasets)|
    ensures LogsFollow(r.1.logs, |st.logs|, Candidates(cfg.stagingDir, fs, cfg.datasets))
    ensures r.0.Some? ==> EndsInFailure(r.1.logs, |st.logs|)
    ensures forall k :: |st.logs| <= k < |r.1.logs| ==> EndsWith(r.1.logs[k].inputFile, ".json")
    ensures st.deleted <= r.1.deleted
    ensures IsSubsequence(r.1.deleted[|st.deleted|..], SucceededFiles(r.1.logs[|st.logs|..]))
  {
    var files := Candidates(cfg.stagingDir, fs, cfg.datasets);
    var step := SingleFileStepAsWritten(cfg, fs, server, now);
    ProcessFilesDeletesSucceeded(step, files, st);
    ProcessFiles(step, files, st)
  }

  /** `process_all_files` with the intended deletion test: files in walk
      order, the first failure ending the run after its log document; the
      files deleted are exactly the ones whose load succeeded, in order. */
  function ProcessAllFiles(cfg: LoaderConfig, fs: Files, server: Server, now: nat -> Stamp, st: LoadState)
    : (r: (Option<LoadError>, LoadState))
    ensures st.logs <= r.1.logs
    ensures r.0.None? ==> |r.1.logs| == |st.logs| + |Candidates(cfg.stagingDir, fs, cfg.datasets)|
    ensures LogsFollow(r.1.logs, |st.logs|, Candidates(cfg.stagingDir, fs, cfg.datasets))
    ensures r.0.Some? ==> EndsInFailure(r.1.logs, |st.logs|)
    ensures forall k :: |st.logs| <= k < |r.1.logs| ==> EndsWith(r.1.logs[k].inputFile, ".json")
    ensures r.1.deleted == st.deleted + SucceededFiles(r.1.logs[|st.logs|..])
  {
    var files := Candidates(cfg.stagingDir, fs, cfg.datasets);
    var step := SingleFileStep(cfg, fs, server, now);
    ProcessFilesDeletes(step, files, st);
    ProcessFiles(step, files, st)
  }
}

=== FILE: paths.dfy ===
/** POSIX path manipulation as the pipeline uses it: `os.path.join`,
    `basename`, `dirname`, the root part of `splitext`, and `relpath`
    between two normalised paths. */
module Paths {
  import opened Common
  import opened Text

  /** `os.path.join(a, b)`: an absolute `b` replaces `a`; otherwise a
      single `/` is inserted unless `a` is empty or already ends in one. */
  function PathJoin(a: string, b: string): string
  {
    if StartsWith(b, "/") then b
    else if |a| == 0 || EndsWith(a, "/") then a + b
    else a + "/" + b
  }

  /** Index of the last occurrence of `c` in `s`. */
  function RFind(s: string, c: char): (r: Option<nat>)
    ensures r.Some? ==> r.value < |s| && s[r.value] == c
    ensures r.Some? ==> forall j :: r.value < j < |s| ==> s[j] != c
    ensures r.None? ==> c !in s
  {
    if |s| == 0 then None
    else if s[|s| - 1] == c then Some(|s| - 1)
    else RFind(s[..|s| - 1], c)
  }

  /** `os.path.basename(p)`: everything after the last `/`. */
  function Basename(p: string): string
  {
    match RFind(p, '/')
    case None => p
    case Some(i) => p[i + 1..]
  }

  predicate AllSlashes(s: string)
  {
    forall i :: 0 <= i < |s| ==> s[i] == '/'
  }

  function TrimTrailingSlashes(s: string): string
  {
    if |s| > 0 && s[|s| - 1] == '/' then TrimTrailingSlashes(s[..|s| - 1]) else s
  }

  /** `os.path.dirname(p)`: everything up to the last `/`, with trailing
      slashes removed unless the head consists of slashes only. */
  function Dirname(p: string): string
  {
    var head := match RFind(p, '/') case None => "" case Some(i) => p[..i + 1];
    if |head| > 0 && !AllSlashes(head) then TrimTrailingSlashes(head) else head
  }

  predicate HasNonDot(s: string)
  {
    exists k :: 0 <= k < |s| && s[k] != '.'
  }

  /** `os.path.splitext(name)[0]` for a file name without `/`: the name up
      to its last dot, unless every character before that dot is a dot. */
  function SplitextRoot(name: string): string
  {
    match RFind(name, '.')
    case None => name
    case Some(i) => if HasNonDot(name[..i]) then name[..i] else name
  }

  /** The non-empty `/`-separated components of a path. */
  function Components(p: string): seq<string>
  {
    Filter(Split(p, "/"), (x: string) => |x| > 0)
  }

  function CommonPrefixLength(a: seq<string>, b: seq<string>): (k: nat)
    ensures k <= |a| && k <= |b|
    ensures a[..k] == b[..k]
  {
    if |a| == 0 || |b| == 0 || a[0] != b[0] then 0
    else 1 + CommonPrefixLength(a[1..], b[1..])
  }

  function Repeat(x: string, n: nat): seq<string>
  {
    if n == 0 then [] else [x] + Repeat(x, n - 1)
  }

  /** `os.path.relpath(path, start)` for two paths that are both absolute
      (or both relative to the same directory) and contain no `.` or `..`
      components: climb out of what `start` does not share with `path`, then
      descend into the rest of `path`. */
  function Relpath(path: string, start: string): string
  {
    var pc := Components(path);
    var sc := Components(start);
    var k := CommonPrefixLength(sc, pc);
    var parts := Repeat("..", |sc| - k) + pc[k..];
    if |parts| == 0 then "." else Join(parts, "/")
  }

  /** A relative path whose components are all non-empty: no leading or
      trailing slash and no doubled slash. */
  predicate IsNormalRelative(p: string)
  {
    forall k :: 0 <= k < |Split(p, "/")| ==> |Split(p, "/")[k]| > 0
  }

  // ---------------------------------------------------------------------
  // Properties

  /** The file name joined last is the basename of the result. */
  lemma BasenameOfJoin(a: string, b: string)
    requires '/' !in b
    ensures Basename(PathJoin(a, b)) == b
  {
    var p := PathJoin(a, b);
    assert !StartsWith(b, "/") by {
      if |b| > 0 { assert b[0] in b; }
    }
    if |a| == 0 {
      assert p == b;
    } else {
      var prefix := if EndsWith(a, "/") then a else a + "/";
      assert p == prefix + b;
      assert prefix[|prefix| - 1] == '/';
      LastSlashAt(prefix, b);
    }
  }

  lemma LastSlashAt(prefix: string, b: string)
    requires |prefix| > 0 && prefix[|prefix| - 1] == '/' && '/' !in b
    ensures RFind(prefix + b, '/') == Some(|prefix| - 1)
    decreases |b|
  {
    var s := prefix + b;
    if |b| == 0 {
      assert s == prefix;
    } else {
      assert s[|s| - 1] == b[|b| - 1];
      assert s[..|s| - 1] == prefix + b[..|b| - 1];
      LastSlashAt(prefix, b[..|b| - 1]);
    }
  }

  /** The directory a file name was joined onto is the dirname of the result. */
  lemma DirnameOfJoin(a: string, b: string)
    requires |a| > 0 && !EndsWith(a, "/") && '/' !in b
    ensures Dirname(PathJoin(a, b)) == a
  {
    var prefix := a + "/";
    assert !StartsWith(b, "/") by {
      if |b| > 0 { assert b[0] in b; }
    }
    assert PathJoin(a, b) == prefix + b;
    LastSlashAt(prefix, b);
    var head := (prefix + b)[..|prefix|];
    assert head == prefix;
    assert head[|head| - 1] == '/';
    assert !AllSlashes(head) by {
      assert a[|a| - 1] != '/';
      assert head[|a| - 1] == a[|a| - 1];
    }
    assert TrimTrailingSlashes(prefix) == a by {
      assert prefix[..|prefix| - 1] == a;
    }
  }

  /** A `.json` file name keeps its stem as the root of `splitext`. */
  lemma SplitextRootOfJson(stem: string)
    requires '.' !in stem && |stem| > 0
    ensures SplitextRoot(stem + ".json") == stem
  {
    var name := stem + ".json";
    assert name[..|stem| + 1] == stem + ".";
    assert RFind(name, '.') == Some(|stem|) by {
      assert name[|stem|] == '.';
      assert name[|stem| + 1..] == "json";
      RFindSkip(name, '.', |stem|);
    }
    assert name[..|stem|] == stem;
    assert stem[0] in stem;
  }

  lemma RFindSkip(s: string, c: char, i: nat)
    requires i < |s| && s[i] == c
    requires forall j :: i < j < |s| ==> s[j] != c
    ensures RFind(s, c) == Some(i)
    decreases |s|
  {
    if |s| - 1 != i {
      RFindSkip(s[..|s| - 1], c, i);
    }
  }

  /** With a one-character separator, splitting around an occurrence of it
      splits the two sides independently. */
  lemma {:induction false} SplitAround(a: string, b: string, sep: string)
    requires |sep| == 1
    ensures Split(a + sep + b, sep) == Split(a, sep) + Split(b, sep)
    decreases |a|
  {
    var r := Find(a, sep);
    if r.None? {
      SplitAroundAbsent(a, b, sep);
    } else {
      var i := r.value;
      SplitAround(a[i + 1..], b, sep);
      SplitAroundPresent(a, b, sep, i);
    }
  }

  lemma SplitAroundAbsent(a: string, b: string, sep: string)
    requires |sep| == 1 && Find(a, sep).None?
    ensures Split(a + sep + b, sep) == Split(a, sep) + Split(b, sep)
  {
    var s := a + sep + b;
    AbsentSeparator(a, sep);
    FirstOccurrenceAfter(a, sep, b);
    SplitFound(s, sep, |a|);
    SplitNotFound(a, sep);
    assert s[..|a|] == a;
    assert s[|a| + 1..] == b;
  }

  lemma SplitAroundPresent(a: string, b: string, sep: string, i: nat)
    requires |sep| == 1 && Find(a, sep) == Some(i)
    requires i + 1 <= |a|
    requires Split(a[i + 1..] + sep + b, sep) == Split(a[i + 1..], sep) + Split(b, sep)
    ensures Split(a + sep + b, sep) == Split(a, sep) + Split(b, sep)
  {
    var s := a + sep + b;
    var a' := a[i + 1..];
    var t := a' + sep + b;
    assert Split(s, sep) == [a[..i]] + Split(t, sep) by {
      SliceAround(a, sep, b, i);
      FindInPrefix(a, sep, b, sep);
      SplitFound(s, sep, i);
    }
    assert Split(a, sep) == [a[..i]] + Split(a', sep) by {
      SplitFound(a, sep, i);
    }
    AppendAssoc([a[..i]], Split(a', sep), Split(b, sep));
  }

  lemma SliceAround(a: string, sep: string, b: string, i: nat)
    requires i + 1 <= |a| && |sep| == 1
    ensures (a + sep + b)[..i] == a[..i]
    ensures (a + sep + b)[i + 1..] == a[i + 1..] + sep + b
  {
  }

  lemma SplitFound(s: string, sep: string, i: nat)
    requires |sep| > 0 && Find(s, sep) == Some(i)
    ensures i + |sep| <= |s|
    ensures Split(s, sep) == [s[..i]] + Split(s[i + |sep|..], sep)
  {
  }

  lemma SplitNotFound(s: string, sep: string)
    requires |sep| > 0 && Find(s, sep).None?
    ensures Split(s, sep) == [s]
  {
  }

  lemma AbsentSeparator(a: string, sep: string)
    requires |sep| == 1 && Find(a, sep).None?
    ensures sep[0] !in a
  {
    forall j | 0 <= j < |a|
      ensures a[j] != sep[0]
    {
      assert !OccursAt(a, sep, j);
      assert a[j..j + 1] == [a[j]];
    }
  }

  /** An occurrence found in a prefix is still the first one after
      anything is appended. */
  lemma FindInPrefix(a: string, t1: string, t2: string, sep: string)
    requires Find(a, sep).Some?
    ensures Find(a + t1 + t2, sep) == Find(a, sep)
  {
    var i := Find(a, sep).value;
    var s := a + t1 + t2;
    assert s[i..i + |sep|] == a[i..i + |sep|];
    assert OccursAt(s, sep, i);
    forall j | 0 <= j < i
      ensures !OccursAt(s, sep, j)
    {
      assert !OccursAt(a, sep, j);
      assert s[j..j + |sep|] == a[j..j + |sep|];
    }
  }

  /** Joining `base` and a relative `rest` concatenates their components. */
  lemma ComponentsOfJoin(base: string, rest: string)
    requires !StartsWith(rest, "/")
    ensures Components(PathJoin(base, rest)) == Components(base) + Components(rest)
  {
    if |base| == 0 {
      assert Split(base, "/") == [""];
      assert PathJoin(base, rest) == rest;
    } else if EndsWith(base, "/") {
      ComponentsOfJoinAfterSlash(base, rest);
    } else {
      assert PathJoin(base, rest) == base + "/" + rest;
      ComponentsAround(base, rest);
    }
  }

  lemma ComponentsOfJoinAfterSlash(base: string, rest: string)
    requires !StartsWith(rest, "/") && |base| > 0 && EndsWith(base, "/")
    ensures Components(PathJoin(base, rest)) == Components(base) + Components(rest)
  {
    var a := base[..|base| - 1];
    assert base == a + "/" + "";
    assert PathJoin(base, rest) == a + "/" + rest;
    ComponentsAround(a, rest);
    ComponentsAround(a, "");
    assert Components("") == [];
  }

  lemma ComponentsAround(a: string, b: string)
    ensures Components(a + "/" + b) == Components(a) + Components(b)
  {
    SplitAround(a, b, "/");
    FilterAppend(Split(a, "/"), Split(b, "/"), (x: string) => |x| > 0);
  }

  lemma {:induction false} CommonPrefixOfExtension(a: seq<string>, b: seq<string>)
    ensures CommonPrefixLength(a, a + b) == |a|
  {
    if |a| > 0 {
      assert (a + b)[1..] == a[1..] + b;
      CommonPrefixOfExtension(a[1..], b);
    }
  }

  lemma {:induction false} FilterNonEmptyIdentity(s: seq<string>)
    requires forall k :: 0 <= k < |s| ==> |s[k]| > 0
    ensures Filter(s, (x: string) => |x| > 0) == s
  {
    if |s| > 0 {
      FilterNonEmptyIdentity(s[1..]);
    }
  }

  /** The path of a file below `start`, relative to `start`, is the part
      that was joined onto `start`. */
  lemma RelpathOfJoin(start: string, rest: string)
    requires |rest| > 0 && IsNormalRelative(rest)
    ensures Relpath(PathJoin(start, rest), start) == rest
  {
    assert !StartsWith(rest, "/");
    ComponentsOfJoin(start, rest);
    var sc := Components(start);
    var rc := Components(rest);
    FilterNonEmptyIdentity(Split(rest, "/"));
    assert rc == Split(rest, "/");
    CommonPrefixOfExtension(sc, rc);
    assert (sc + rc)[|sc|..] == rc;
    assert Repeat("..", 0) == [];
    assert [] + rc == rc;
    JoinSplit(rest, "/");
  }

  /** Joining a non-empty name without `/` gives a non-empty path that does
      not end in `/`. */
  lemma JoinedFileName(a: string, b: string)
    requires '/' !in b && |b| > 0
    ensures |PathJoin(a, b)| > 0 && !EndsWith(PathJoin(a, b), "/")
  {
    assert !StartsWith(b, "/") by {
      assert b[0] in b;
    }
    var p := PathJoin(a, b);
    assert p[|p| - 1] == b[|b| - 1];
    assert b[|b| - 1] in b;
  }

  /** The file `<stem>.json` in the sub-directory `sub` of `base`: its base
      name is `<stem>.json` and its directory is `base/sub`. */
  lemma JsonFileInSubdir(base: string, sub: string, stem: string)
    requires |sub| > 0 && '/' !in sub && '/' !in stem
    ensures Basename(PathJoin(PathJoin(base, sub), stem + ".json")) == stem + ".json"
    ensures Dirname(PathJoin(PathJoin(base, sub), stem + ".json")) == PathJoin(base, sub)
  {
    var dir := PathJoin(base, sub);
    var name := stem + ".json";
    assert '/' !in name by {
      forall i | 0 <= i < |name| ensures name[i] != '/' {
        if i < |stem| { assert name[i] in stem; }
      }
    }
    JoinedFileName(base, sub);
    BasenameOfJoin(dir, name);
    DirnameOfJoin(dir, name);
  }

  /** Joining a directory path and then a file name is joining the
      relative path `d/t` in one go. */
  lemma JoinNested(s: string, d: string, t: string)
    requires |d| > 0 && !StartsWith(d, "/") && !EndsWith(d, "/") && !StartsWith(t, "/")
    ensures PathJoin(PathJoin(s, d), t) == PathJoin(s, d + "/" + t)
  {
    var sd := PathJoin(s, d);
    assert !StartsWith(d, "/");
    assert sd[|sd| - 1] == d[|d| - 1] by {
      assert sd == d || sd == s + d || sd == s + "/" + d;
    }
    assert !StartsWith(d + "/" + t, "/") by {
      assert (d + "/" + t)[0] == d[0];
    }
    assert PathJoin(sd, t) == PathJoin(s, d + "/" + t) by {
      if StartsWith(t, "/") {
      } else if |s| == 0 {
        assert sd == d;
      } else if EndsWith(s, "/") {
        assert sd == s + d;
        AppendAssoc(s, d, "/" + t);
      } else {
        assert sd == s + "/" + d;
      }
    }
  }

  /** A normal relative path neither starts nor ends with `/`. */
  lemma NormalRelativeEnds(d: string)
    requires |d| > 0 && IsNormalRelative(d)
    ensures !StartsWith(d, "/") && !EndsWith(d, "/")
  {
    var parts := Split(d, "/");
    assert |parts[0]| > 0 && |parts[|parts| - 1]| > 0;
    SplitEmpty();
    if StartsWith(d, "/") {
      assert false;
    }
    if EndsWith(d, "/") {
      assert d == d[..|d| - 1] + "/" + "";
      SplitAround(d[..|d| - 1], "", "/");
      assert false;
    }
  }

  lemma SplitEmpty()
    ensures Split("", "/") == [""]
  {
  }

  /** Appending a file name to a normal relative path keeps it normal. */
  lemma NormalRelativeExtended(d: string, t: string)
    requires IsNormalRelative(d) && |t| > 0 && '/' !in t
    ensures IsNormalRelative(d + "/" + t)
  {
    SplitAround(d, t, "/");
    NoOccurrence(t, "/");
    SplitNotFound(t, "/");
  }

  /** A file `name` in the directory `d` below `start`: its path relative
      to `start` is `d/name`, whose directory part is `d`. */
  lemma FileBelow(start: string, d: string, name: string)
    requires |d| > 0 && IsNormalRelative(d) && |name| > 0 && '/' !in name
    ensures Relpath(PathJoin(start, d + "/" + name), start) == d + "/" + name
    ensures Dirname(d + "/" + name) == d
  {
    NormalRelativeEnds(d);
    NormalRelativeExtended(d, name);
    RelpathOfJoin(start, d + "/" + name);
    assert PathJoin(d, name) == d + "/" + name by {
      assert !StartsWith(name, "/") by { assert name[0] in name; }
    }
    DirnameOfJoin(d, name);
  }
}

=== FILE: probe.dfy ===
/** The process-table probe of `is_task_running` (c_scheduler.py): a line of
    `ps aux` output is searched for the pattern `[p]ython3 <name>( |$)`.

    The pattern is handed to `grep` without `-E`, so it is a POSIX basic
    regular expression. There `(`, `|` and `)` are ordinary characters, and
    `$` is an anchor only at the very end of the pattern, so the trailing
    `( |$)` is five literal characters. What was meant is the extended
    reading: the name followed by a space or by the end of the line. Both
    readings are modelled; the rest of the model uses the intended one. */
module Probe {
  import opened Text

  /** One position of a compiled pattern: a literal character, or `.`,
      which matches any character. */
  datatype Atom = Lit(c: char) | AnyChar

  predicate AtomMatches(a: Atom, c: char)
  {
    match a
    case Lit(d) => c == d
    case AnyChar => true
  }

  /** A task name as pattern text: its `.` are wildcards, every other
      character stands for itself. */
  function NameAtoms(name: string): (r: seq<Atom>)
    ensures |r| == |name|
    ensures forall k :: 0 <= k < |name| ==> AtomMatches(r[k], name[k])
  {
    seq(|name|, k requires 0 <= k < |name| => if name[k] == '.' then AnyChar else Lit(name[k]))
  }

  function Literal(s: string): (r: seq<Atom>)
    ensures |r| == |s|
    ensures forall k :: 0 <= k < |s| ==> r[k] == Lit(s[k])
  {
    seq(|s|, k requires 0 <= k < |s| => Lit(s[k]))
  }

  /** `[p]ython3 <name>`: the bracket `[p]` is the one-character class of
      `p`, which keeps the `grep` process from matching its own command line. */
  function CommandPattern(name: string): seq<Atom>
  {
    [Lit('p')] + Literal("ython3 ") + NameAtoms(name)
  }

  /** The pattern matches `line` at position `i`. */
  predicate MatchesAt(line: string, pat: seq<Atom>, i: nat)
  {
    i + |pat| <= |line| && forall k :: 0 <= k < |pat| ==> AtomMatches(pat[k], line[i + k])
  }

  /** The pattern as `grep` reads it: the command, then the literal text `( |$)`. */
  function WrittenPattern(name: string): seq<Atom>
  {
    CommandPattern(name) + Literal("( |$)")
  }

  /** The first position at or after `from` where the pattern matches. */
  function SearchFrom(line: string, pat: seq<Atom>, from: nat): (r: bool)
    ensures r <==> exists i :: from <= i && MatchesAt(line, pat, i)
    decreases |line| - from
  {
    if from + |pat| > |line| then false
    else if MatchesAt(line, pat, from) then true
    else SearchFrom(line, pat, from + 1)
  }

  /** A `ps` line matches the probe as written. */
  predicate LineMatchesAsWritten(line: string, name: string)
  {
    SearchFrom(line, WrittenPattern(name), 0)
  }

  /** The pattern matches at `i` and ends at a space or at the end of the line. */
  predicate MatchesAnchoredAt(line: string, pat: seq<Atom>, i: nat)
  {
    MatchesAt(line, pat, i) && (i + |pat| == |line| || line[i + |pat|] == ' ')
  }

  function SearchAnchoredFrom(line: string, pat: seq<Atom>, from: nat): (r: bool)
    ensures r <==> exists i :: from <= i && MatchesAnchoredAt(line, pat, i)
    decreases |line| - from
  {
    if from + |pat| > |line| then false
    else if MatchesAnchoredAt(line, pat, from) then true
    else SearchAnchoredFrom(line, pat, from + 1)
  }

  /** A `ps` line matches the probe as intended: `python3 <name>` followed
      by a space or the end of the line. */
  predicate LineMatches(line: string, name: string)
  {
    SearchAnchoredFrom(line, CommandPattern(name), 0)
  }

  /** `is_task_running` over one `ps aux` listing: some line matches. An
      empty listing (also what a failing `ps` amounts to) gives `false`. */
  function AnyLineMatches(lines: seq<string>, name: string): (r: bool)
    ensures r <==> exists k :: 0 <= k < |lines| && LineMatches(lines[k], name)
  {
    if |lines| == 0 then false
    else LineMatches(lines[0], name) || AnyLineMatches(lines[1..], name)
  }

  // ---------------------------------------------------------------------
  // Properties

  /** As written, the probe reports a line only if the line contains the
      five characters `( |$)` literally, which no command line of a
      launched task does. */
  lemma AsWrittenNeedsLiteralSuffix(line: string, name: string)
    requires LineMatchesAsWritten(line, name)
    ensures Contains(line, "( |$)")
  {
    var pat := WrittenPattern(name);
    var i: nat :| MatchesAt(line, pat, i);
    var j := i + |CommandPattern(name)|;
    forall k | 0 <= k < 5
      ensures line[j..j + 5][k] == "( |$)"[k]
    {
      assert pat[|CommandPattern(name)| + k] == Lit("( |$)"[k]);
    }
    assert OccursAt(line, "( |$)", j);
  }

  /** The line of a task started as `python3 start_extract.py`: found by the
      intended probe, missed by the probe as written. */
  lemma AsWrittenMissesRunningTask()
    ensures LineMatches("python3 start_extract.py", "start_extract.py")
    ensures !LineMatchesAsWritten("python3 start_extract.py", "start_extract.py")
  {
    var line := "python3 start_extract.py";
    var pat := CommandPattern("start_extract.py");
    assert |pat| == |line|;
    forall k | 0 <= k < |pat|
      ensures AtomMatches(pat[k], line[k])
    {
      if k == 0 {
      } else if k < 8 {
        assert pat[k] == Literal("ython3 ")[k - 1];
      } else {
        assert pat[k] == NameAtoms("start_extract.py")[k - 8];
      }
    }
    assert MatchesAnchoredAt(line, pat, 0);
  }

  /** The intended probe is anchored: the name `start_extract` does not
      match a line running `start_extract_v2`. */
  lemma AnchoredRejectsLongerName()
    ensures !LineMatches("python3 start_extract_v2", "start_extract")
  {
    var line := "python3 start_extract_v2";
    var pat := CommandPattern("start_extract");
    assert |pat| == 21;
    forall i: nat | MatchesAt(line, pat, i)
      ensures !MatchesAnchoredAt(line, pat, i)
    {
      assert AtomMatches(pat[0], line[i]);
      assert AtomMatches(pat[1], line[i + 1]);
    }
  }

  /** Probing by a configuration key such as `start_extract` misses the
      script `start_extract.py`: the key is followed by `.`, not by a space
      or the end of the line. */
  lemma KeyProbeMissesScript()
    ensures !LineMatches("python3 start_extract.py", "start_extract")
  {
    var line := "python3 start_extract.py";
    var pat := CommandPattern("start_extract");
    assert |pat| == 21;
    forall i: nat | MatchesAt(line, pat, i)
      ensures !MatchesAnchoredAt(line, pat, i)
    {
      assert AtomMatches(pat[0], line[i]);
    }
  }

  /** A script launched by its configured path, `python3
      scripts/start_extract.py`, is missed by the probe for its base name:
      the pattern wants the name right after `python3 `. */
  lemma PathLaunchMissedByBasenameProbe()
    ensures !LineMatches("python3 scripts/start_extract.py", "start_extract.py")
  {
    var line := "python3 scripts/start_extract.py";
    var pat := CommandPattern("start_extract.py");
    assert |pat| == 24;
    forall i: nat | i + 24 <= |line|
      ensures !MatchesAt(line, pat, i)
    {
      if i == 0 {
        assert pat[9] == NameAtoms("start_extract.py")[1] == Lit('t');
        assert !AtomMatches(pat[9], line[9]);
      } else {
        assert !AtomMatches(pat[0], line[i]);
      }
    }
  }
}

=== FILE: psql.dfy ===
/** The database set-up (c_psql.py): the CREATE TABLE statement built from
    a dataset's staging schema, the reconciliation that adds the declared
    columns a table lacks, the action log, and the pass over every
    configured dataset.

    The database is a catalogue from table name to column names, in
    order. Statements act on it as PostgreSQL does for the cases the code
    meets (an existing table is left alone by `CREATE TABLE IF NOT
    EXISTS`; adding a column to a missing table or adding a column twice
    fails); any other refusal (a bad type name, a lost connection, missing
    privileges) is an oracle of the server. */
module Psql {
  import opened Common
  import opened Text

  /** One declared column: its name and its SQL type with constraints. */
  datatype Column = Column(name: string, sqlType: string)

  /** A dataset's `staging_schema`. */
  datatype Schema = Schema(tableName: string, columns: seq<Column>)

  /** A dataset entry of the configuration; `schema` is absent when the
      entry has no `staging_schema`. */
  datatype DatasetEntry = DatasetEntry(name: string, schema: Option<Schema>)

  type Catalogue = map<string, seq<string>>

  /** The statements the set-up issues. */
  datatype Statement =
    | CreateTable(schema: Schema)
    | SelectColumns(table: string)
    | AddColumn(table: string, column: Column)

  datatype SqlError = Refused(message: string) | NoSuchRelation(table: string) | DuplicateColumn(column: string)

  /** The server refuses a statement with this text, or runs it. */
  datatype Server = Server(refuse: Statement -> Option<string>)

  datatype Level = Info | Error

  /** The messages of the action log. */
  datatype Message =
    | TableCreated(table: string)
    | CreateFailed(table: string, error: SqlError)
    | ColumnAdded(column: string, table: string)
    | AlterFailed(table: string, error: SqlError)

  datatype LogEntry = LogEntry(level: Level, message: Message)

  /** What stops a call before any statement: the dataset is not
      configured, or its entry has no schema. */
  datatype PsqlError = UnknownDataset(name: string) | NoSchema(name: string)

  /** The catalogue, the action log, and the number of pooled connections
      checked out. */
  datatype Psql = Psql(catalogue: Catalogue, log: seq<LogEntry>, checkedOut: nat)

  // ---------------------------------------------------------------------
  // The CREATE TABLE statement

  function Names(cols: seq<Column>): (r: seq<string>)
    ensures |r| == |cols| && forall k :: 0 <= k < |r| ==> r[k] == cols[k].name
  {
    seq(|cols|, k requires 0 <= k < |cols| => cols[k].name)
  }

  /** `"<name> <type>"` for each column, in declaration order. */
  function Definitions(cols: seq<Column>): (r: seq<string>)
    ensures |r| == |cols| && forall k :: 0 <= k < |r| ==> r[k] == cols[k].name + " " + cols[k].sqlType
  {
    seq(|cols|, k requires 0 <= k < |cols| => cols[k].name + " " + cols[k].sqlType)
  }

  /** The column definitions joined by `", "`. */
  function ColumnDefinitions(cols: seq<Column>): string
  {
    Join(Definitions(cols), ", ")
  }

  /** The statement `create_table_from_schema` issues. */
  function CreateTableSql(schema: Schema): string
  {
    "CREATE TABLE IF NOT EXISTS " + schema.tableName + " (" + ColumnDefinitions(schema.columns) + ");"
  }

  /** Reading a column list back: split at `", "` and take each
      definition up to its first space. */
  function ParseColumnNames(defs: string): seq<string>
  {
    var parts := Split(defs, ", ");
    seq(|parts|, k requires 0 <= k < |parts| => DefinitionName(parts[k]))
  }

  function DefinitionName(d: string): string
  {
    match Find(d, " ")
    case Some(i) => d[..i]
    case None => d
  }

  /** A column whose name has no space and no comma and whose type has no
      comma, so that its definition can be read back. */
  predicate PlainColumn(c: Column)
  {
    ' ' !in c.name && ',' !in c.name && ',' !in c.sqlType
  }

  // ---------------------------------------------------------------------
  // Executing statements

  /** A schema's column names are pairwise different. */
  predicate DistinctColumns(s: Schema)
  {
    Distinct(Names(s.columns))
  }

  /** `CREATE TABLE IF NOT EXISTS`: an existing table is left as it is; a
      new one gets the declared columns; declaring a name twice fails. */
  function CreateTableEffect(cat: Catalogue, schema: Schema, server: Server): (r: Result<Catalogue, SqlError>)
    ensures r.Ok? && schema.tableName in cat ==> r.value == cat
    ensures r.Ok? && schema.tableName !in cat ==> r.value == cat[schema.tableName := Names(schema.columns)]
    ensures r.Ok? <==> server.refuse(CreateTable(schema)).None? && (schema.tableName in cat || DistinctColumns(schema))
  {
    match server.refuse(CreateTable(schema))
    case Some(m) => Err(Refused(m))
    case None =>
      if schema.tableName in cat then Ok(cat)
      else match Repeated(Names(schema.columns), {})
        case Some(name) => Err(DuplicateColumn(name))
        case None => Ok(cat[schema.tableName := Names(schema.columns)])
  }

  /** Scanning `names` left to right, the first one already seen (in
      `seen` or earlier in `names`): the column PostgreSQL reports as
      specified more than once. */
  function Repeated(names: seq<string>, seen: set<string>): (r: Option<string>)
    ensures r.None? <==> Distinct(names) && forall k :: 0 <= k < |names| ==> names[k] !in seen
    ensures r.Some? ==> r.value in names
    decreases |names|
  {
    if |names| == 0 then None
    else if names[0] in seen then Some(names[0])
    else
      var r := Repeated(names[1..], seen + {names[0]});
      assert r.None? <==> Distinct(names) && forall k :: 0 <= k < |names| ==> names[k] !in seen by {
        if r.None? {
          forall i, j | 0 <= i < j < |names|
            ensures names[i] != names[j]
          {
            assert names[j] == names[1..][j - 1];
            if i > 0 { assert names[i] == names[1..][i - 1]; }
          }
        }
        if Distinct(names) && forall k :: 0 <= k < |names| ==> names[k] !in seen {
          forall k | 0 <= k < |names[1..]|
            ensures names[1..][k] !in seen + {names[0]}
          {
            assert names[1..][k] == names[k + 1];
          }
          forall i, j | 0 <= i < j < |names[1..]|
            ensures names[1..][i] != names[1..][j]
          {
            assert names[1..][i] == names[i + 1] && names[1..][j] == names[j + 1];
          }
        }
      }
      r
  }

  /** `ALTER TABLE t ADD COLUMN c type`. */
  function AddColumnEffect(cat: Catalogue, table: string, c: Column, server: Server): (r: Result<Catalogue, SqlError>)
    ensures r.Ok? <==> server.refuse(AddColumn(table, c)).None? && table in cat && c.name !in cat[table]
    ensures r.Ok? ==> r.value == cat[table := cat[table] + [c.name]]
  {
    match server.refuse(AddColumn(table, c))
    case Some(m) => Err(Refused(m))
    case None =>
      if table !in cat then Err(NoSuchRelation(table))
      else if c.name in cat[table] then Err(DuplicateColumn(c.name))
      else Ok(cat[table := cat[table] + [c.name]])
  }

  /** The column names `information_schema.columns` lists for a table:
      none for a table that does not exist. */
  function CurrentColumns(cat: Catalogue, table: string): set<string>
  {
    if table in cat then set c | c in cat[table] else {}
  }

  // ---------------------------------------------------------------------
  // log_action

  /** `log_action`: one entry appended, at level INFO unless told
      otherwise. */
  function LogAction(log: seq<LogEntry>, message: Message, level: Level := Info): (r: seq<LogEntry>)
    ensures |r| == |log| + 1 && log <= r
    ensures r[|log|].message == message && r[|log|].level == level
  {
    log + [LogEntry(level, message)]
  }

  // ---------------------------------------------------------------------
  // alter_table_for_schema

  /** The declared columns whose names the table does not have, in
      declaration order. */
  function MissingColumns(cols: seq<Column>, current: set<string>): (r: seq<Column>)
    ensures forall k :: 0 <= k < |r| ==> r[k] in cols && r[k].name !in current
    ensures forall k :: 0 <= k < |cols| && cols[k].name !in current ==> cols[k] in r
  {
    Filter(cols, (c: Column) => c.name !in current)
  }

  /** Every table keeps its columns, in order, with possibly more after
      them; no table disappears. */
  predicate Grows(before: Catalogue, after: Catalogue)
  {
    && before.Keys <= after.Keys
    && forall t :: t in before ==> before[t] <= after[t]
  }

  /** The loop of `alter_table_for_schema`: each declared column whose
      name was not among the table's columns when they were read gets one
      ALTER, committed at once and logged; the first failing ALTER is
      logged and ends the loop (the columns added before it stay). */
  function AddMissing(table: string, cols: seq<Column>, current: set<string>, server: Server,
                      cat: Catalogue, log: seq<LogEntry>): (r: (Catalogue, seq<LogEntry>, Option<SqlError>))
    ensures Grows(cat, r.0) && log <= r.1
    ensures forall t :: t in cat && t != table ==> r.0[t] == cat[t]
    ensures r.0.Keys == cat.Keys
    ensures r.2.Some? ==> |r.1| > |log| && r.1[|r.1| - 1] == LogEntry(Error, AlterFailed(table, r.2.value))
    decreases |cols|
  {
    if |cols| == 0 then (cat, log, None)
    else if cols[0].name in current then AddMissing(table, cols[1..], current, server, cat, log)
    else
      var step := AddColumnEffect(cat, table, cols[0], server);
      if step.Err? then (cat, LogAction(log, AlterFailed(table, step.error), Error), Some(step.error))
      else
        assert Grows(cat, step.value);
        var r := AddMissing(table, cols[1..], current, server, step.value,
                            LogAction(log, ColumnAdded(cols[0].name, table)));
        GrowsTrans(cat, step.value, r.0);
        r
  }

  lemma GrowsTrans(a: Catalogue, b: Catalogue, c: Catalogue)
    requires Grows(a, b) && Grows(b, c)
    ensures Grows(a, c)
  {
    forall t | t in a
      ensures a[t] <= c[t]
    {
      assert a[t] <= b[t] && b[t] <= c[t];
    }
  }

  /** The schema of a dataset, or why there is none. */
  function SchemaOf(cfg: seq<DatasetEntry>, name: string): (r: Result<Schema, PsqlError>)
    ensures r.Ok? ==> exists k :: 0 <= k < |cfg| && cfg[k].name == name && cfg[k].schema == Some(r.value)
    ensures r == Err(UnknownDataset(name)) <==> forall k :: 0 <= k < |cfg| ==> cfg[k].name != name
    decreases |cfg|
  {
    if |cfg| == 0 then Err(UnknownDataset(name))
    else if cfg[0].name == name then
      match cfg[0].schema
      case Some(s) => Ok(s)
      case None => Err(NoSchema(name))
    else
      var r := SchemaOf(cfg[1..], name);
      assert r.Ok? ==> cfg[1..] <= cfg[1..] && exists k :: 1 <= k < |cfg| && cfg[k].name == name && cfg[k].schema == Some(r.value) by {
        if r.Ok? {
          var k :| 0 <= k < |cfg[1..]| && cfg[1..][k].name == name && cfg[1..][k].schema == Some(r.value);
          assert cfg[k + 1] == cfg[1..][k];
        }
      }
      assert (forall k :: 0 <= k < |cfg| ==> cfg[k].name != name) <==> (forall k :: 0 <= k < |cfg[1..]| ==> cfg[1..][k].name != name) by {
        if forall k :: 0 <= k < |cfg[1..]| ==> cfg[1..][k].name != name {
          forall k | 0 <= k < |cfg|
            ensures cfg[k].name != name
          {
            if k > 0 { assert cfg[k] == cfg[1..][k - 1]; }
          }
        }
      }
      r
  }

  /** `alter_table_for_schema`: read the table's columns, then add the
      missing declared ones. A failure is logged, not raised; only a
      dataset without a schema raises. */
  function AlterTableForSchema(cfg: seq<DatasetEntry>, dataset: string, server: Server, st: Psql): (r: Result<Psql, PsqlError>)
    ensures r.Err? <==> SchemaOf(cfg, dataset).Err?
    ensures r.Err? ==> r.error == SchemaOf(cfg, dataset).error
    ensures r.Ok? ==> Grows(st.catalogue, r.value.catalogue) && st.log <= r.value.log
    ensures r.Ok? ==> r.value.catalogue.Keys == st.catalogue.Keys && r.value.checkedOut == st.checkedOut
    ensures r.Ok? ==> forall t :: t in st.catalogue && t != SchemaOf(cfg, dataset).value.tableName ==>
                        r.value.catalogue[t] == st.catalogue[t]
  {
    match SchemaOf(cfg, dataset)
    case Err(e) => Err(e)
    case Ok(schema) =>
      var table := schema.tableName;
      match server.refuse(SelectColumns(table))
      case Some(m) =>
        assert Grows(st.catalogue, st.catalogue);
        Ok(st.(log := LogAction(st.log, AlterFailed(table, Refused(m)), Error)))
      case None =>
        var r := AddMissing(table, schema.columns, CurrentColumns(st.catalogue, table), server, st.catalogue, st.log);
        Ok(st.(catalogue := r.0, log := r.1))
  }

  // ---------------------------------------------------------------------
  // create_table_from_schema

  /** `create_table_from_schema`: issue the CREATE TABLE; when it fails,
      log the failure and stop (the rollback leaves the catalogue as it
      was); when it succeeds, log the table as created (even when it
      already existed) and reconcile its columns. */
  function CreateTableFromSchema(cfg: seq<DatasetEntry>, dataset: string, server: Server, st: Psql): (r: Result<Psql, PsqlError>)
    ensures r.Err? <==> SchemaOf(cfg, dataset).Err?
    ensures r.Ok? ==> Grows(st.catalogue, r.value.catalogue) && st.log <= r.value.log && |r.value.log| > |st.log|
    ensures r.Ok? ==> r.value.checkedOut == st.checkedOut
    ensures r.Ok? ==> r.value.catalogue.Keys <= st.catalogue.Keys + {SchemaOf(cfg, dataset).value.tableName}
    ensures r.Ok? ==> forall t :: t in st.catalogue && t != SchemaOf(cfg, dataset).value.tableName ==>
                        r.value.catalogue[t] == st.catalogue[t]
    ensures r.Ok? && CreateTableEffect(st.catalogue, SchemaOf(cfg, dataset).value, server).Err? ==>
              && r.value.catalogue == st.catalogue
              && r.value.log == st.log + [LogEntry(Error, CreateFailed(SchemaOf(cfg, dataset).value.tableName,
                                                                       CreateTableEffect(st.catalogue, SchemaOf(cfg, dataset).value, server).error))]
  {
    match SchemaOf(cfg, dataset)
    case Err(e) => Err(e)
    case Ok(schema) =>
      var table := schema.tableName;
      var created := CreateTableEffect(st.catalogue, schema, server);
      if created.Err? then
        assert Grows(st.catalogue, st.catalogue);
        Ok(st.(log := LogAction(st.log, CreateFailed(table, created.error), Error)))
      else
        var st1 := st.(catalogue := created.value, log := LogAction(st.log, TableCreated(table)));
        assert Grows(st.catalogue, st1.catalogue);
        var r := AlterTableForSchema(cfg, dataset, server, st1);
        GrowsTrans(st.catalogue, st1.catalogue, r.value.catalogue);
        r
  }

  // ---------------------------------------------------------------------
  // create_all_tables

  /** The loop of `create_all_tables` over the configured datasets, in
      order; an error from one dataset ends the loop. */
  function CreateEach(cfg: seq<DatasetEntry>, names: seq<string>, server: Server, st: Psql): (r: (Option<PsqlError>, Psql))
    ensures Grows(st.catalogue, r.1.catalogue) && st.log <= r.1.log
    ensures r.1.checkedOut == st.checkedOut
    ensures r.0.None? <==> forall k :: 0 <= k < |names| ==> SchemaOf(cfg, names[k]).Ok?
    decreases |names|
  {
    if |names| == 0 then
      assert Grows(st.catalogue, st.catalogue);
      (None, st)
    else
      var one := CreateTableFromSchema(cfg, names[0], server, st);
      if one.Err? then (Some(one.error), st)
      else
        var r := CreateEach(cfg, names[1..], server, one.value);
        GrowsTrans(st.catalogue, one.value.catalogue, r.1.catalogue);
        assert (forall k :: 0 <= k < |names| ==> SchemaOf(cfg, names[k]).Ok?) <==>
               (forall k :: 0 <= k < |names[1..]| ==> SchemaOf(cfg, names[1..][k]).Ok?) by {
          if forall k :: 0 <= k < |names[1..]| ==> SchemaOf(cfg, names[1..][k]).Ok? {
            forall k | 0 <= k < |names|
              ensures SchemaOf(cfg, names[k]).Ok?
            {
              if k > 0 { assert names[k] == names[1..][k - 1]; }
            }
          }
        }
        r
  }

  /** With distinct dataset names, a dataset's schema is its entry's. */
  lemma {:induction false} SchemaOfEntry(cfg: seq<DatasetEntry>, k: nat)
    requires k < |cfg| && Distinct(EntryNames(cfg))
    ensures SchemaOf(cfg, cfg[k].name).Ok? <==> cfg[k].schema.Some?
    ensures cfg[k].schema.Some? ==> SchemaOf(cfg, cfg[k].name).value == cfg[k].schema.value
    decreases k
  {
    if k > 0 {
      assert EntryNames(cfg)[0] != EntryNames(cfg)[k];
      assert Distinct(EntryNames(cfg[1..])) by {
        forall i, j | 0 <= i < j < |cfg[1..]|
          ensures EntryNames(cfg[1..])[i] != EntryNames(cfg[1..])[j]
        {
          assert EntryNames(cfg)[i + 1] != EntryNames(cfg)[j + 1];
        }
      }
      assert cfg[1..][k - 1] == cfg[k];
      SchemaOfEntry(cfg[1..], k - 1);
    }
  }

  /** The configured dataset names, in configuration order. */
  function EntryNames(cfg: seq<DatasetEntry>): (r: seq<string>)
    ensures |r| == |cfg| && forall k :: 0 <= k < |r| ==> r[k] == cfg[k].name
  {
    seq(|cfg|, k requires 0 <= k < |cfg| => cfg[k].name)
  }

  /** `create_all_tables`: one pooled connection for the whole pass,
      returned to the pool whether the pass ends normally or with an
      error. */
  function CreateAllTables(cfg: seq<DatasetEntry>, server: Server, st: Psql): (r: (Option<PsqlError>, Psql))
    requires Distinct(EntryNames(cfg))
    ensures r.1.checkedOut == st.checkedOut
    ensures Grows(st.catalogue, r.1.catalogue) && st.log <= r.1.log
  {
    var held := st.(checkedOut := st.checkedOut + 1);
    var r := CreateEach(cfg, EntryNames(cfg), server, held);
    (r.0, r.1.(checkedOut := st.checkedOut))
  }

  /** The pass ends with an error exactly when some configured dataset
      has no schema. */
  lemma CreateAllTablesFails(cfg: seq<DatasetEntry>, server: Server, st: Psql)
    requires Distinct(EntryNames(cfg))
    ensures CreateAllTables(cfg, server, st).0.None? <==> forall k :: 0 <= k < |cfg| ==> cfg[k].schema.Some?
  {
    var names := EntryNames(cfg);
    var e := CreateEach(cfg, names, server, st.(checkedOut := st.checkedOut + 1));
    assert CreateAllTables(cfg, server, st).0 == e.0;
    if e.0.None? {
      forall k | 0 <= k < |cfg|
        ensures cfg[k].schema.Some?
      {
        assert SchemaOf(cfg, names[k]).Ok?;
        SchemaOfEntry(cfg, k);
      }
    } else {
      var k :| 0 <= k < |names| && !SchemaOf(cfg, names[k]).Ok?;
      SchemaOfEntry(cfg, k);
    }
  }

  // ---------------------------------------------------------------------
  // Properties

  /** The server refuses nothing. */
  ghost predicate Healthy(server: Server)
  {
    forall stmt :: server.refuse(stmt).None?
  }

  /** The column list reads back as the declared names, in order. */
  lemma ColumnNamesRoundTrip(cols: seq<Column>)
    requires |cols| >= 1 && forall k :: 0 <= k < |cols| ==> PlainColumn(cols[k])
    ensures ParseColumnNames(ColumnDefinitions(cols)) == Names(cols)
  {
    var defs := Definitions(cols);
    forall k | 0 <= k < |defs|
      ensures ',' !in defs[k]
    {
      assert defs[k] == cols[k].name + " " + cols[k].sqlType;
      assert PlainColumn(cols[k]);
    }
    SplitJoin(defs, ", ");
    var parts := Split(ColumnDefinitions(cols), ", ");
    assert parts == defs;
    forall k | 0 <= k < |parts|
      ensures DefinitionName(parts[k]) == cols[k].name
    {
      assert PlainColumn(cols[k]);
      FirstOccurrenceAfter(cols[k].name, " ", cols[k].sqlType);
      assert (cols[k].name + " " + cols[k].sqlType)[..|cols[k].name|] == cols[k].name;
    }
  }

  /** The CREATE TABLE statement names the table and, between its
      parentheses, lists the declared columns in order: reading the
      column list back gives the declared names. */
  lemma CreateTableSqlReadsBack(schema: Schema)
    requires |schema.columns| >= 1 && forall k :: 0 <= k < |schema.columns| ==> PlainColumn(schema.columns[k])
    ensures var sql := CreateTableSql(schema);
      var head := "CREATE TABLE IF NOT EXISTS " + schema.tableName + " (";
      && StartsWith(sql, head) && EndsWith(sql, ");")
      && ParseColumnNames(sql[|head|..|sql| - 2]) == Names(schema.columns)
  {
    var head := "CREATE TABLE IF NOT EXISTS " + schema.tableName + " (";
    var defs := ColumnDefinitions(schema.columns);
    var sql := CreateTableSql(schema);
    assert sql == head + defs + ");";
    assert sql[..|head|] == head;
    assert sql[|sql| - 2..] == ");";
    assert sql[|head|..|sql| - 2] == defs;
    ColumnNamesRoundTrip(schema.columns);
  }

  /** The log entries of the columns added, in order. */
  function AddedEntries(cols: seq<Column>, table: string): (r: seq<LogEntry>)
    ensures |r| == |cols|
    ensures forall k :: 0 <= k < |cols| ==> r[k] == LogEntry(Info, ColumnAdded(cols[k].name, table))
  {
    seq(|cols|, k requires 0 <= k < |cols| => LogEntry(Info, ColumnAdded(cols[k].name, table)))
  }

  /** On a healthy server and an existing table, with distinct declared
      names, the loop adds exactly the missing declared columns, after the
      existing ones and in declaration order, with one log entry each. */
  lemma {:induction false} AddMissingExact(table: string, cols: seq<Column>, current: set<string>, server: Server,
                                           cat: Catalogue, log: seq<LogEntry>)
    requires Healthy(server) && table in cat && Distinct(Names(cols))
    requires forall k :: 0 <= k < |cols| && cols[k].name !in current ==> cols[k].name !in cat[table]
    ensures var r := AddMissing(table, cols, current, server, cat, log);
      && r.2.None?
      && r.0 == cat[table := cat[table] + Names(MissingColumns(cols, current))]
      && r.1 == log + AddedEntries(MissingColumns(cols, current), table)
    decreases |cols|
  {
    if |cols| == 0 {
      assert MissingColumns(cols, current) == [];
      assert cat[table] + Names([]) == cat[table];
      assert cat[table := cat[table]] == cat;
      assert AddedEntries([], table) == [];
    } else {
      var c := cols[0];
      var rest := cols[1..];
      DistinctTail(cols);
      MissingCons(cols, current);
      if c.name in current {
        forall k | 0 <= k < |rest| && rest[k].name !in current
          ensures rest[k].name !in cat[table]
        {
          assert rest[k] == cols[k + 1];
        }
        AddMissingExact(table, rest, current, server, cat, log);
      } else {
        assert server.refuse(AddColumn(table, c)).None?;
        var cat1 := cat[table := cat[table] + [c.name]];
        var log1 := LogAction(log, ColumnAdded(c.name, table));
        forall k | 0 <= k < |rest| && rest[k].name !in current
          ensures rest[k].name !in cat1[table]
        {
          assert rest[k] == cols[k + 1];
          assert Names(cols)[0] != Names(cols)[k + 1];
        }
        AddMissingExact(table, rest, current, server, cat1, log1);
        AddedOne(table, c, MissingColumns(rest, current), cat, log);
      }
    }
  }

  lemma DistinctTail(cols: seq<Column>)
    requires |cols| > 0 && Distinct(Names(cols))
    ensures Distinct(Names(cols[1..]))
  {
    var rest := cols[1..];
    forall i, j | 0 <= i < j < |rest|
      ensures Names(rest)[i] != Names(rest)[j]
    {
      assert Names(cols)[i + 1] != Names(cols)[j + 1];
    }
  }

  lemma MissingCons(cols: seq<Column>, current: set<string>)
    requires |cols| > 0
    ensures MissingColumns(cols, current)
         == (if cols[0].name in current then [] else [cols[0]]) + MissingColumns(cols[1..], current)
  {
  }

  /** Adding one column and then the rest is adding them all at once. */
  lemma AddedOne(table: string, c: Column, missing: seq<Column>, cat: Catalogue, log: seq<LogEntry>)
    requires table in cat
    ensures var cat1 := cat[table := cat[table] + [c.name]];
      cat1[table := cat1[table] + Names(missing)] == cat[table := cat[table] + Names([c] + missing)]
    ensures LogAction(log, ColumnAdded(c.name, table)) + AddedEntries(missing, table)
         == log + AddedEntries([c] + missing, table)
  {
    assert Names([c] + missing) == [c.name] + Names(missing);
    assert AddedEntries([c] + missing, table) == [LogEntry(Info, ColumnAdded(c.name, table))] + AddedEntries(missing, table);
    var cat1 := cat[table := cat[table] + [c.name]];
    var grown := cat[table] + Names([c] + missing);
    assert cat1[table] + Names(missing) == grown;
    assert cat1[table := grown] == cat[table := grown];
  }

  /** When the table already has every declared column, the loop issues no
      ALTER: nothing changes and nothing is logged. */
  lemma {:induction false} NothingMissingNoAlter(table: string, cols: seq<Column>, current: set<string>, server: Server,
                                                 cat: Catalogue, log: seq<LogEntry>)
    requires forall k :: 0 <= k < |cols| ==> cols[k].name in current
    ensures AddMissing(table, cols, current, server, cat, log) == (cat, log, None)
    decreases |cols|
  {
    if |cols| > 0 {
      forall k | 0 <= k < |cols[1..]|
        ensures cols[1..][k].name in current
      {
        assert cols[1..][k] == cols[k + 1];
      }
      NothingMissingNoAlter(table, cols[1..], current, server, cat, log);
    }
  }

  /** On a healthy server, `alter_table_for_schema` on an existing table
      leaves it with its old columns followed by the missing declared
      ones. */
  lemma AlterAddsMissing(cfg: seq<DatasetEntry>, dataset: string, server: Server, st: Psql)
    requires Healthy(server) && SchemaOf(cfg, dataset).Ok?
    requires SchemaOf(cfg, dataset).value.tableName in st.catalogue
    requires DistinctColumns(SchemaOf(cfg, dataset).value)
    ensures var schema := SchemaOf(cfg, dataset).value;
      var table := schema.tableName;
      var missing := MissingColumns(schema.columns, CurrentColumns(st.catalogue, table));
      && AlterTableForSchema(cfg, dataset, server, st)
         == Ok(st.(catalogue := st.catalogue[table := st.catalogue[table] + Names(missing)],
                   log := st.log + AddedEntries(missing, table)))
  {
    var schema := SchemaOf(cfg, dataset).value;
    var table := schema.tableName;
    assert server.refuse(SelectColumns(table)).None?;
    AddMissingExact(table, schema.columns, CurrentColumns(st.catalogue, table), server, st.catalogue, st.log);
  }

  /** A table has every column its schema declares. */
  predicate HasDeclaredColumns(cat: Catalogue, schema: Schema)
  {
    schema.tableName in cat && forall k :: 0 <= k < |schema.columns| ==> schema.columns[k].name in cat[schema.tableName]
  }

  /** On a healthy server, `alter_table_for_schema` on an existing table
      leaves it with every declared column. */
  lemma AlterCompletesTable(cfg: seq<DatasetEntry>, dataset: string, server: Server, st: Psql)
    requires Healthy(server) && SchemaOf(cfg, dataset).Ok?
    requires SchemaOf(cfg, dataset).value.tableName in st.catalogue
    requires DistinctColumns(SchemaOf(cfg, dataset).value)
    ensures HasDeclaredColumns(AlterTableForSchema(cfg, dataset, server, st).value.catalogue, SchemaOf(cfg, dataset).value)
  {
    var schema := SchemaOf(cfg, dataset).value;
    var table := schema.tableName;
    var cols := schema.columns;
    var current := CurrentColumns(st.catalogue, table);
    var missing := MissingColumns(cols, current);
    AlterAddsMissing(cfg, dataset, server, st);
    assert AlterTableForSchema(cfg, dataset, server, st).value.catalogue[table] == st.catalogue[table] + Names(missing);
    MissingAddedCoversAll(st.catalogue[table], cols);
  }

  /** The existing columns followed by the missing declared ones include
      every declared column. */
  lemma MissingAddedCoversAll(existing: seq<string>, cols: seq<Column>)
    ensures var grown := existing + Names(MissingColumns(cols, set c | c in existing));
      forall k :: 0 <= k < |cols| ==> cols[k].name in grown
  {
    var current := set c | c in existing;
    var missing := MissingColumns(cols, current);
    var grown := existing + Names(missing);
    forall k | 0 <= k < |cols|
      ensures cols[k].name in grown
    {
      if cols[k].name in current {
        var i :| 0 <= i < |existing| && existing[i] == cols[k].name;
        assert grown[i] == cols[k].name;
      } else {
        var i :| 0 <= i < |missing| && missing[i] == cols[k];
        assert grown[|existing| + i] == cols[k].name;
      }
    }
  }

  /** Running `alter_table_for_schema` again after it completed a table
      changes nothing and logs nothing. */
  lemma AlterRerunChangesNothing(cfg: seq<DatasetEntry>, dataset: string, server: Server, st: Psql)
    requires SchemaOf(cfg, dataset).Ok? && server.refuse(SelectColumns(SchemaOf(cfg, dataset).value.tableName)).None?
    requires HasDeclaredColumns(st.catalogue, SchemaOf(cfg, dataset).value)
    ensures AlterTableForSchema(cfg, dataset, server, st) == Ok(st)
  {
    var schema := SchemaOf(cfg, dataset).value;
    var table := schema.tableName;
    NothingMissingNoAlter(table, schema.columns, CurrentColumns(st.catalogue, table), server, st.catalogue, st.log);
  }

  /** On a healthy server, `create_table_from_schema` leaves the table
      with every declared column, whether or not it existed before. */
  lemma CreateGivesDeclaredColumns(cfg: seq<DatasetEntry>, dataset: string, server: Server, st: Psql)
    requires Healthy(server) && SchemaOf(cfg, dataset).Ok? && DistinctColumns(SchemaOf(cfg, dataset).value)
    ensures HasDeclaredColumns(CreateTableFromSchema(cfg, dataset, server, st).value.catalogue, SchemaOf(cfg, dataset).value)
  {
    var schema := SchemaOf(cfg, dataset).value;
    var table := schema.tableName;
    assert server.refuse(CreateTable(schema)).None?;
    var created := CreateTableEffect(st.catalogue, schema, server);
    var st1 := st.(catalogue := created.value, log := LogAction(st.log, TableCreated(table)));
    AlterCompletesTable(cfg, dataset, server, st1);
  }

  lemma GrowsKeepsColumns(a: Catalogue, b: Catalogue, schema: Schema)
    requires Grows(a, b) && HasDeclaredColumns(a, schema)
    ensures HasDeclaredColumns(b, schema)
  {
    var t := schema.tableName;
    forall k | 0 <= k < |schema.columns|
      ensures schema.columns[k].name in b[t]
    {
      var i :| 0 <= i < |a[t]| && a[t][i] == schema.columns[k].name;
      assert b[t][i] == a[t][i];
    }
  }

  /** On a healthy server, each dataset visited leaves its table with
      every declared column, and later datasets do not take them away. */
  lemma {:induction false} CreateEachCompletes(cfg: seq<DatasetEntry>, names: seq<string>, server: Server, st: Psql)
    requires Healthy(server)
    requires forall k :: 0 <= k < |names| ==> SchemaOf(cfg, names[k]).Ok? && DistinctColumns(SchemaOf(cfg, names[k]).value)
    ensures forall k :: 0 <= k < |names| ==>
              HasDeclaredColumns(CreateEach(cfg, names, server, st).1.catalogue, SchemaOf(cfg, names[k]).value)
    decreases |names|
  {
    if |names| > 0 {
      var one := CreateTableFromSchema(cfg, names[0], server, st).value;
      CreateGivesDeclaredColumns(cfg, names[0], server, st);
      var rest := names[1..];
      assert forall k :: 0 <= k < |rest| ==> rest[k] == names[k + 1];
      CreateEachCompletes(cfg, rest, server, one);
      var r := CreateEach(cfg, names, server, st).1;
      assert r == CreateEach(cfg, rest, server, one).1;
      GrowsKeepsColumns(one.catalogue, r.catalogue, SchemaOf(cfg, names[0]).value);
      forall k | 0 <= k < |names|
        ensures HasDeclaredColumns(r.catalogue, SchemaOf(cfg, names[k]).value)
      {
        if k > 0 { assert names[k] == rest[k - 1]; }
      }
    }
  }

  lemma CreateAllTablesUnfold(cfg: seq<DatasetEntry>, server: Server, st: Psql)
    requires Distinct(EntryNames(cfg))
    ensures CreateAllTables(cfg, server, st).1.catalogue
         == CreateEach(cfg, EntryNames(cfg), server, st.(checkedOut := st.checkedOut + 1)).1.catalogue
  {
    var r := CreateEach(cfg, EntryNames(cfg), server, st.(checkedOut := st.checkedOut + 1));
    assert CreateAllTables(cfg, server, st) == (r.0, r.1.(checkedOut := st.checkedOut));
  }

  /** `create_all_tables` on a healthy server, with every dataset
      declaring a schema with distinct column names, ends with every
      configured table holding every column its schema declares. */
  lemma CreateAllCompletes(cfg: seq<DatasetEntry>, server: Server, st: Psql)
    requires Healthy(server) && Distinct(EntryNames(cfg))
    requires forall k :: 0 <= k < |cfg| ==> cfg[k].schema.Some? && DistinctColumns(cfg[k].schema.value)
    ensures var r := CreateAllTables(cfg, server, st);
      && r.0.None?
      && forall k :: 0 <= k < |cfg| ==> HasDeclaredColumns(r.1.catalogue, cfg[k].schema.value)
  {
    var names := EntryNames(cfg);
    var held := st.(checkedOut := st.checkedOut + 1);
    var each := CreateEach(cfg, names, server, held).1.catalogue;
    assert forall k :: 0 <= k < |cfg| ==> HasDeclaredColumns(each, cfg[k].schema.value) by {
      forall k | 0 <= k < |names|
        ensures SchemaOf(cfg, names[k]).Ok? && SchemaOf(cfg, names[k]).value == cfg[k].schema.value
        ensures DistinctColumns(SchemaOf(cfg, names[k]).value)
      {
        SchemaOfEntry(cfg, k);
      }
      CreateEachCompletes(cfg, names, server, held);
      forall k | 0 <= k < |cfg|
        ensures HasDeclaredColumns(each, cfg[k].schema.value)
      {
        assert HasDeclaredColumns(each, SchemaOf(cfg, names[k]).value);
      }
    }
    CreateAllTablesUnfold(cfg, server, st);
    CreateAllTablesFails(cfg, server, st);
  }

}

=== FILE: requirements.dfy ===
/** The requirements checker: reads a requirements file, asks `pip show`
    for every requirement under every Python interpreter and virtual
    environment it is given, and tabulates the answers. The interpreters,
    the virtual environments, `pip` and the file system are oracles. */
module Requirements {
  import opened Common
  import opened Text
  import opened Paths

  // ---------------------------------------------------------------------
  // read_requirements

  /** A line names a requirement when it is not blank once stripped and its
      raw text does not start with `#`; an indented comment is a
      requirement. */
  predicate Kept(line: string)
  {
    |Strip(line)| > 0 && !StartsWith(line, "#")
  }

  /** The stripped kept lines, in file order. */
  function RequirementLines(lines: seq<string>): (r: seq<string>)
    ensures |r| == CountIf(lines, Kept)
    ensures forall i :: 0 <= i < |r| ==> |r[i]| > 0
    ensures forall x :: x in r <==> exists i :: 0 <= i < |lines| && Kept(lines[i]) && Strip(lines[i]) == x
    decreases |lines|
  {
    if |lines| == 0 then []
    else
      var rest := RequirementLines(lines[1..]);
      assert forall x :: x in rest <==> exists i :: 1 <= i < |lines| && Kept(lines[i]) && Strip(lines[i]) == x by {
        forall x | x in rest ensures exists i :: 1 <= i < |lines| && Kept(lines[i]) && Strip(lines[i]) == x {
          var j :| 0 <= j < |lines[1..]| && Kept(lines[1..][j]) && Strip(lines[1..][j]) == x;
          assert lines[j + 1] == lines[1..][j];
        }
        forall x | exists i :: 1 <= i < |lines| && Kept(lines[i]) && Strip(lines[i]) == x ensures x in rest {
          var i :| 1 <= i < |lines| && Kept(lines[i]) && Strip(lines[i]) == x;
          assert lines[1..][i - 1] == lines[i];
        }
      }
      if Kept(lines[0]) then [Strip(lines[0])] + rest else rest
  }

  /** `read_requirements` on the text of the file. */
  function ReadRequirements(text: string): seq<string>
  {
    RequirementLines(Lines(text))
  }

  /** Reading a file in two parts reads the requirements of each part in
      turn. */
  lemma {:induction false} RequirementLinesAppend(a: seq<string>, b: seq<string>)
    ensures RequirementLines(a + b) == RequirementLines(a) + RequirementLines(b)
    decreases |a|
  {
    if |a| == 0 {
      assert a + b == b;
    } else {
      assert (a + b)[1..] == a[1..] + b;
      RequirementLinesAppend(a[1..], b);
    }
  }

  /** Every requirement read carries no leading or trailing white space. */
  lemma {:induction false} RequirementsStripped(lines: seq<string>)
    ensures forall i :: 0 <= i < |RequirementLines(lines)| ==>
      var x := RequirementLines(lines)[i]; !IsSpace(x[0]) && !IsSpace(x[|x| - 1])
    decreases |lines|
  {
    if |lines| > 0 {
      RequirementsStripped(lines[1..]);
      StripLeavesNoOuterSpace(lines[0]);
    }
  }

  /** A comment indented by a space is kept, without the indentation. */
  lemma IndentedCommentKept()
    ensures RequirementLines([" # pinned\n"]) == ["# pinned"]
  {
    assert TrimStart(" # pinned\n") == "# pinned\n" by {
      assert " # pinned\n"[1..] == "# pinned\n";
    }
    assert TrimEnd("# pinned\n") == "# pinned" by {
      assert "# pinned\n"[..|"# pinned\n"| - 1] == "# pinned";
    }
    assert !StartsWith(" # pinned\n", "#");
  }

  /** A comment in the first column is not a requirement. */
  lemma CommentDropped(rest: string)
    ensures RequirementLines(["#" + rest]) == []
  {
    assert StartsWith("#" + rest, "#");
  }

  // ---------------------------------------------------------------------
  // check_package

  const VersionPrefix := "Version: "

  /** Index of the first line that starts with `prefix`. */
  function FirstStarting(lines: seq<string>, prefix: string): (r: Option<nat>)
    ensures r.Some? ==> r.value < |lines| && StartsWith(lines[r.value], prefix)
    ensures r.Some? ==> forall j :: 0 <= j < r.value ==> !StartsWith(lines[j], prefix)
    ensures r.None? ==> forall j :: 0 <= j < |lines| ==> !StartsWith(lines[j], prefix)
    decreases |lines|
  {
    if |lines| == 0 then None
    else if StartsWith(lines[0], prefix) then Some(0)
    else
      var rest := FirstStarting(lines[1..], prefix);
      if rest.None? then
        assert forall j :: 1 <= j < |lines| ==> lines[j] == lines[1..][j - 1];
        None
      else
        assert forall j :: 1 <= j < rest.value + 1 ==> lines[j] == lines[1..][j - 1];
        Some(rest.value + 1)
  }

  lemma FirstStartingAt(lines: seq<string>, prefix: string, k: nat)
    requires k < |lines| && StartsWith(lines[k], prefix)
    requires forall j :: 0 <= j < k ==> !StartsWith(lines[j], prefix)
    ensures FirstStarting(lines, prefix) == Some(k)
  {
  }

  /** A `Version: ` line splits on `": "` into at least two pieces. */
  lemma VersionFieldPresent(line: string)
    requires StartsWith(line, VersionPrefix)
    ensures |Split(line, ": ")| >= 2
  {
    assert line[7..9] == VersionPrefix[7..9];
    assert OccursAt(line, ": ", 7);
    assert Find(line, ": ").Some?;
  }

  /** The version `check_package` reads from `pip show` output: the second
      `": "`-separated field of the first `Version: ` line, or `Unknown`
      when there is none. */
  function ShowVersion(output: string): (r: string)
    ensures (forall k :: 0 <= k < |Split(output, "\n")| ==> !StartsWith(Split(output, "\n")[k], VersionPrefix))
      ==> r == "Unknown"
    ensures (exists k :: 0 <= k < |Split(output, "\n")| && StartsWith(Split(output, "\n")[k], VersionPrefix))
      ==> (exists k :: 0 <= k < |Split(output, "\n")| && StartsWith(Split(output, "\n")[k], VersionPrefix)
             && (forall j :: 0 <= j < k ==> !StartsWith(Split(output, "\n")[j], VersionPrefix))
             && |Split(Split(output, "\n")[k], ": ")| >= 2 && r == Split(Split(output, "\n")[k], ": ")[1])
  {
    var lines := Split(output, "\n");
    var first := FirstStarting(lines, VersionPrefix);
    if first.None? then "Unknown"
    else
      VersionFieldPresent(lines[first.value]);
      Split(lines[first.value], ": ")[1]
  }

  /** `pip show` output whose first `Version: ` line carries `v` yields
      `v`, whatever the other lines say. */
  lemma ShowVersionReadsField(lines: seq<string>, k: nat, v: string)
    requires k < |lines| && lines[k] == VersionPrefix + v && ':' !in v
    requires forall j :: 0 <= j < k ==> !StartsWith(lines[j], VersionPrefix)
    requires forall j :: 0 <= j < |lines| ==> '\n' !in lines[j]
    ensures ShowVersion(Join(lines, "\n")) == v
  {
    SplitJoin(lines, "\n");
    VersionPrefixed(v);
    FirstStartingAt(lines, VersionPrefix, k);
    VersionLineSplit(v);
  }

  lemma VersionPrefixed(v: string)
    ensures StartsWith(VersionPrefix + v, VersionPrefix)
  {
    assert (VersionPrefix + v)[..|VersionPrefix|] == VersionPrefix;
  }

  /** A `Version: ` line whose value holds no colon splits into the label
      and the value. */
  lemma VersionLineSplit(v: string)
    requires ':' !in v
    ensures Split(VersionPrefix + v, ": ") == ["Version", v]
  {
    assert VersionPrefix + v == "Version" + ": " + v;
    FieldsAround("Version", ": ", v);
  }

  /** A line with one separator, whose first character occurs in neither
      side, splits into the two sides. */
  lemma FieldsAround(a: string, sep: string, b: string)
    requires |sep| > 0 && sep[0] !in a && sep[0] !in b
    ensures Split(a + sep + b, sep) == [a, b]
  {
    var s := a + sep + b;
    FirstOccurrenceAfter(a, sep, b);
    SplitFound(s, sep, |a|);
    assert s[..|a|] == a;
    assert s[|a| + |sep|..] == b;
    NoOccurrence(b, sep);
    SplitNotFound(b, sep);
  }

  /** `check_package`: a failing `pip show` (`None`) gives `(false, "")`;
      otherwise the package is installed with the version read from the
      output. */
  function CheckPackage(show: Option<string>): (r: (bool, string))
    ensures r.0 <==> show.Some?
    ensures !r.0 ==> r.1 == ""
    ensures r.0 ==> r.1 == ShowVersion(show.value)
  {
    if show.None? then (false, "") else (true, ShowVersion(show.value))
  }

  // ---------------------------------------------------------------------
  // check_packages

  /** `pip show` through a given interpreter (`None` when it fails) and
      `os.path.exists`. */
  datatype Host = Host(show: (string, string) -> Option<string>, pathExists: string -> bool)

  /** The entries of one requirement: one per interpreter, one per virtual
      environment with an interpreter. */
  datatype Installs = Installs(system: seq<(bool, string)>, venv: seq<(bool, string)>)

  datatype Kind = System | Venv

  /** The label `check_packages` gives an answer about `package` under
      interpreter `where`. */
  function Entry(where: string, answer: (bool, string)): (bool, string)
  {
    (answer.0, where + ": " + (if answer.0 then answer.1 else "Not installed"))
  }

  /** The entry for `package` under the system interpreter `python<version>`. */
  function SystemEntry(host: Host, version: string, package: string): (bool, string)
  {
    Entry("Python " + version, CheckPackage(host.show("python" + version, package)))
  }

  /** A system entry reads `Python <version>: <version found>` for an
      installed package and `Python <version>: Not installed` otherwise. */
  lemma SystemEntryLabel(host: Host, version: string, package: string)
    ensures var r := SystemEntry(host, version, package); var show := host.show("python" + version, package);
      && (r.0 <==> show.Some?)
      && (!r.0 ==> r.1 == "Python " + version + ": Not installed")
      && (r.0 ==> r.1 == "Python " + version + ": " + ShowVersion(show.value))
  {
  }

  /** The interpreter of a virtual environment. */
  function VenvPython(venv: string): string
  {
    PathJoin(PathJoin(venv, "bin"), "python")
  }

  /** Whether a virtual environment has an interpreter. */
  function HasPython(host: Host): string -> bool
  {
    venv => host.pathExists(VenvPython(venv))
  }

  /** The entry for `package` under the virtual environment `venv`. */
  function VenvEntry(host: Host, venv: string, package: string): (bool, string)
  {
    Entry(venv, CheckPackage(host.show(VenvPython(venv), package)))
  }

  /** A virtual-environment entry reads `<venv>: <version found>` for an
      installed package and `<venv>: Not installed` otherwise; `pip` is run
      through `<venv>/bin/python`. */
  lemma VenvEntryLabel(host: Host, venv: string, package: string)
    ensures var r := VenvEntry(host, venv, package); var show := host.show(PathJoin(PathJoin(venv, "bin"), "python"), package);
      && (r.0 <==> show.Some?)
      && (!r.0 ==> r.1 == venv + ": Not installed")
      && (r.0 ==> r.1 == venv + ": " + ShowVersion(show.value))
  {
  }

  /** Reference: one system entry per interpreter, in interpreter order. */
  function SystemEntries(host: Host, versions: seq<string>, package: string): (r: seq<(bool, string)>)
  {
    seq(|versions|, i requires 0 <= i < |versions| => SystemEntry(host, versions[i], package))
  }

  function VenvEntriesOf(host: Host, venvs: seq<string>, package: string): seq<(bool, string)>
  {
    seq(|venvs|, i requires 0 <= i < |venvs| => VenvEntry(host, venvs[i], package))
  }

  /** Reference: one entry per virtual environment that has an interpreter,
      in the order given. */
  function VenvEntries(host: Host, venvs: seq<string>, package: string): seq<(bool, string)>
  {
    VenvEntriesOf(host, Filter(venvs, HasPython(host)), package)
  }

  /** `n` copies of `x`. */
  function Repeat(x: (bool, string), n: nat): (r: seq<(bool, string)>)
    ensures |r| == n && forall k :: 0 <= k < n ==> r[k] == x
  {
    seq(n, _ => x)
  }

  /** Each entry repeated `c` times in a row. */
  function Copies(entries: seq<(bool, string)>, c: nat): seq<(bool, string)>
  {
    if |entries| == 0 then [] else Repeat(entries[0], c) + Copies(entries[1..], c)
  }

  function Extend(i: Installs, kind: Kind, more: seq<(bool, string)>): Installs
  {
    if kind == System then Installs(i.system + more, i.venv) else Installs(i.system, i.venv + more)
  }

  /** One pass of the inner loop: an entry for every requirement, appended
      to that requirement's list of the given kind. */
  function AppendEach(res: map<string, Installs>, pkgs: seq<string>, kind: Kind,
                      entry: string -> (bool, string)): (r: map<string, Installs>)
    requires forall k :: 0 <= k < |pkgs| ==> pkgs[k] in res
    ensures r.Keys == res.Keys
    decreases |pkgs|
  {
    if |pkgs| == 0 then res
    else
      var p0 := pkgs[0];
      AppendEach(res[p0 := Extend(res[p0], kind, [entry(p0)])], pkgs[1..], kind, entry)
  }

  /** After one pass a requirement listed `c` times has gained `c` entries. */
  lemma {:induction false} AppendEachAt(res: map<string, Installs>, pkgs: seq<string>, kind: Kind,
                                        entry: string -> (bool, string), p: string)
    requires forall k :: 0 <= k < |pkgs| ==> pkgs[k] in res
    requires p in res
    ensures AppendEach(res, pkgs, kind, entry)[p] == Extend(res[p], kind, Repeat(entry(p), Count(pkgs, p)))
    decreases |pkgs|
  {
    if |pkgs| == 0 {
      assert Repeat(entry(p), 0) == [];
    } else {
      var p0 := pkgs[0];
      var one := res[p0 := Extend(res[p0], kind, [entry(p0)])];
      AppendEachAt(one, pkgs[1..], kind, entry, p);
      var n := Count(pkgs[1..], p);
      if p == p0 {
        assert [entry(p)] + Repeat(entry(p), n) == Repeat(entry(p), n + 1);
      }
    }
  }

  /** The inner loop's entry for interpreter `python<version>`. */
  function SystemEntryFor(host: Host, version: string): string -> (bool, string)
  {
    p => SystemEntry(host, version, p)
  }

  /** The inner loop's entry for virtual environment `venv`. */
  function VenvEntryFor(host: Host, venv: string): string -> (bool, string)
  {
    p => VenvEntry(host, venv, p)
  }

  /** The system loop: every interpreter in turn, every requirement under it. */
  function SystemPass(res: map<string, Installs>, versions: seq<string>, reqs: seq<string>,
                      host: Host): (r: map<string, Installs>)
    requires forall k :: 0 <= k < |reqs| ==> reqs[k] in res
    ensures r.Keys == res.Keys
    decreases |versions|
  {
    if |versions| == 0 then res
    else SystemPass(AppendEach(res, reqs, System, SystemEntryFor(host, versions[0])), versions[1..], reqs, host)
  }

  lemma {:induction false} SystemPassAt(res: map<string, Installs>, versions: seq<string>, reqs: seq<string>,
                                        host: Host, p: string)
    requires forall k :: 0 <= k < |reqs| ==> reqs[k] in res
    requires p in res
    ensures var r := SystemPass(res, versions, reqs, host);
      r[p] == Installs(res[p].system + Copies(SystemEntries(host, versions, p), Count(reqs, p)), res[p].venv)
    decreases |versions|
  {
    if |versions| == 0 {
      assert SystemEntries(host, versions, p) == [];
    } else {
      var c := Count(reqs, p);
      var head := Repeat(SystemEntryFor(host, versions[0])(p), c);
      var one := AppendEach(res, reqs, System, SystemEntryFor(host, versions[0]));
      AppendEachAt(res, reqs, System, SystemEntryFor(host, versions[0]), p);
      assert one[p] == Installs(res[p].system + head, res[p].venv);
      SystemPassAt(one, versions[1..], reqs, host, p);
      SystemEntriesCons(host, versions, p, c);
      assert head == Repeat(SystemEntry(host, versions[0], p), c);
      AppendAssoc(res[p].system, head, Copies(SystemEntries(host, versions[1..], p), c));
    }
  }

  lemma SystemEntriesCons(host: Host, versions: seq<string>, p: string, c: nat)
    requires |versions| > 0
    ensures Copies(SystemEntries(host, versions, p), c)
         == Repeat(SystemEntry(host, versions[0], p), c) + Copies(SystemEntries(host, versions[1..], p), c)
  {
    var e := SystemEntries(host, versions, p);
    assert e[0] == SystemEntry(host, versions[0], p);
    assert e[1..] == SystemEntries(host, versions[1..], p);
  }

  /** The virtual-environment loop: every environment whose interpreter
      exists, every requirement under it. */
  function VenvPass(res: map<string, Installs>, venvs: seq<string>, reqs: seq<string>,
                    host: Host): (r: map<string, Installs>)
    requires forall k :: 0 <= k < |reqs| ==> reqs[k] in res
    ensures r.Keys == res.Keys
    decreases |venvs|
  {
    if |venvs| == 0 then res
    else
      var one := if HasPython(host)(venvs[0]) then AppendEach(res, reqs, Venv, VenvEntryFor(host, venvs[0])) else res;
      VenvPass(one, venvs[1..], reqs, host)
  }

  lemma {:induction false} VenvPassAt(res: map<string, Installs>, venvs: seq<string>, reqs: seq<string>,
                                      host: Host, p: string)
    requires forall k :: 0 <= k < |reqs| ==> reqs[k] in res
    requires p in res
    ensures var r := VenvPass(res, venvs, reqs, host);
      r[p] == Installs(res[p].system, res[p].venv + Copies(VenvEntries(host, venvs, p), Count(reqs, p)))
    decreases |venvs|
  {
    if |venvs| == 0 {
      assert VenvEntries(host, venvs, p) == [];
    } else {
      var v := venvs[0];
      var c := Count(reqs, p);
      var tail := Copies(VenvEntries(host, venvs[1..], p), c);
      VenvEntriesCons(host, venvs, p, c);
      if HasPython(host)(v) {
        var head := Repeat(VenvEntryFor(host, v)(p), c);
        var one := AppendEach(res, reqs, Venv, VenvEntryFor(host, v));
        AppendEachAt(res, reqs, Venv, VenvEntryFor(host, v), p);
        assert one[p] == Installs(res[p].system, res[p].venv + head);
        VenvPassAt(one, venvs[1..], reqs, host, p);
        assert head == Repeat(VenvEntry(host, v, p), c);
        AppendAssoc(res[p].venv, head, tail);
      } else {
        VenvPassAt(res, venvs[1..], reqs, host, p);
      }
    }
  }

  lemma VenvEntriesCons(host: Host, venvs: seq<string>, p: string, c: nat)
    requires |venvs| > 0
    ensures Copies(VenvEntries(host, venvs, p), c)
         == (if HasPython(host)(venvs[0]) then Repeat(VenvEntry(host, venvs[0], p), c) else [])
            + Copies(VenvEntries(host, venvs[1..], p), c)
  {
    var v := venvs[0];
    var rest := Filter(venvs[1..], HasPython(host));
    if HasPython(host)(v) {
      assert Filter(venvs, HasPython(host)) == [v] + rest;
      VenvEntriesOfCons(host, v, rest, p);
    } else {
      assert Filter(venvs, HasPython(host)) == rest;
    }
  }

  lemma VenvEntriesOfCons(host: Host, v: string, rest: seq<string>, p: string)
    ensures VenvEntriesOf(host, [v] + rest, p) == [VenvEntry(host, v, p)] + VenvEntriesOf(host, rest, p)
  {
    var e := VenvEntriesOf(host, [v] + rest, p);
    assert e[0] == VenvEntry(host, v, p);
    assert e[1..] == VenvEntriesOf(host, rest, p);
  }

  /** `check_packages`: one key per requirement. */
  function CheckPackages(reqs: seq<string>, versions: seq<string>, venvs: seq<string>,
                         host: Host): (r: map<string, Installs>)
    ensures forall p :: p in r <==> p in reqs
  {
    var empty := map p | p in reqs :: Installs([], []);
    VenvPass(SystemPass(empty, versions, reqs, host), venvs, reqs, host)
  }

  /** Under each requirement: for every interpreter in order and then every
      virtual environment with an interpreter in order, one entry per time
      the requirement is listed. */
  lemma CheckPackagesAt(reqs: seq<string>, versions: seq<string>, venvs: seq<string>, host: Host, p: string)
    requires p in reqs
    ensures CheckPackages(reqs, versions, venvs, host)[p]
         == Installs(Copies(SystemEntries(host, versions, p), Count(reqs, p)), Copies(VenvEntries(host, venvs, p), Count(reqs, p)))
  {
    var empty := map p | p in reqs :: Installs([], []);
    SystemPassAt(empty, versions, reqs, host, p);
    VenvPassAt(SystemPass(empty, versions, reqs, host), venvs, reqs, host, p);
  }

  /** A requirement listed once has exactly one entry per interpreter and
      one per virtual environment with an interpreter. */
  lemma CheckPackagesDistinct(reqs: seq<string>, versions: seq<string>, venvs: seq<string>, host: Host)
    requires Distinct(reqs)
    ensures var r := CheckPackages(reqs, versions, venvs, host);
      forall p :: p in r ==> r[p] == Installs(SystemEntries(host, versions, p), VenvEntries(host, venvs, p))
  {
    var r := CheckPackages(reqs, versions, venvs, host);
    forall p | p in r
      ensures r[p] == Installs(SystemEntries(host, versions, p), VenvEntries(host, venvs, p))
    {
      CheckPackagesAt(reqs, versions, venvs, host, p);
      CountDistinct(reqs, p);
      CopiesOnce(SystemEntries(host, versions, p));
      CopiesOnce(VenvEntries(host, venvs, p));
    }
  }

  /** A requirement listed twice gets every entry twice in a row. */
  lemma DuplicateRequirementTwice(p: string, version: string, host: Host)
    ensures var r := CheckPackages([p, p], [version], [], host);
      r[p].system == [SystemEntry(host, version, p), SystemEntry(host, version, p)]
  {
    CheckPackagesAt([p, p], [version], [], host, p);
    var e := SystemEntries(host, [version], p);
    assert e == [SystemEntry(host, version, p)];
    assert Count([p, p], p) == 2 by {
      assert [p, p][1..] == [p];
      assert [p][1..] == [];
      assert Count([p], p) == 1 + Count([], p);
    }
    assert Copies(e, 2) == Repeat(e[0], 2) + Copies(e[1..], 2);
    assert e[1..] == [];
  }

  lemma {:induction false} CopiesOnce(entries: seq<(bool, string)>)
    ensures Copies(entries, 1) == entries
    decreases |entries|
  {
    if |entries| > 0 {
      CopiesOnce(entries[1..]);
      assert Repeat(entries[0], 1) == [entries[0]];
    }
  }

  lemma {:induction false} CountDistinct(s: seq<string>, x: string)
    requires Distinct(s) && x in s
    ensures Count(s, x) == 1
    decreases |s|
  {
    if s[0] == x {
      CountAbsent(s[1..], x);
    } else {
      assert x in s[1..];
      CountDistinct(s[1..], x);
    }
  }

  // ---------------------------------------------------------------------
  // main

  /** How `main` ends: `sys.exit` with a status and message, an exception
      that escapes it (a traceback and status 1), or the printed report. */
  datatype Outcome =
    | Exit(status: int, message: string)
    | Crashed(error: string)
    | Report(results: map<string, Installs>)

  const Usage := "Usage: python script.py path/to/requirements.txt"

  /** `main`, with the interpreters and virtual environments already
      found; `read` opens and reads the requirements file, and fails as
      `open()` does for a directory or an unreadable file, an error that
      `main` does not catch. */
  function RunChecker(argv: seq<string>, host: Host, read: string -> Result<string, string>,
                      versions: seq<string>, venvs: seq<string>): (r: Outcome)
    ensures r.Report? <==> |argv| == 2 && host.pathExists(argv[1]) && read(argv[1]).Ok?
    ensures r.Exit? ==> r.status == 1
    ensures |argv| != 2 ==> r == Exit(1, Usage)
    ensures |argv| == 2 && !host.pathExists(argv[1]) ==> r == Exit(1, "Error: File '" + argv[1] + "' not found.")
    ensures |argv| == 2 && host.pathExists(argv[1]) && read(argv[1]).Err? ==> r == Crashed(read(argv[1]).error)
    ensures r.Report? ==> forall p :: p in r.results <==> p in ReadRequirements(read(argv[1]).value)
  {
    if |argv| != 2 then Exit(1, Usage)
    else if !host.pathExists(argv[1]) then Exit(1, "Error: File '" + argv[1] + "' not found.")
    else match read(argv[1])
      case Err(e) => Crashed(e)
      case Ok(text) => Report(CheckPackages(ReadRequirements(text), versions, venvs, host))
  }
}

=== FILE: sched_core.dfy ===
/** The scheduler's two entry points (c_scheduler.py): `start_scheduler`,
    `stop_scheduler`, and the command-line dispatch between them. */
module Scheduler {
  import opened Common
  import opened Text
  import opened Paths
  import opened SchedState
  import opened Registry
  import opened Launch
  import opened Terminate
  import opened RunLog

  // ---------------------------------------------------------------------
  // Start

  datatype StartOutcome =
    | AlreadyRunning(state: Sched)
    | Finished(state: Sched)

  /** `start_scheduler`: exit at once if a scheduler is already running;
      otherwise the start-up pass and the first run of every job. */
  function StartScheduler(cfg: SchedConfig, s: Sched, w: World): (r: StartOutcome)
    ensures r.AlreadyRunning? <==> Running(w, s.clock, "start_scheduler.py")
  {
    if Running(w, s.clock, "start_scheduler.py") then
      AlreadyRunning(s.(log := s.log + [SchedulerAlreadyRunning], clock := s.clock + 1))
    else
      Finished(StartAndRun(cfg, s.(clock := s.clock + 1), w))
  }

  /** The start-up pass followed by the first run of every job. */
  function StartAndRun(cfg: SchedConfig, s: Sched, w: World): Sched
  {
    FirstRun(cfg, StartUp(cfg, s, w), w)
  }

  /** The start-up pass: launch every declared task that is not running,
      the registration pass, and a run log. From an empty job list the
      registration leaves one entry per task of known frequency, each
      running the last declared task of its frequency. */
  function StartUp(cfg: SchedConfig, s: Sched, w: World): (r: Sched)
    ensures r.signals == s.signals && s.launched <= r.launched && r.log == []
    ensures |r.written| == |s.written| + 1 && s.written <= r.written
    ensures s.jobs == [] && DistinctNames(cfg.jobs) ==> SharedLayout(cfg.jobs, r.jobs)
    ensures Shared(s.jobs) ==> Shared(r.jobs)
  {
    var s1 := StartAllTasks(cfg.jobs, s, w);
    StartAllTasksEffect(cfg.jobs, s, w);
    var s2 := RegisterAll(cfg.jobs, s1);
    RegistrationFacts(cfg.jobs, s1);
    CreateLogFile(cfg, s2, w)
  }

  /** What the start-up pass needs to know about the registration pass. */
  lemma RegistrationFacts(decls: seq<TaskDecl>, s: Sched)
    ensures var r := RegisterAll(decls, s);
      && r.launched == s.launched && r.signals == s.signals && r.written == s.written
      && (s.jobs == [] && DistinctNames(decls) ==> SharedLayout(decls, r.jobs))
      && (Shared(s.jobs) ==> Shared(r.jobs))
  {
    RegisterAllFrame(decls, s);
    if s.jobs == [] && DistinctNames(decls) {
      RegisterAllFromEmpty(decls, s);
    }
    if Shared(s.jobs) {
      RegisterAllKeepsShared(decls, s);
    }
  }

  /** `schedule.run_all()`, the `finished` message, and the second run log. */
  function FirstRun(cfg: SchedConfig, s: Sched, w: World): (r: Sched)
    ensures r.jobs == s.jobs && r.signals == s.signals && s.launched <= r.launched && r.log == []
    ensures |r.written| == |s.written| + 1 && s.written <= r.written
  {
    var s1 := RunAll(s.jobs, s, w);
    RunAllEffect(s.jobs, s, w);
    var s2 := s1.(log := s1.log + [SchedulerFinished]);
    var r := CreateLogFile(cfg, s2, w);
    r
  }

  /** The second run log of a start-up holds, after the messages pending
      before it, one `run_task` entry per registered job in job order, then
      the `finished` message. */
  lemma FirstRunLog(cfg: SchedConfig, s: Sched, w: World)
    ensures var r := FirstRun(cfg, s, w);
      var m := r.written[|s.written|].messages;
      && |m| > |s.log| + |s.jobs| && m[|s.log| + |s.jobs|] == SchedulerFinished
      && s.log <= m
      && forall k :: 0 <= k < |s.jobs| ==> IsRunEntryFor(m[|s.log| + k], Basename(s.jobs[k].path))
  {
    var s1 := RunAll(s.jobs, s, w);
    RunAllEffect(s.jobs, s, w);
    var s2 := s1.(log := s1.log + [SchedulerFinished]);
    var r := CreateLogFile(cfg, s2, w);
    assert FirstRun(cfg, s, w) == r;
    MessagesLayout(s1.log, StatusEntries(r.written[|s.written|].scheduled), r.written[|s.written|].messages);
  }

  /** On a quiet host a first start-up from an empty job list launches
      every declared script once in the start-up pass, in declaration
      order, and then, when `run_all` runs the new job list, the script of
      each entry: the last declared task of the entry's frequency. */
  lemma QuietStartupLaunches(cfg: SchedConfig, s: Sched, w: World)
    requires Quiet(w) && s.jobs == [] && DistinctNames(cfg.jobs)
    ensures StartScheduler(cfg, s, w).Finished?
    ensures var r := StartScheduler(cfg, s, w).state;
      && SharedLayout(cfg.jobs, r.jobs)
      && r.launched == s.launched + DeclPaths(cfg.jobs) + JobPaths(r.jobs)
  {
    assert !Running(w, s.clock, "start_scheduler.py") by {
      assert IdleAt(w, s.clock);
    }
    var s0 := s.(clock := s.clock + 1);
    StartSchedulerUnfold(cfg, s, w);
    QuietRunLaunches(cfg, s0, w);
  }

  lemma StartSchedulerUnfold(cfg: SchedConfig, s: Sched, w: World)
    ensures !Running(w, s.clock, "start_scheduler.py") ==>
      StartScheduler(cfg, s, w) == Finished(StartAndRun(cfg, s.(clock := s.clock + 1), w))
  {
  }

  /** The start-up pass and the first run on a quiet host, from an empty
      job list. */
  lemma QuietRunLaunches(cfg: SchedConfig, s: Sched, w: World)
    requires Quiet(w) && s.jobs == [] && DistinctNames(cfg.jobs)
    ensures var r := StartAndRun(cfg, s, w);
      && SharedLayout(cfg.jobs, r.jobs)
      && r.launched == s.launched + DeclPaths(cfg.jobs) + JobPaths(r.jobs)
  {
    var s3 := StartUp(cfg, s, w);
    QuietStartUp(cfg, s, w);
    QuietFirstRun(cfg, s3, w);
  }

  lemma QuietStartUp(cfg: SchedConfig, s: Sched, w: World)
    requires Quiet(w)
    ensures StartUp(cfg, s, w).launched == s.launched + DeclPaths(cfg.jobs)
  {
    var s1 := StartAllTasks(cfg.jobs, s, w);
    StartAllOnQuietHost(cfg.jobs, s, w);
    var s2 := RegisterAll(cfg.jobs, s1);
    RegisterAllFrame(cfg.jobs, s1);
    assert StartUp(cfg, s, w) == CreateLogFile(cfg, s2, w);
  }

  lemma QuietFirstRun(cfg: SchedConfig, s: Sched, w: World)
    requires Quiet(w)
    ensures FirstRun(cfg, s, w).launched == s.launched + JobPaths(s.jobs)
  {
    var s1 := RunAll(s.jobs, s, w);
    RunAllOnQuietHost(s.jobs, s, w);
    assert FirstRun(cfg, s, w) == CreateLogFile(cfg, s1.(log := s1.log + [SchedulerFinished]), w);
  }

  lemma MessagesLayout(runs: seq<LogEntry>, tail: seq<LogEntry>, m: seq<LogEntry>)
    requires m == runs + [SchedulerFinished] + tail
    ensures |m| > |runs| && m[|runs|] == SchedulerFinished
    ensures forall k :: 0 <= k < |runs| ==> m[k] == runs[k]
  {
  }

  // ---------------------------------------------------------------------
  // Stop

  datatype StopTally = StopTally(stopped: nat, failed: nat)

  /** `pgrep -f name | grep -v <own pid>`: `grep -v` drops every line that
      contains the scheduler's pid as a substring, not only the line that
      equals it. */
  function SurvivingPids(pids: seq<nat>, selfPid: nat): (r: seq<nat>)
    ensures forall i :: 0 <= i < |r| ==> r[i] in pids && !Contains(Decimal(r[i]), Decimal(selfPid))
    ensures forall i :: 0 <= i < |pids| && !Contains(Decimal(pids[i]), Decimal(selfPid)) ==> pids[i] in r
  {
    Filter(pids, (p: nat) => !Contains(Decimal(p), Decimal(selfPid)))
  }

  function Tagged(pid: nat, calls: seq<Signal>): (r: seq<(nat, Signal)>)
    ensures |r| == |calls|
    ensures forall i :: 0 <= i < |calls| ==> r[i] == (pid, calls[i])
  {
    seq(|calls|, i requires 0 <= i < |calls| => (pid, calls[i]))
  }

  /** The signals `terminate_process` sends to each pid of `pids` in turn,
      the first run starting at moment `t`, each next run at the moment
      after the previous one's last call; every signal goes to a listed
      pid. */
  function Terminations(w: World, t: nat, pids: seq<nat>): (r: seq<(nat, Signal)>)
    ensures forall k :: 0 <= k < |r| ==> r[k].0 in pids
    decreases |pids|
  {
    if |pids| == 0 then []
    else
      var calls := TerminateTrace(w, t, pids[0]);
      var mine := Tagged(pids[0], calls);
      var rest := Terminations(w, t + |calls|, pids[1..]);
      assert forall k :: |mine| <= k < |mine + rest| ==> (mine + rest)[k] == rest[k - |mine|];
      mine + rest
  }

  /** Terminate every listed process of one task, in order, logging a
      success for each (terminating never reports a failure): the signals
      sent are the pids' terminations and the clock moves past the last. */
  function StopPids(name: string, pids: seq<nat>, s: Sched, w: World): (r: Sched)
    ensures r.jobs == s.jobs && r.launched == s.launched && r.written == s.written
    ensures r.log == s.log + SuccessEntries(name, pids)
    ensures s.signals <= r.signals
    ensures forall k :: |s.signals| <= k < |r.signals| ==> r.signals[k].0 in pids
  {
    var sent := Terminations(w, s.clock, pids);
    var signals := s.signals + sent;
    assert forall k :: |s.signals| <= k < |signals| ==> signals[k] == sent[k - |s.signals|];
    s.(signals := signals,
       log := s.log + SuccessEntries(name, pids),
       clock := s.clock + |sent|)
  }

  /** What `pgrep` found for one task of the stop loop: the task's base
      name, the moment of the listing, and the pids left by the own-pid
      filter. */
  datatype Found = Found(task: string, moment: nat, pids: seq<nat>)

  /** The listing for task `d` made at moment `t`. */
  function ListingAt(d: TaskDecl, w: World, selfPid: nat, t: nat): (f: Found)
    ensures f.task == Basename(d.path) && f.moment == t
  {
    var name := Basename(d.path);
    Found(name, t, SurvivingPids(w.pgrep(t, name), selfPid))
  }

  /** No pid survived the filter: `grep` exits with status 1, the pipeline
      fails and the task counts as not running. */
  predicate NothingFound(f: Found)
  {
    f.pids == []
  }

  /** The moment after one task of the stop loop: one for the listing, then
      the terminations of its pids. */
  function AfterStop(w: World, f: Found): nat
  {
    f.moment + 1 + |Terminations(w, f.moment + 1, f.pids)|
  }

  /** `fs` are the listings the stop loop makes for `decls` from moment
      `t`: one per task, in order, each the filtered `pgrep` output for the
      task's base name at its own moment, the first at `t` and each next
      one at the moment the previous task's terminations end. */
  predicate ListedFrom(decls: seq<TaskDecl>, fs: seq<Found>, w: World, selfPid: nat, t: nat)
  {
    && |fs| == |decls|
    && (forall i :: 0 <= i < |fs| ==> fs[i] == ListingAt(decls[i], w, selfPid, fs[i].moment))
    && (|fs| > 0 ==> fs[0].moment == t)
    && (forall i :: 0 <= i < |fs| - 1 ==> fs[i + 1].moment == AfterStop(w, fs[i]))
  }

  /** The entries one task of the stop loop logs. */
  function FoundEntries(f: Found): (r: seq<LogEntry>)
    ensures NothingFound(f) ==> r == [StopTaskNotRunning(f.task)]
    ensures !NothingFound(f) ==> |r| == |f.pids| && forall i :: 0 <= i < |r| ==> r[i] == StopTaskSuccess(f.task, f.pids[i])
  {
    if NothingFound(f) then [StopTaskNotRunning(f.task)] else SuccessEntries(f.task, f.pids)
  }

  function AllFoundEntries(fs: seq<Found>): seq<LogEntry>
    decreases |fs|
  {
    if |fs| == 0 then [] else FoundEntries(fs[0]) + AllFoundEntries(fs[1..])
  }

  /** All signals the stop loop sends, task after task. */
  function AllTerminations(w: World, fs: seq<Found>): seq<(nat, Signal)>
    decreases |fs|
  {
    if |fs| == 0 then [] else Terminations(w, fs[0].moment + 1, fs[0].pids) + AllTerminations(w, fs[1..])
  }

  /** The number of pids over all listings. */
  function TotalPids(fs: seq<Found>): nat
    decreases |fs|
  {
    if |fs| == 0 then 0 else |fs[0].pids| + TotalPids(fs[1..])
  }

  /** What a stretch of the stop loop did between `s` and `r`, taking the
      tally from `before` to `after` over `n` tasks: it only appended
      `stop_task` success and `not_running` entries, the tally counts
      exactly those, at most one failure per task, and no process whose
      pid contains the scheduler's own pid was signalled. */
  predicate StopEffect(s: Sched, r: Sched, before: StopTally, after: StopTally, selfPid: nat, n: nat)
  {
    && r.jobs == s.jobs && r.launched == s.launched && r.written == s.written
    && s.log <= r.log && s.signals <= r.signals
    && (forall k :: |s.log| <= k < |r.log| ==> IsSuccess(r.log[k]) || IsNotRunning(r.log[k]))
    && after.stopped == before.stopped + CountIf(r.log[|s.log|..], IsSuccess)
    && after.failed == before.failed + CountIf(r.log[|s.log|..], IsNotRunning)
    && after.failed <= before.failed + n
    && (forall k :: |s.signals| <= k < |r.signals| ==> !Contains(Decimal(r.signals[k].0), Decimal(selfPid)))
  }

  /** One task of the stop loop: list its processes by base name; none
      left after the own-pid filter counts as a failure to stop, otherwise
      each listed pid is terminated and counted as stopped. */
  function StopOne(d: TaskDecl, s: Sched, w: World, selfPid: nat, tally: StopTally): (r: (Sched, StopTally))
    ensures StopEffect(s, r.0, tally, r.1, selfPid, 1)
  {
    var name := Basename(d.path);
    var pids := SurvivingPids(w.pgrep(s.clock, name), selfPid);
    var s1 := s.(clock := s.clock + 1);
    if |pids| == 0 then
      var r := s1.(log := s1.log + [StopTaskNotRunning(name)]);
      assert r.log[|s.log|..] == [StopTaskNotRunning(name)];
      (r, tally.(failed := tally.failed + 1))
    else
      var r := StopPids(name, pids, s1, w);
      assert r.log[|s.log|..] == SuccessEntries(name, pids);
      AllCounted(name, pids);
      (r, tally.(stopped := tally.stopped + |pids|))
  }

  /** One task of the stop loop, against its listing: a failure exactly
      when no pid is listed, otherwise one stop per listed pid; the
      task's entries; and the moment it ends. */
  lemma StopOneListing(d: TaskDecl, s: Sched, w: World, selfPid: nat, tally: StopTally)
    ensures var r := StopOne(d, s, w, selfPid, tally);
      var f := ListingAt(d, w, selfPid, s.clock);
      && r.1.failed == tally.failed + (if NothingFound(f) then 1 else 0)
      && r.1.stopped == tally.stopped + |f.pids|
      && r.0.log == s.log + FoundEntries(f)
      && r.0.clock == AfterStop(w, f)
  {
    var f := ListingAt(d, w, selfPid, s.clock);
    var s1 := s.(clock := s.clock + 1);
    var r := StopOne(d, s, w, selfPid, tally);
    if NothingFound(f) {
      assert Terminations(w, s.clock + 1, f.pids) == [];
      assert r == (s1.(log := s1.log + [StopTaskNotRunning(f.task)]), tally.(failed := tally.failed + 1));
    } else {
      var q := StopPids(f.task, f.pids, s1, w);
      assert r == (q, tally.(stopped := tally.stopped + |f.pids|));
    }
  }

  /** The signals one task of the stop loop sends: the terminations of its
      listed pids, in order, starting just after the listing. */
  lemma StopOneSignals(d: TaskDecl, s: Sched, w: World, selfPid: nat, tally: StopTally)
    ensures var f := ListingAt(d, w, selfPid, s.clock);
      StopOne(d, s, w, selfPid, tally).0.signals == s.signals + Terminations(w, s.clock + 1, f.pids)
  {
    var f := ListingAt(d, w, selfPid, s.clock);
    var s1 := s.(clock := s.clock + 1);
    var r := StopOne(d, s, w, selfPid, tally);
    if NothingFound(f) {
      var none := Terminations(w, s.clock + 1, f.pids);
      assert none == [];
      assert s.signals + none == s.signals;
      assert r.0 == s1.(log := s1.log + [StopTaskNotRunning(f.task)]);
    } else {
      assert r.0 == StopPids(f.task, f.pids, s1, w);
    }
  }

  /** The stop loop over the declared tasks. */
  function StopAll(decls: seq<TaskDecl>, s: Sched, w: World, selfPid: nat, tally: StopTally): (r: (Sched, StopTally))
    ensures StopEffect(s, r.0, tally, r.1, selfPid, |decls|)
    decreases |decls|
  {
    if |decls| == 0 then
      assert s.log[|s.log|..] == [];
      (s, tally)
    else
      var one := StopOne(decls[0], s, w, selfPid, tally);
      var r := StopAll(decls[1..], one.0, w, selfPid, one.1);
      StopEffectTrans(s, one.0, r.0, tally, one.1, r.1, selfPid, 1, |decls| - 1);
      r
  }

  /** The stop loop against its listings: the tally counts the pids found
      and the tasks with none, and the log holds each task's entries in
      order. */
  lemma {:induction false} StopAllListings(decls: seq<TaskDecl>, s: Sched, w: World, selfPid: nat, tally: StopTally)
    returns (fs: seq<Found>)
    ensures ListedFrom(decls, fs, w, selfPid, s.clock)
    ensures var r := StopAll(decls, s, w, selfPid, tally);
      && r.1.failed == tally.failed + CountIf(fs, NothingFound)
      && r.1.stopped == tally.stopped + TotalPids(fs)
      && r.0.log == s.log + AllFoundEntries(fs)
    decreases |decls|
  {
    var r := StopAll(decls, s, w, selfPid, tally);
    if |decls| == 0 {
      fs := [];
      assert r == (s, tally);
      assert s.log + AllFoundEntries(fs) == s.log;
    } else {
      var f := ListingAt(decls[0], w, selfPid, s.clock);
      var one := StopOne(decls[0], s, w, selfPid, tally);
      assert r == StopAll(decls[1..], one.0, w, selfPid, one.1);
      StopOneListing(decls[0], s, w, selfPid, tally);
      var rest := StopAllListings(decls[1..], one.0, w, selfPid, one.1);
      fs := [f] + rest;
      ListedCons(decls, fs, f, rest, w, selfPid, s.clock);
      FoundCons(fs, f, rest);
      AppendAssoc(s.log, FoundEntries(f), AllFoundEntries(rest));
    }
  }

  /** The signals of the stop loop are each task's terminations, task
      after task, as its listings give them. */
  lemma {:induction false} StopAllSignals(decls: seq<TaskDecl>, s: Sched, w: World, selfPid: nat, tally: StopTally,
                                          fs: seq<Found>)
    requires ListedFrom(decls, fs, w, selfPid, s.clock)
    ensures StopAll(decls, s, w, selfPid, tally).0.signals == s.signals + AllTerminations(w, fs)
    decreases |decls|
  {
    var r := StopAll(decls, s, w, selfPid, tally);
    if |decls| == 0 {
      assert r == (s, tally) && fs == [];
      assert s.signals + AllTerminations(w, fs) == s.signals;
    } else {
      var f := fs[0];
      var one := StopOne(decls[0], s, w, selfPid, tally);
      assert r == StopAll(decls[1..], one.0, w, selfPid, one.1);
      StopOneListing(decls[0], s, w, selfPid, tally);
      StopOneSignals(decls[0], s, w, selfPid, tally);
      var rest := fs[1..];
      ListedTail(decls, fs, w, selfPid, s.clock);
      StopAllSignals(decls[1..], one.0, w, selfPid, one.1, rest);
      var mine := Terminations(w, s.clock + 1, f.pids);
      var later := AllTerminations(w, rest);
      assert one.0.signals == s.signals + mine;
      assert r.0.signals == one.0.signals + later;
      assert AllTerminations(w, fs) == mine + later;
      AppendAssoc(s.signals, mine, later);
    }
  }

  /** The listings after the first are those of the remaining tasks, from
      the moment the first task ends. */
  lemma ListedTail(decls: seq<TaskDecl>, fs: seq<Found>, w: World, selfPid: nat, t: nat)
    requires |decls| > 0 && ListedFrom(decls, fs, w, selfPid, t)
    ensures fs[0] == ListingAt(decls[0], w, selfPid, t)
    ensures ListedFrom(decls[1..], fs[1..], w, selfPid, AfterStop(w, fs[0]))
  {
    forall i | 0 <= i < |fs| - 1 ensures fs[1..][i] == ListingAt(decls[1..][i], w, selfPid, fs[1..][i].moment) {
      assert fs[1..][i] == fs[i + 1] && decls[1..][i] == decls[i + 1];
    }
  }

  /** The listings of a non-empty task list: the first task's listing,
      then the rest's from the moment it ends. */
  lemma ListedCons(decls: seq<TaskDecl>, fs: seq<Found>, f: Found, rest: seq<Found>, w: World, selfPid: nat, t: nat)
    requires |decls| > 0 && fs == [f] + rest
    requires f == ListingAt(decls[0], w, selfPid, t)
    requires ListedFrom(decls[1..], rest, w, selfPid, AfterStop(w, f))
    ensures ListedFrom(decls, fs, w, selfPid, t)
  {
    forall i | 1 <= i < |fs| ensures fs[i] == ListingAt(decls[i], w, selfPid, fs[i].moment) {
      assert fs[i] == rest[i - 1] && decls[i] == decls[1..][i - 1];
    }
    forall i | 0 <= i < |fs| - 1 ensures fs[i + 1].moment == AfterStop(w, fs[i]) {
      if i > 0 {
        assert fs[i + 1] == rest[i] && fs[i] == rest[i - 1];
      }
    }
  }

  /** The counts and entries of a list of listings, split at the first
      listing. */
  lemma FoundCons(fs: seq<Found>, f: Found, rest: seq<Found>)
    requires fs == [f] + rest
    ensures CountIf(fs, NothingFound) == (if NothingFound(f) then 1 else 0) + CountIf(rest, NothingFound)
    ensures TotalPids(fs) == |f.pids| + TotalPids(rest)
    ensures AllFoundEntries(fs) == FoundEntries(f) + AllFoundEntries(rest)
  {
    assert fs[1..] == rest;
  }

  /** `any(is_task_running(...))` over the status lines, probing the task
      names in order from moment `t` and stopping at the first found
      running: whether one was found, and how many probes were made. */
  function AnyRunning(lines: seq<StatusLine>, t: nat, w: World): (r: (bool, nat))
    ensures 0 <= r.1 <= |lines|
    ensures r.0 <==> exists i :: 0 <= i < |lines| && Running(w, t + i, lines[i].taskName)
    ensures !r.0 ==> r.1 == |lines|
    ensures r.0 ==> 1 <= r.1
    decreases |lines|
  {
    if |lines| == 0 then (false, 0)
    else if Running(w, t, lines[0].taskName) then (true, 1)
    else
      var rest := AnyRunning(lines[1..], t + 1, w);
      assert forall i :: 1 <= i < |lines| ==>
        (Running(w, t + i, lines[i].taskName) <==> Running(w, (t + 1) + (i - 1), lines[1..][i - 1].taskName));
      (rest.0, rest.1 + 1)
  }

  /** Some declared task is found running when the tasks are probed in
      order from moment `t`. */
  predicate SomeRunning(decls: seq<TaskDecl>, w: World, t: nat)
  {
    exists j :: 0 <= j < |decls| && Running(w, t + j, decls[j].name)
  }

  /** One poll of the wait loop: the status listing, then the probes; and
      whether some task was found running. */
  function PollOnce(decls: seq<TaskDecl>, s: Sched, w: World): (r: (Sched, bool))
    ensures r.0.jobs == s.jobs && r.0.launched == s.launched && r.0.signals == s.signals
    ensures r.0.written == s.written
    ensures |r.0.log| == |s.log| + |decls| && s.log <= r.0.log
    ensures forall k :: |s.log| <= k < |r.0.log| ==> r.0.log[k].Status?
    ensures r.1 == SomeRunning(decls, w, s.clock)
    ensures s.clock <= r.0.clock <= s.clock + |decls|
    ensures r.1 ==> s.clock < r.0.clock
  {
    var ls := ListScheduled(decls, s);
    var found := AnyRunning(ls.0, s.clock, w);
    assert forall i :: 0 <= i < |decls| ==> ls.0[i].taskName == decls[i].name;
    (ls.1.(clock := s.clock + found.1), found.0)
  }

  /** The wait loop: at most `rounds` polls (as many as fit in the
      60-second timeout); each lists the status of every declared task and
      probes their names, and the loop ends early once none is found. */
  function WaitLoop(decls: seq<TaskDecl>, s: Sched, w: World, rounds: nat): (r: Sched)
    ensures r.jobs == s.jobs && r.launched == s.launched && r.signals == s.signals
    ensures r.written == s.written
    ensures s.log <= r.log && forall k :: |s.log| <= k < |r.log| ==> r.log[k].Status?
    decreases rounds
  {
    if rounds == 0 then s
    else
      var p := PollOnce(decls, s, w);
      if !p.1 then p.0
      else
        var r := WaitLoop(decls, p.0, w, rounds - 1);
        assert forall k :: |s.log| <= k < |p.0.log| ==> r.log[k] == p.0.log[k];
        r
  }

  /** One poll of the wait loop: the moment of its first probe, and
      whether it found some declared task running. */
  datatype Poll = Poll(moment: nat, found: bool)

  /** The polls the wait loop makes: at most `rounds` of them, at least one
      when `rounds > 0`; every poll but the last found a task running, and
      the loop stops early only at a poll that found none. Each poll lists
      the status of every declared task. */
  lemma {:induction false} WaitLoopPolls(decls: seq<TaskDecl>, s: Sched, w: World, rounds: nat)
    returns (polls: seq<Poll>)
    ensures |polls| <= rounds && (rounds > 0 ==> |polls| > 0)
    ensures |polls| > 0 ==> polls[0].moment == s.clock
    ensures forall i :: 0 <= i < |polls| ==> polls[i].found == SomeRunning(decls, w, polls[i].moment)
    ensures forall i :: 0 <= i < |polls| - 1 ==> polls[i].found
    ensures |polls| < rounds ==> |polls| > 0 && !polls[|polls| - 1].found
    ensures forall i :: 0 <= i < |polls| - 1 ==> polls[i].moment < polls[i + 1].moment <= polls[i].moment + |decls|
    ensures |WaitLoop(decls, s, w, rounds).log| == |s.log| + |polls| * |decls|
    decreases rounds
  {
    if rounds == 0 {
      polls := [];
      assert |polls| * |decls| == 0;
      assert WaitLoop(decls, s, w, rounds) == s;
    } else {
      var p := PollOnce(decls, s, w);
      if !p.1 {
        polls := [Poll(s.clock, false)];
        assert WaitLoop(decls, s, w, rounds) == p.0;
        assert |polls| * |decls| == |decls|;
        assert |WaitLoop(decls, s, w, rounds).log| == |s.log| + |decls|;
      } else {
        var rest := WaitLoopPolls(decls, p.0, w, rounds - 1);
        polls := [Poll(s.clock, true)] + rest;
        assert WaitLoop(decls, s, w, rounds) == WaitLoop(decls, p.0, w, rounds - 1);
        PollsCons(decls, w, polls, rest, s.clock, p.0.clock);
        var n, m := |rest|, |decls|;
        MulSucc(n, m);
        assert |polls| * |decls| == (n + 1) * m;
        assert |WaitLoop(decls, s, w, rounds).log| == |p.0.log| + n * m;
        assert |p.0.log| == |s.log| + m;
      }
    }
  }

  /** The facts about a found poll followed by the later polls. */
  lemma PollsCons(decls: seq<TaskDecl>, w: World, polls: seq<Poll>, rest: seq<Poll>, t: nat, next: nat)
    requires polls == [Poll(t, true)] + rest
    requires SomeRunning(decls, w, t)
    requires t < next <= t + |decls|
    requires |rest| > 0 ==> rest[0].moment == next
    requires forall i :: 0 <= i < |rest| ==> rest[i].found == SomeRunning(decls, w, rest[i].moment)
    requires forall i :: 0 <= i < |rest| - 1 ==> rest[i].found
    requires forall i :: 0 <= i < |rest| - 1 ==> rest[i].moment < rest[i + 1].moment <= rest[i].moment + |decls|
    ensures forall i :: 0 <= i < |polls| ==> polls[i].found == SomeRunning(decls, w, polls[i].moment)
    ensures forall i :: 0 <= i < |polls| - 1 ==> polls[i].found
    ensures forall i :: 0 <= i < |polls| - 1 ==> polls[i].moment < polls[i + 1].moment <= polls[i].moment + |decls|
  {
    assert forall i :: 1 <= i < |polls| ==> polls[i] == rest[i - 1];
  }

  lemma MulSucc(a: nat, b: nat)
    ensures (a + 1) * b == b + a * b
  {
  }

  /** `stop_scheduler`: announce, stop every declared task, wait, report
      the tally, and write the run log. The caller's pid and the number of
      polls the timeout allows are parameters. */
  function StopScheduler(cfg: SchedConfig, s: Sched, w: World, selfPid: nat, rounds: nat): (StopTally, Sched)
  {
    var s1 := s.(log := s.log + [StopStarting]);
    var all := StopAll(cfg.jobs, s1, w, selfPid, StopTally(0, 0));
    var s2 := all.0;
    var tally := all.1;
    var s3 := WaitLoop(cfg.jobs, s2, w, rounds);
    var s4 := s3.(log := s3.log + [StopFinished(tally.stopped, tally.failed)]);
    (tally, CreateLogFile(cfg, s4, w))
  }

  // ---------------------------------------------------------------------
  // Properties of start

  /** A second scheduler leaves everything as it was: no launch, no job,
      no signal and no run log, so its `already_running` message is never
      written anywhere. */
  lemma AlreadyRunningChangesNothing(cfg: SchedConfig, s: Sched, w: World)
    requires Running(w, s.clock, "start_scheduler.py")
    ensures var r := StartScheduler(cfg, s, w).state;
      r.jobs == s.jobs && r.launched == s.launched && r.signals == s.signals
      && r.written == s.written && r.log == s.log + [SchedulerAlreadyRunning]
  {
  }

  /** A start-up writes exactly two run logs and ends with no pending
      message; it sends no signal; entries of one frequency stay one job;
      and from an empty job list the jobs are one entry per task of known
      frequency, each running the last declared task of its frequency. */
  lemma StartSchedulerEffect(cfg: SchedConfig, s: Sched, w: World)
    requires !Running(w, s.clock, "start_scheduler.py")
    ensures var r := StartScheduler(cfg, s, w).state;
      && |r.written| == |s.written| + 2 && s.written <= r.written && r.log == []
      && r.signals == s.signals && s.launched <= r.launched
      && (s.jobs == [] && DistinctNames(cfg.jobs) ==> SharedLayout(cfg.jobs, r.jobs))
      && (Shared(s.jobs) ==> Shared(r.jobs))
  {
  }

  // ---------------------------------------------------------------------
  // Properties of stop

  predicate IsSuccess(e: LogEntry) { e.StopTaskSuccess? }
  predicate IsNotRunning(e: LogEntry) { e.StopTaskNotRunning? }

  function SuccessEntries(name: string, pids: seq<nat>): (r: seq<LogEntry>)
    ensures |r| == |pids|
    ensures forall i :: 0 <= i < |pids| ==> r[i] == StopTaskSuccess(name, pids[i])
  {
    seq(|pids|, i requires 0 <= i < |pids| => StopTaskSuccess(name, pids[i]))
  }

  lemma StopEffectTrans(s0: Sched, s1: Sched, s2: Sched, t0: StopTally, t1: StopTally, t2: StopTally,
                         selfPid: nat, m: nat, n: nat)
    requires StopEffect(s0, s1, t0, t1, selfPid, m) && StopEffect(s1, s2, t1, t2, selfPid, n)
    ensures StopEffect(s0, s2, t0, t2, selfPid, m + n)
  {
    assert s2.log[|s0.log|..] == s1.log[|s0.log|..] + s2.log[|s1.log|..];
    CountIfAppend(s1.log[|s0.log|..], s2.log[|s1.log|..], IsSuccess);
    CountIfAppend(s1.log[|s0.log|..], s2.log[|s1.log|..], IsNotRunning);
    assert forall k :: |s0.log| <= k < |s1.log| ==> s2.log[k] == s1.log[k];
    assert forall k :: |s0.signals| <= k < |s1.signals| ==> s2.signals[k] == s1.signals[k];
  }

  lemma {:induction false} AllCounted(name: string, pids: seq<nat>)
    ensures CountIf(SuccessEntries(name, pids), IsSuccess) == |pids|
    ensures CountIf(SuccessEntries(name, pids), IsNotRunning) == 0
    decreases |pids|
  {
    if |pids| > 0 {
      AllCounted(name, pids[1..]);
      assert SuccessEntries(name, pids)[1..] == SuccessEntries(name, pids[1..]);
    }
  }

  /** The stop loop's log when `pgrep` lists nothing for any task: one
      `not_running` entry per task, in order. */
  function NotRunningEntries(decls: seq<TaskDecl>): (r: seq<LogEntry>)
    ensures |r| == |decls|
    ensures forall i :: 0 <= i < |decls| ==> r[i] == StopTaskNotRunning(Basename(decls[i].path))
  {
    seq(|decls|, i requires 0 <= i < |decls| => StopTaskNotRunning(Basename(decls[i].path)))
  }

  /** `pgrep` lists nothing, for any name at any moment. (Not the same as
      a host without task processes: the `sh -c` that runs `pgrep` has the
      name on its own command line.) */
  ghost predicate NoProcesses(w: World)
  {
    forall t: nat, name: string :: NoPids(w, t, name)
  }

  predicate NoPids(w: World, t: nat, name: string)
  {
    w.pgrep(t, name) == []
  }

  /** When `pgrep` lists nothing for the task, the stop loop logs
      `not_running` for it and counts one failure. */
  lemma StopOneNoPids(d: TaskDecl, s: Sched, w: World, selfPid: nat, tally: StopTally)
    requires NoPids(w, s.clock, Basename(d.path))
    ensures var (r, t) := StopOne(d, s, w, selfPid, tally);
      r.log == s.log + [StopTaskNotRunning(Basename(d.path))] && r.signals == s.signals
      && t == StopTally(tally.stopped, tally.failed + 1)
  {
    assert SurvivingPids(w.pgrep(s.clock, Basename(d.path)), selfPid) == [];
  }

  lemma {:induction false} StopAllWithNoProcesses(decls: seq<TaskDecl>, s: Sched, w: World, selfPid: nat, tally: StopTally)
    requires NoProcesses(w)
    ensures var (r, t) := StopAll(decls, s, w, selfPid, tally);
      r.log == s.log + NotRunningEntries(decls) && r.signals == s.signals
      && t == StopTally(tally.stopped, tally.failed + |decls|)
    decreases |decls|
  {
    if |decls| == 0 {
      assert NotRunningEntries(decls) == [];
    } else {
      assert NoPids(w, s.clock, Basename(decls[0].path));
      var (s1, t1) := StopOne(decls[0], s, w, selfPid, tally);
      StopOneNoPids(decls[0], s, w, selfPid, tally);
      assert StopAll(decls, s, w, selfPid, tally) == StopAll(decls[1..], s1, w, selfPid, t1);
      StopAllWithNoProcesses(decls[1..], s1, w, selfPid, t1);
      assert NotRunningEntries(decls) == [StopTaskNotRunning(Basename(decls[0].path))] + NotRunningEntries(decls[1..]);
      AppendAssoc(s.log, [StopTaskNotRunning(Basename(decls[0].path))], NotRunningEntries(decls[1..]));
    }
  }

  /** `stop_scheduler` reports, in the run log it writes, a tally that
      counts exactly its own per-task entries; it never fails more tasks
      than are declared; it never signals its own process; and it logs no
      `process_not_found` or `permission_denied` entry, because
      terminating swallows every `OSError`. */
  lemma StopSchedulerReport(cfg: SchedConfig, s: Sched, w: World, selfPid: nat, rounds: nat)
    ensures var (t, r) := StopScheduler(cfg, s, w, selfPid, rounds);
      && |r.written| == |s.written| + 1 && r.log == [] && r.launched == s.launched
      && var f := r.written[|s.written|];
      && StopFinished(t.stopped, t.failed) in f.messages
      && CountIf(f.messages, IsSuccess) == CountIf(s.log, IsSuccess) + t.stopped
      && CountIf(f.messages, IsNotRunning) == CountIf(s.log, IsNotRunning) + t.failed
      && t.failed <= |cfg.jobs|
      && (forall k :: |s.signals| <= k < |r.signals| ==> r.signals[k].0 != selfPid)
  {
    var s1 := s.(log := s.log + [StopStarting]);
    var all := StopAll(cfg.jobs, s1, w, selfPid, StopTally(0, 0));
    var s3 := WaitLoop(cfg.jobs, all.0, w, rounds);
    var s4 := s3.(log := s3.log + [StopFinished(all.1.stopped, all.1.failed)]);
    var r := CreateLogFile(cfg, s4, w);
    ReportFromStages(s, s1, all.0, s3, s4, r, StatusEntries(r.written[|s4.written|].scheduled),
                     all.1, selfPid, |cfg.jobs|);
  }

  /** What `stop_scheduler` does to the processes it finds: the tasks'
      `pgrep` listings are taken in declaration order, each after the
      previous task's terminations; the tally counts the listed pids as
      stopped and the tasks with an empty listing as failed; and the signals
      sent are exactly the terminations of the listed pids, in order. */
  lemma StopSchedulerListings(cfg: SchedConfig, s: Sched, w: World, selfPid: nat, rounds: nat)
    returns (fs: seq<Found>)
    ensures ListedFrom(cfg.jobs, fs, w, selfPid, s.clock)
    ensures var (t, r) := StopScheduler(cfg, s, w, selfPid, rounds);
      && t == StopTally(TotalPids(fs), CountIf(fs, NothingFound))
      && r.signals == s.signals + AllTerminations(w, fs)
  {
    var s1 := s.(log := s.log + [StopStarting]);
    fs := StopAllListings(cfg.jobs, s1, w, selfPid, StopTally(0, 0));
    StopAllSignals(cfg.jobs, s1, w, selfPid, StopTally(0, 0), fs);
  }

  /** The report of `stop_scheduler` from the facts about its stages:
      the announcement, the stop loop, the wait loop (status lines only),
      the final message, and the run log. */
  lemma ReportFromStages(s: Sched, s1: Sched, s2: Sched, s3: Sched, s4: Sched, r: Sched,
                         tail: seq<LogEntry>, tally: StopTally, selfPid: nat, n: nat)
    requires s1 == s.(log := s.log + [StopStarting])
    requires StopEffect(s1, s2, StopTally(0, 0), tally, selfPid, n)
    requires s3.launched == s2.launched && s3.signals == s2.signals && s3.written == s2.written
    requires s2.log <= s3.log && forall k :: |s2.log| <= k < |s3.log| ==> s3.log[k].Status?
    requires s4 == s3.(log := s3.log + [StopFinished(tally.stopped, tally.failed)])
    requires r.launched == s4.launched && r.signals == s4.signals && r.log == []
    requires |r.written| == |s4.written| + 1 && s4.written <= r.written
    requires r.written[|s4.written|].messages == s4.log + tail
    requires forall k :: 0 <= k < |tail| ==> tail[k].Status?
    ensures |r.written| == |s.written| + 1 && r.log == [] && r.launched == s.launched
    ensures var f := r.written[|s.written|];
      && StopFinished(tally.stopped, tally.failed) in f.messages
      && CountIf(f.messages, IsSuccess) == CountIf(s.log, IsSuccess) + tally.stopped
      && CountIf(f.messages, IsNotRunning) == CountIf(s.log, IsNotRunning) + tally.failed
      && tally.failed <= n
      && (forall k :: |s.signals| <= k < |r.signals| ==> r.signals[k].0 != selfPid)
  {
    var f := r.written[|s.written|];
    var fin := StopFinished(tally.stopped, tally.failed);
    var stops := s2.log[|s1.log|..];
    var waits := s3.log[|s2.log|..];
    assert s2.log == s1.log + stops;
    assert s3.log == s2.log + waits;
    assert f.messages == s.log + [StopStarting] + stops + waits + [fin] + tail;
    assert forall k :: 0 <= k < |waits| ==> waits[k] == s3.log[|s2.log| + k];
    ReportCounts(s.log, stops, waits, fin, tail);
    assert f.messages[|s.log| + 1 + |stops| + |waits|] == fin;
    forall k | |s.signals| <= k < |r.signals|
      ensures r.signals[k].0 != selfPid
    {
      assert !Contains(Decimal(r.signals[k].0), Decimal(selfPid));
      ContainsItself(Decimal(selfPid));
    }
  }

  /** Counting stop entries across the messages of the final run log:
      only the stop loop's own entries contribute. */
  lemma ReportCounts(pre: seq<LogEntry>, stops: seq<LogEntry>, waits: seq<LogEntry>, fin: LogEntry, tail: seq<LogEntry>)
    requires forall k :: 0 <= k < |waits| ==> waits[k].Status?
    requires forall k :: 0 <= k < |tail| ==> tail[k].Status?
    requires fin.StopFinished?
    ensures CountIf(pre + [StopStarting] + stops + waits + [fin] + tail, IsSuccess)
      == CountIf(pre, IsSuccess) + CountIf(stops, IsSuccess)
    ensures CountIf(pre + [StopStarting] + stops + waits + [fin] + tail, IsNotRunning)
      == CountIf(pre, IsNotRunning) + CountIf(stops, IsNotRunning)
  {
    NoStopEntries(waits);
    NoStopEntries(tail);
    NoStopEntries([StopStarting]);
    NoStopEntries([fin]);
    assert CountIf([StopStarting], IsSuccess) == 0 && CountIf([fin], IsSuccess) == 0;
    var a := pre + [StopStarting];
    var b := a + stops;
    var c := b + waits;
    var d := c + [fin];
    CountIfAppend(d, tail, IsSuccess);
    CountIfAppend(c, [fin], IsSuccess);
    CountIfAppend(b, waits, IsSuccess);
    CountIfAppend(a, stops, IsSuccess);
    CountIfAppend(pre, [StopStarting], IsSuccess);
    CountIfAppend(d, tail, IsNotRunning);
    CountIfAppend(c, [fin], IsNotRunning);
    CountIfAppend(b, waits, IsNotRunning);
    CountIfAppend(a, stops, IsNotRunning);
    CountIfAppend(pre, [StopStarting], IsNotRunning);
  }

  /** Entries that are neither successes nor `not_running` entries count
      as neither. */
  lemma {:induction false} NoStopEntries(es: seq<LogEntry>)
    requires forall k :: 0 <= k < |es| ==> !IsSuccess(es[k]) && !IsNotRunning(es[k])
    ensures CountIf(es, IsSuccess) == 0 && CountIf(es, IsNotRunning) == 0
    decreases |es|
  {
    if |es| > 0 {
      NoStopEntries(es[1..]);
    }
  }

  lemma ContainsItself(s: string)
    ensures Contains(s, s)
  {
    assert OccursAt(s, s, 0);
  }

  /** When no declared task is found running, the wait loop polls once. */
  lemma WaitLoopSingleRound(decls: seq<TaskDecl>, s: Sched, w: World, rounds: nat)
    requires rounds > 0
    requires forall t: nat, i :: 0 <= i < |decls| ==> !Running(w, t, decls[i].name)
    ensures |WaitLoop(decls, s, w, rounds).log| == |s.log| + |decls|
  {
    assert !PollOnce(decls, s, w).1;
  }

  /** The substring filter over-excludes: with the scheduler running as pid
      12, the task process 312 is neither signalled nor counted as stopped,
      and its task is reported `not_running`. */
  lemma OwnPidFilterOverExcludes()
    ensures SurvivingPids([312], 12) == []
  {
    assert Decimal(312) == "312" by {
      assert Decimal(31) == "31";
    }
    assert Decimal(12) == "12";
    assert OccursAt("312", "12", 1);
  }
}

=== FILE: sched_launch.dfy ===
/** Launching tasks: `run_task`, the start-up pass `start_all_tasks`, and
    the one-off pass over all registered jobs that `schedule.run_all`
    performs (c_scheduler.py). */
module Launch {
  import opened Common
  import opened Paths
  import opened SchedState

  /** `e` is the one entry `run_task` logs for the task called `name`. */
  predicate IsRunEntryFor(e: LogEntry, name: string)
  {
    (e.SkipTask? && e.taskName == name) || (e.StartTask? && e.taskName == name)
  }

  /** The task names of the successful `start_task` entries of a log, in order. */
  function StartedNames(log: seq<LogEntry>): (r: seq<string>)
    ensures |r| <= |log|
  {
    if |log| == 0 then []
    else
      var head := if log[0].StartTask? && log[0].outcome.Started? then [log[0].taskName] else [];
      head + StartedNames(log[1..])
  }

  function Basenames(paths: seq<string>): (r: seq<string>)
    ensures |r| == |paths|
    ensures forall k :: 0 <= k < |paths| ==> r[k] == Basename(paths[k])
  {
    seq(|paths|, k requires 0 <= k < |paths| => Basename(paths[k]))
  }

  /** The scripts launched since `s0`, by base name, are exactly the tasks
      with a successful `start_task` entry logged since `s0`. */
  predicate LaunchesLogged(s0: Sched, s: Sched)
  {
    s0.log <= s.log && s0.launched <= s.launched
    && StartedNames(s.log[|s0.log|..]) == Basenames(s.launched[|s0.launched|..])
  }

  /** `run_task(path)`: the process table is probed for the script's base
      name at the current moment; a running task is skipped, otherwise the
      script is spawned at the next moment and the outcome logged. */
  function RunTask(path: string, s: Sched, w: World): (r: Sched)
    ensures r.jobs == s.jobs && r.signals == s.signals && r.written == s.written
    ensures r.clock > s.clock
    ensures |r.log| == |s.log| + 1 && s.log <= r.log
    ensures IsRunEntryFor(r.log[|s.log|], Basename(path))
    ensures r.log[|s.log|].SkipTask? <==> Running(w, s.clock, Basename(path))
    ensures Running(w, s.clock, Basename(path)) ==> r.launched == s.launched
    ensures r.launched == s.launched + [path] || r.launched == s.launched
    ensures LaunchesLogged(s, r)
  {
    var name := Basename(path);
    if Running(w, s.clock, name) then
      var r := s.(log := s.log + [SkipTask(name)], clock := s.clock + 1);
      assert r.log[|s.log|..] == [SkipTask(name)];
      assert r.launched[|s.launched|..] == [];
      r
    else
      match w.spawnError(s.clock + 1, path)
      case None =>
        var r := s.(log := s.log + [StartTask(name, Started)], launched := s.launched + [path],
                    clock := s.clock + 2);
        assert r.log[|s.log|..] == [StartTask(name, Started)];
        assert r.launched[|s.launched|..] == [path];
        r
      case Some(e) =>
        var r := s.(log := s.log + [StartTask(name, SpawnFailed(e))], clock := s.clock + 2);
        assert r.log[|s.log|..] == [StartTask(name, SpawnFailed(e))];
        assert r.launched[|s.launched|..] == [];
        r
  }

  /** One step of `start_all_tasks`: probe; a task found running is passed
      over without any log entry, any other is handed to `run_task`, which
      probes again. */
  function StartOne(d: TaskDecl, s: Sched, w: World): Sched
  {
    if Running(w, s.clock, Basename(d.path)) then s.(clock := s.clock + 1)
    else RunTask(d.path, s.(clock := s.clock + 1), w)
  }

  /** `start_all_tasks` over the declared tasks, in declaration order. */
  function StartAllTasks(decls: seq<TaskDecl>, s: Sched, w: World): Sched
    decreases |decls|
  {
    if |decls| == 0 then s else StartAllTasks(decls[1..], StartOne(decls[0], s, w), w)
  }

  /** `schedule.run_all`: every registered job runs once, in registration
      order, and each job runs `run_task` on its path. */
  function RunAll(jobs: seq<Job>, s: Sched, w: World): Sched
    decreases |jobs|
  {
    if |jobs| == 0 then s else RunAll(jobs[1..], RunTask(jobs[0].path, s, w), w)
  }

  function DeclPaths(decls: seq<TaskDecl>): (r: seq<string>)
    ensures |r| == |decls|
    ensures forall k :: 0 <= k < |decls| ==> r[k] == decls[k].path
  {
    seq(|decls|, k requires 0 <= k < |decls| => decls[k].path)
  }

  /** The scripts the job list's entries run, in list order. */
  function JobPaths(jobs: seq<Job>): (r: seq<string>)
    ensures |r| == |jobs|
    ensures forall k :: 0 <= k < |jobs| ==> r[k] == jobs[k].path
  {
    if |jobs| == 0 then [] else [jobs[0].path] + JobPaths(jobs[1..])
  }

  function StartedEntries(paths: seq<string>): (r: seq<LogEntry>)
    ensures |r| == |paths|
    ensures forall k :: 0 <= k < |paths| ==> r[k] == StartTask(Basename(paths[k]), Started)
  {
    seq(|paths|, k requires 0 <= k < |paths| => StartTask(Basename(paths[k]), Started))
  }

  /** The process table is empty at moment `t`. */
  predicate IdleAt(w: World, t: nat)
  {
    w.ps(t) == []
  }

  predicate SpawnsAt(w: World, t: nat, path: string)
  {
    w.spawnError(t, path).None?
  }

  /** A host with no processes on which every spawn succeeds. */
  ghost predicate Quiet(w: World)
  {
    (forall t: nat :: IdleAt(w, t)) && (forall t: nat, p: string :: SpawnsAt(w, t, p))
  }

  /** Every declared task is found running at every moment. */
  ghost predicate AllBusy(w: World, decls: seq<TaskDecl>)
  {
    forall t: nat, k :: 0 <= k < |decls| ==> Running(w, t, Basename(decls[k].path))
  }

  // ---------------------------------------------------------------------
  // Properties

  lemma {:induction false} StartedNamesAppend(a: seq<LogEntry>, b: seq<LogEntry>)
    ensures StartedNames(a + b) == StartedNames(a) + StartedNames(b)
    decreases |a|
  {
    if |a| == 0 {
      assert a + b == b;
    } else {
      assert (a + b)[0] == a[0];
      assert (a + b)[1..] == a[1..] + b;
      StartedNamesAppend(a[1..], b);
    }
  }

  /** Launch/log agreement composes over consecutive steps. */
  lemma LaunchesLoggedTrans(s0: Sched, s1: Sched, s2: Sched)
    requires LaunchesLogged(s0, s1) && LaunchesLogged(s1, s2)
    ensures LaunchesLogged(s0, s2)
  {
    SuffixSplit(s0.log, s1.log, s2.log);
    SuffixSplit(s0.launched, s1.launched, s2.launched);
    StartedNamesAppend(s1.log[|s0.log|..], s2.log[|s1.log|..]);
    BasenamesAppend(s1.launched[|s0.launched|..], s2.launched[|s1.launched|..]);
  }

  lemma BasenamesAppend(a: seq<string>, b: seq<string>)
    ensures Basenames(a + b) == Basenames(a) + Basenames(b)
  {
  }

  lemma LaunchesLoggedRefl(s: Sched)
    ensures LaunchesLogged(s, s)
  {
    assert s.log[|s.log|..] == [];
    assert s.launched[|s.launched|..] == [];
  }

  /** The start-up pass touches neither the jobs, the signals nor the log
      files; it adds at most one entry per task, each a `skip_task` or
      `start_task` entry for that task; and it launches a script exactly
      when it logs a successful start. */
  lemma {:induction false} StartAllTasksEffect(decls: seq<TaskDecl>, s: Sched, w: World)
    ensures var r := StartAllTasks(decls, s, w);
      && r.jobs == s.jobs && r.signals == s.signals && r.written == s.written
      && s.log <= r.log && |r.log| <= |s.log| + |decls|
      && (forall k :: |s.log| <= k < |r.log| ==> r.log[k].SkipTask? || r.log[k].StartTask?)
      && LaunchesLogged(s, r)
    decreases |decls|
  {
    if |decls| == 0 {
      LaunchesLoggedRefl(s);
    } else {
      var s1 := StartOne(decls[0], s, w);
      StartAllTasksEffect(decls[1..], s1, w);
      var r := StartAllTasks(decls, s, w);
      if Running(w, s.clock, Basename(decls[0].path)) {
        LaunchesLoggedRefl(s);
        assert LaunchesLogged(s, s1) by {
          assert s1.log == s.log && s1.launched == s.launched;
        }
      } else {
        assert LaunchesLogged(s.(clock := s.clock + 1), s1);
      }
      LaunchesLoggedTrans(s, s1, r);
    }
  }

  /** Running every registered job adds exactly one entry per job, in job
      order, naming that job's script; nothing but the log, the launches
      and the clock changes, and launches agree with the log. */
  lemma RunAllEffect(jobs: seq<Job>, s: Sched, w: World)
    ensures var r := RunAll(jobs, s, w);
      && r.jobs == s.jobs && r.signals == s.signals && r.written == s.written
      && |r.log| == |s.log| + |jobs| && s.log <= r.log
      && (forall k :: 0 <= k < |jobs| ==> IsRunEntryFor(r.log[|s.log| + k], Basename(jobs[k].path)))
      && LaunchesLogged(s, r)
  {
    RunAllFrame(jobs, s, w);
    RunAllEntries(jobs, s, w);
  }

  lemma {:induction false} RunAllFrame(jobs: seq<Job>, s: Sched, w: World)
    ensures var r := RunAll(jobs, s, w);
      && r.jobs == s.jobs && r.signals == s.signals && r.written == s.written
      && |r.log| == |s.log| + |jobs| && s.log <= r.log
      && LaunchesLogged(s, r)
    decreases |jobs|
  {
    if |jobs| == 0 {
      LaunchesLoggedRefl(s);
    } else {
      var s1 := RunTask(jobs[0].path, s, w);
      var r := RunAll(jobs[1..], s1, w);
      assert RunAll(jobs, s, w) == r;
      RunAllFrame(jobs[1..], s1, w);
      LaunchesLoggedTrans(s, s1, r);
    }
  }

  lemma {:induction false} RunAllEntries(jobs: seq<Job>, s: Sched, w: World)
    ensures var r := RunAll(jobs, s, w);
      && |r.log| == |s.log| + |jobs| && s.log <= r.log
      && forall k :: 0 <= k < |jobs| ==> IsRunEntryFor(r.log[|s.log| + k], Basename(jobs[k].path))
    decreases |jobs|
  {
    if |jobs| > 0 {
      var s1 := RunTask(jobs[0].path, s, w);
      var r := RunAll(jobs[1..], s1, w);
      assert RunAll(jobs, s, w) == r;
      RunAllEntries(jobs[1..], s1, w);
      RunEntriesCons(jobs, s, s1, r);
    }
  }

  /** The entry of the first job followed by those of the rest. */
  lemma RunEntriesCons(jobs: seq<Job>, s: Sched, s1: Sched, r: Sched)
    requires |jobs| > 0
    requires |s1.log| == |s.log| + 1 && IsRunEntryFor(s1.log[|s.log|], Basename(jobs[0].path))
    requires |r.log| == |s1.log| + |jobs| - 1 && s1.log <= r.log
    requires forall k :: 0 <= k < |jobs| - 1 ==> IsRunEntryFor(r.log[|s1.log| + k], Basename(jobs[1..][k].path))
    ensures forall k :: 0 <= k < |jobs| ==> IsRunEntryFor(r.log[|s.log| + k], Basename(jobs[k].path))
  {
    forall k | 0 <= k < |jobs|
      ensures IsRunEntryFor(r.log[|s.log| + k], Basename(jobs[k].path))
    {
      if k == 0 {
        assert r.log[|s.log|] == s1.log[|s.log|];
      } else {
        assert jobs[1..][k - 1] == jobs[k];
      }
    }
  }

  /** On a quiet host the start-up pass launches every declared script, in
      order, and logs a successful start for each. */
  lemma {:induction false} StartAllOnQuietHost(decls: seq<TaskDecl>, s: Sched, w: World)
    requires Quiet(w)
    ensures StartAllTasks(decls, s, w).launched == s.launched + DeclPaths(decls)
    ensures StartAllTasks(decls, s, w).log == s.log + StartedEntries(DeclPaths(decls))
    decreases |decls|
  {
    if |decls| == 0 {
      assert DeclPaths(decls) == [];
    } else {
      var d := decls[0];
      var s1 := StartOne(d, s, w);
      StartOneOnQuietHost(d, s, w);
      StartAllOnQuietHost(decls[1..], s1, w);
      QuietStep(decls, s, s1, StartAllTasks(decls[1..], s1, w));
    }
  }

  /** On a quiet host `run_all` launches every job's script, in job order. */
  lemma {:induction false} RunAllOnQuietHost(jobs: seq<Job>, s: Sched, w: World)
    requires Quiet(w)
    ensures RunAll(jobs, s, w).launched == s.launched + JobPaths(jobs)
    decreases |jobs|
  {
    if |jobs| == 0 {
      assert JobPaths(jobs) == [];
    } else {
      var s1 := RunTask(jobs[0].path, s, w);
      assert RunAll(jobs, s, w) == RunAll(jobs[1..], s1, w);
      QuietRunTask(jobs[0].path, s, w);
      RunAllOnQuietHost(jobs[1..], s1, w);
      AppendAssoc(s.launched, [jobs[0].path], JobPaths(jobs[1..]));
    }
  }

  /** On a quiet host every run of a task launches its script. */
  lemma QuietRunTask(path: string, s: Sched, w: World)
    requires Quiet(w)
    ensures RunTask(path, s, w).launched == s.launched + [path]
  {
    assert IdleAt(w, s.clock) && SpawnsAt(w, s.clock + 1, path);
  }

  /** Splicing one quiet start-up step in front of the rest of the pass. */
  lemma QuietStep(decls: seq<TaskDecl>, s: Sched, s1: Sched, r: Sched)
    requires |decls| > 0
    requires s1.launched == s.launched + [decls[0].path]
    requires s1.log == s.log + [StartTask(Basename(decls[0].path), Started)]
    requires r.launched == s1.launched + DeclPaths(decls[1..])
    requires r.log == s1.log + StartedEntries(DeclPaths(decls[1..]))
    ensures r.launched == s.launched + DeclPaths(decls)
    ensures r.log == s.log + StartedEntries(DeclPaths(decls))
  {
    var p := decls[0].path;
    var ps := DeclPaths(decls[1..]);
    DeclPathsCons(decls);
    AppendAssoc(s.launched, [p], ps);
    StartedEntriesCons(p, ps);
    AppendAssoc(s.log, [StartTask(Basename(p), Started)], StartedEntries(ps));
  }

  lemma StartedEntriesCons(p: string, ps: seq<string>)
    ensures StartedEntries([p] + ps) == [StartTask(Basename(p), Started)] + StartedEntries(ps)
  {
  }

  lemma DeclPathsCons(decls: seq<TaskDecl>)
    requires |decls| > 0
    ensures DeclPaths(decls) == [decls[0].path] + DeclPaths(decls[1..])
  {
  }

  lemma StartOneOnQuietHost(d: TaskDecl, s: Sched, w: World)
    requires Quiet(w)
    ensures StartOne(d, s, w).launched == s.launched + [d.path]
    ensures StartOne(d, s, w).log == s.log + [StartTask(Basename(d.path), Started)]
  {
    assert IdleAt(w, s.clock) && IdleAt(w, s.clock + 1);
    assert SpawnsAt(w, s.clock + 2, d.path);
  }

  /** When every declared task is already running, the start-up pass
      launches nothing and logs nothing: a task found running here gets no
      `skip_task` entry. */
  lemma {:induction false} StartAllWhenAllBusy(decls: seq<TaskDecl>, s: Sched, w: World)
    requires AllBusy(w, decls)
    ensures var r := StartAllTasks(decls, s, w);
      r == s.(clock := s.clock + |decls|)
    decreases |decls|
  {
    if |decls| > 0 {
      assert Running(w, s.clock, Basename(decls[0].path));
      assert AllBusy(w, decls[1..]) by {
        forall t: nat, k | 0 <= k < |decls[1..]|
          ensures Running(w, t, Basename(decls[1..][k].path))
        {
          assert decls[1..][k] == decls[k + 1];
        }
      }
      StartAllWhenAllBusy(decls[1..], s.(clock := s.clock + 1), w);
    }
  }
}

=== FILE: sched_registry.dfy ===
/** The job registry of the scheduler: handler naming, the "is this task
    scheduled" test, the status listing, and the registration pass of
    `start_scheduler` (c_scheduler.py).

    The frequency map is built once per scheduler and holds, for each of
    the four frequencies, the bound `do` of ONE job object
    (`schedule.every().hour.do`, ...). Every registration of an hourly
    task therefore goes to the same hourly job: `do` replaces that job's
    handler and appends the job to the engine's list once more. The
    registration pass below follows that code as written; the pass with a
    job of its own for each task, which the status listing and the
    `is_job_scheduled` test evidently expect, is defined next to it as
    `RegisterAllPerTask`. */
module Registry {
  import opened Common
  import opened SchedState

  /** The name `create_task_runner` gives the handler of a task. */
  function HandlerName(task: string): string
  {
    "run_task_" + task
  }

  /** A handler made by `create_task_runner`: its name and the script it
      hands to `run_task`. */
  datatype Runner = Runner(handler: string, path: string)

  /** `create_task_runner(task, path)`: a job holding the runner, of any
      frequency, makes `is_job_scheduled` report this task and no other. */
  function CreateTaskRunner(task: string, path: string): (r: Runner)
    ensures r.handler == HandlerName(task) && r.path == path
    ensures forall rule, t :: IsJobScheduled([Holding(rule, r)], t) <==> t == task
  {
    HandlerNamesDistinct();
    Runner(HandlerName(task), path)
  }

  /** A job of frequency `rule` holding `runner`. */
  function Holding(rule: Recurrence, runner: Runner): Job
  {
    Job(runner.handler, rule, runner.path)
  }

  /** `is_job_scheduled`: scan the job list for a handler named after the task. */
  function IsJobScheduled(jobs: seq<Job>, task: string): (r: bool)
    ensures r <==> exists k :: 0 <= k < |jobs| && jobs[k].handler == HandlerName(task)
  {
    if |jobs| == 0 then false
    else if jobs[0].handler == HandlerName(task) then true
    else IsJobScheduled(jobs[1..], task)
  }

  function StatusText(scheduled: bool): string
  {
    if scheduled then "Scheduled" else "Not scheduled"
  }

  function StatusOf(d: TaskDecl, jobs: seq<Job>): StatusLine
  {
    StatusLine(d.name, FrequencyOf(d), StatusText(IsJobScheduled(jobs, d.name)))
  }

  function StatusEntries(lines: seq<StatusLine>): (r: seq<LogEntry>)
    ensures |r| == |lines|
    ensures forall i :: 0 <= i < |lines| ==> r[i] == Status(lines[i])
  {
    if |lines| == 0 then [] else [Status(lines[0])] + StatusEntries(lines[1..])
  }

  /** `list_scheduled_jobs_and_tasks`: one status line per declared task, in
      declaration order, each also appended to the log. */
  function ListScheduled(decls: seq<TaskDecl>, s: Sched): (r: (seq<StatusLine>, Sched))
    ensures |r.0| == |decls|
    ensures forall i :: 0 <= i < |decls| ==>
      r.0[i].taskName == decls[i].name && r.0[i].frequency == FrequencyOf(decls[i])
    ensures forall i :: 0 <= i < |decls| ==>
      (r.0[i].status == "Scheduled" <==> IsJobScheduled(s.jobs, decls[i].name))
    ensures forall i :: 0 <= i < |decls| ==>
      (r.0[i].status == "Not scheduled" <==> !IsJobScheduled(s.jobs, decls[i].name))
    ensures r.1 == s.(log := s.log + StatusEntries(r.0))
  {
    var lines := seq(|decls|, i requires 0 <= i < |decls| => StatusOf(decls[i], s.jobs));
    (lines, s.(log := s.log + StatusEntries(lines)))
  }

  predicate KnownFrequency(d: TaskDecl)
  {
    RecurrenceOf(FrequencyOf(d)).Some?
  }

  /** The recurrence rule of a task of known frequency. */
  function RuleOf(d: TaskDecl): Recurrence
    requires KnownFrequency(d)
  {
    RecurrenceOf(FrequencyOf(d)).value
  }

  /** The task's frequency is a known one and has rule `rule`. */
  predicate OfRule(d: TaskDecl, rule: Recurrence)
  {
    RecurrenceOf(FrequencyOf(d)) == Some(rule)
  }

  /** `FREQUENCY_MAP[frequency](runner)`: the frequency's one job now holds
      `runner`, and is appended to the list again. Every entry of that
      frequency is that job, so each of them now runs `runner`. */
  function SharedDo(jobs: seq<Job>, rule: Recurrence, runner: Runner): (r: seq<Job>)
    ensures |r| == |jobs| + 1
  {
    seq(|jobs|, k requires 0 <= k < |jobs| => if jobs[k].rule == rule then Holding(rule, runner) else jobs[k])
      + [Holding(rule, runner)]
  }

  /** One step of the registration pass, as written: a task whose frequency
      is known and which is not yet scheduled becomes the handler of its
      frequency's job, and gets a `schedule_task` entry. */
  function RegisterOne(d: TaskDecl, s: Sched): Sched
  {
    var frequency := FrequencyOf(d);
    match RecurrenceOf(frequency)
    case None => s
    case Some(rule) =>
      if IsJobScheduled(s.jobs, d.name) then s
      else s.(jobs := SharedDo(s.jobs, rule, CreateTaskRunner(d.name, d.path)),
              log := s.log + [ScheduleTask(d.name, frequency)])
  }

  /** The registration loop of `start_scheduler`, over the declared tasks in order. */
  function RegisterAll(decls: seq<TaskDecl>, s: Sched): Sched
    decreases |decls|
  {
    if |decls| == 0 then s else RegisterAll(decls[1..], RegisterOne(decls[0], s))
  }

  /** The step registers: the frequency is known and the task unscheduled. */
  predicate Registers(d: TaskDecl, jobs: seq<Job>)
  {
    KnownFrequency(d) && !IsJobScheduled(jobs, d.name)
  }

  /** Some entry of a frequency other than `rule` runs the handler of `task`. */
  predicate ScheduledOutside(jobs: seq<Job>, rule: Recurrence, task: string)
  {
    exists k :: 0 <= k < |jobs| && jobs[k].rule != rule && jobs[k].handler == HandlerName(task)
  }

  /** Entries of one frequency are one job: they hold the same handler. */
  predicate Shared(jobs: seq<Job>)
  {
    forall i, j :: 0 <= i < |jobs| && 0 <= j < |jobs| && jobs[i].rule == jobs[j].rule ==> jobs[i] == jobs[j]
  }

  /** The tasks of known frequency, in declaration order. */
  function KnownDecls(decls: seq<TaskDecl>): seq<TaskDecl>
  {
    Filter(decls, KnownFrequency)
  }

  /** The last declared task of frequency `rule`, if any. */
  function Holder(decls: seq<TaskDecl>, rule: Recurrence): Option<TaskDecl>
    decreases |decls|
  {
    if |decls| == 0 then None
    else if OfRule(decls[|decls| - 1], rule) then Some(decls[|decls| - 1])
    else Holder(decls[..|decls| - 1], rule)
  }

  /** The job runs the last declared task of its frequency. */
  predicate HeldByLast(decls: seq<TaskDecl>, j: Job)
  {
    match Holder(decls, j.rule)
    case Some(h) => j.handler == HandlerName(h.name) && j.path == h.path
    case None => false
  }

  /** The job list a registration pass from an empty list leaves: one
      entry per task of known frequency, in declaration order, with that
      task's frequency, each running the last declared task of the
      frequency. */
  predicate SharedLayout(decls: seq<TaskDecl>, jobs: seq<Job>)
  {
    var known := KnownDecls(decls);
    && |jobs| == |known|
    && (forall k :: 0 <= k < |jobs| ==> OfRule(known[k], jobs[k].rule))
    && (forall k :: 0 <= k < |jobs| ==> HeldByLast(decls, jobs[k]))
  }

  /** Task `i` has a known frequency and no later task has the same one. */
  predicate LastOfFrequency(decls: seq<TaskDecl>, i: int)
  {
    0 <= i < |decls| && KnownFrequency(decls[i])
    && forall j :: i < j < |decls| ==> !OfRule(decls[j], RuleOf(decls[i]))
  }

  /** The `schedule_task` entries of the given tasks, in order. */
  function ScheduleEntries(decls: seq<TaskDecl>): (r: seq<LogEntry>)
    ensures |r| == |decls|
    ensures forall k :: 0 <= k < |decls| ==> r[k] == ScheduleTask(decls[k].name, FrequencyOf(decls[k]))
  {
    seq(|decls|, k requires 0 <= k < |decls| => ScheduleTask(decls[k].name, FrequencyOf(decls[k])))
  }

  /** Names of distinct tasks: no two declarations share a name (they are
      the keys of a dictionary). */
  predicate DistinctNames(decls: seq<TaskDecl>)
  {
    forall i, j :: 0 <= i < j < |decls| ==> decls[i].name != decls[j].name
  }

  function Handlers(jobs: seq<Job>): (r: seq<string>)
    ensures |r| == |jobs|
    ensures forall k :: 0 <= k < |jobs| ==> r[k] == jobs[k].handler
  {
    seq(|jobs|, k requires 0 <= k < |jobs| => jobs[k].handler)
  }

  /** `handler` is the handler name of some declared task with a known frequency. */
  predicate DeclaredKnown(decls: seq<TaskDecl>, handler: string)
  {
    exists i :: 0 <= i < |decls| && KnownFrequency(decls[i]) && handler == HandlerName(decls[i].name)
  }

  // ---------------------------------------------------------------------
  // Properties of the registration as written

  /** Handler names determine the task: `run_task_` is a common prefix. */
  lemma HandlerNameInjective(a: string, b: string)
    requires HandlerName(a) == HandlerName(b)
    ensures a == b
  {
    assert a == HandlerName(a)[9..];
    assert b == HandlerName(b)[9..];
  }

  lemma HandlerNamesDistinct()
    ensures forall a, b :: HandlerName(a) == HandlerName(b) ==> a == b
  {
    forall a, b | HandlerName(a) == HandlerName(b)
      ensures a == b
    {
      HandlerNameInjective(a, b);
    }
  }

  /** After `do(runner)` on a frequency's job, a task is scheduled exactly
      when `runner` is its handler or an entry of another frequency runs it:
      the tasks the frequency's job ran before are no longer scheduled. */
  lemma SharedDoScheduled(jobs: seq<Job>, rule: Recurrence, runner: Runner, task: string)
    ensures IsJobScheduled(SharedDo(jobs, rule, runner), task)
        <==> runner.handler == HandlerName(task) || ScheduledOutside(jobs, rule, task)
  {
    var r := SharedDo(jobs, rule, runner);
    assert r[|jobs|] == Holding(rule, runner);
    if ScheduledOutside(jobs, rule, task) {
      var k :| 0 <= k < |jobs| && jobs[k].rule != rule && jobs[k].handler == HandlerName(task);
      assert r[k] == jobs[k];
    }
    if IsJobScheduled(r, task) && runner.handler != HandlerName(task) {
      var k :| 0 <= k < |r| && r[k].handler == HandlerName(task);
      assert k < |jobs| && r[k] == jobs[k] && jobs[k].rule != rule;
    }
  }

  /** One registration step: it touches nothing but the job list and the
      log; a step that registers appends one entry and one `schedule_task`
      entry, schedules its task, and unschedules every other task that
      only the frequency's job ran; any other step changes nothing. */
  lemma RegisterOneEffect(d: TaskDecl, s: Sched)
    ensures var r := RegisterOne(d, s);
      && r.launched == s.launched && r.signals == s.signals && r.clock == s.clock
      && r.written == s.written
      && (!Registers(d, s.jobs) ==> r == s)
      && (Registers(d, s.jobs) ==>
            && |r.jobs| == |s.jobs| + 1
            && r.log == s.log + [ScheduleTask(d.name, FrequencyOf(d))]
            && IsJobScheduled(r.jobs, d.name)
            && forall x :: x != d.name ==> (IsJobScheduled(r.jobs, x) <==> ScheduledOutside(s.jobs, RuleOf(d), x)))
  {
    if Registers(d, s.jobs) {
      var runner := CreateTaskRunner(d.name, d.path);
      assert RegisterOne(d, s).jobs == SharedDo(s.jobs, RuleOf(d), runner);
      SharedDoScheduled(s.jobs, RuleOf(d), runner, d.name);
      forall x | x != d.name
        ensures IsJobScheduled(RegisterOne(d, s).jobs, x) <==> ScheduledOutside(s.jobs, RuleOf(d), x)
      {
        SharedDoScheduled(s.jobs, RuleOf(d), runner, x);
        if runner.handler == HandlerName(x) {
          HandlerNameInjective(d.name, x);
        }
      }
    }
  }

  /** A registration pass touches nothing but the job list and the log,
      and only appends to the log. */
  lemma {:induction false} RegisterAllFrame(decls: seq<TaskDecl>, s: Sched)
    ensures var r := RegisterAll(decls, s);
      && r.launched == s.launched && r.signals == s.signals && r.clock == s.clock
      && r.written == s.written && s.log <= r.log
    decreases |decls|
  {
    if |decls| > 0 {
      RegisterOneEffect(decls[0], s);
      RegisterAllFrame(decls[1..], RegisterOne(decls[0], s));
    }
  }

  /** Entries of one frequency stay one job through a registration pass. */
  lemma {:induction false} RegisterAllKeepsShared(decls: seq<TaskDecl>, s: Sched)
    requires Shared(s.jobs)
    ensures Shared(RegisterAll(decls, s).jobs)
    decreases |decls|
  {
    if |decls| > 0 {
      var d := decls[0];
      if Registers(d, s.jobs) {
        SharedDoShared(s.jobs, RuleOf(d), CreateTaskRunner(d.name, d.path));
      }
      RegisterAllKeepsShared(decls[1..], RegisterOne(d, s));
    }
  }

  lemma SharedDoShared(jobs: seq<Job>, rule: Recurrence, runner: Runner)
    requires Shared(jobs)
    ensures Shared(SharedDo(jobs, rule, runner))
  {
    var r := SharedDo(jobs, rule, runner);
    forall i, j | 0 <= i < |r| && 0 <= j < |r| && r[i].rule == r[j].rule
      ensures r[i] == r[j]
    {
      assert i < |jobs| ==> r[i] == if jobs[i].rule == rule then Holding(rule, runner) else jobs[i];
      assert j < |jobs| ==> r[j] == if jobs[j].rule == rule then Holding(rule, runner) else jobs[j];
    }
  }

  /** A pass over tasks that are all scheduled or of unknown frequency
      changes nothing. */
  lemma {:induction false} RegisterAllStable(decls: seq<TaskDecl>, s: Sched)
    requires forall i :: 0 <= i < |decls| && KnownFrequency(decls[i]) ==>
      IsJobScheduled(s.jobs, decls[i].name)
    ensures RegisterAll(decls, s) == s
    decreases |decls|
  {
    if |decls| > 0 {
      assert RegisterOne(decls[0], s) == s;
      forall i | 0 <= i < |decls[1..]| && KnownFrequency(decls[1..][i])
        ensures IsJobScheduled(s.jobs, decls[1..][i].name)
      {
        assert decls[1..][i] == decls[i + 1];
      }
      RegisterAllStable(decls[1..], s);
    }
  }

  /** A task of unknown frequency that is not already scheduled gets no job:
      an unknown frequency is skipped silently. */
  lemma {:induction false} UnknownFrequencyNotRegistered(decls: seq<TaskDecl>, s: Sched, task: string)
    requires !IsJobScheduled(s.jobs, task)
    requires forall i :: 0 <= i < |decls| && decls[i].name == task ==> !KnownFrequency(decls[i])
    ensures !IsJobScheduled(RegisterAll(decls, s).jobs, task)
    decreases |decls|
  {
    if |decls| > 0 {
      var d := decls[0];
      if Registers(d, s.jobs) {
        SharedDoScheduled(s.jobs, RuleOf(d), CreateTaskRunner(d.name, d.path), task);
        if HandlerName(d.name) == HandlerName(task) {
          HandlerNameInjective(d.name, task);
        }
      }
      forall i | 0 <= i < |decls[1..]| && decls[1..][i].name == task
        ensures !KnownFrequency(decls[1..][i])
      {
        assert decls[1..][i] == decls[i + 1];
      }
      UnknownFrequencyNotRegistered(decls[1..], RegisterOne(d, s), task);
    }
  }

  /** A registration pass from an empty job list leaves one entry per task
      of known frequency, in declaration order, each entry running the last
      declared task of its frequency; it logs one `schedule_task` entry per
      task of known frequency, and touches nothing else. */
  lemma {:induction false} RegisterAllFromEmpty(decls: seq<TaskDecl>, s: Sched)
    requires s.jobs == [] && DistinctNames(decls)
    ensures var r := RegisterAll(decls, s);
      && SharedLayout(decls, r.jobs)
      && r.log == s.log + ScheduleEntries(KnownDecls(decls))
      && r.launched == s.launched && r.signals == s.signals && r.clock == s.clock
      && r.written == s.written
    decreases |decls|
  {
    if |decls| == 0 {
      assert KnownDecls(decls) == [];
    } else {
      var n := |decls| - 1;
      var p := decls[..n];
      var d := decls[n];
      assert decls == p + [d];
      DistinctNamesInit(p, d);
      RegisterAllFromEmpty(p, s);
      var q := RegisterAll(p, s);
      RegisterAllSnoc(p, d, s);
      KnownDeclsSnoc(p, d);
      RegisterOneEffect(d, q);
      if KnownFrequency(d) {
        NotHeldBefore(p, q.jobs, d);
        LayoutSnocKnown(p, d, q.jobs);
        ScheduleEntriesSnoc(KnownDecls(p), d);
        AppendAssoc(s.log, ScheduleEntries(KnownDecls(p)), [ScheduleTask(d.name, FrequencyOf(d))]);
      } else {
        LayoutSnocUnknown(p, d, q.jobs);
      }
    }
  }

  /** Dropping the last task keeps names distinct, and the last task's
      name is new. */
  lemma DistinctNamesInit(p: seq<TaskDecl>, d: TaskDecl)
    requires DistinctNames(p + [d])
    ensures DistinctNames(p)
    ensures forall i :: 0 <= i < |p| ==> p[i].name != d.name
  {
    var decls := p + [d];
    forall i, j | 0 <= i < j < |p| ensures p[i].name != p[j].name {
      assert p[i] == decls[i] && p[j] == decls[j];
    }
    forall i | 0 <= i < |p| ensures p[i].name != d.name {
      assert p[i] == decls[i] && d == decls[|p|];
    }
  }

  /** After a registration pass from an empty list, a task is scheduled
      exactly when it is the last declared task of its frequency. */
  lemma SharedLayoutScheduled(decls: seq<TaskDecl>, jobs: seq<Job>, task: string)
    requires SharedLayout(decls, jobs)
    ensures IsJobScheduled(jobs, task)
        <==> exists i :: 0 <= i < |decls| && decls[i].name == task && LastOfFrequency(decls, i)
  {
    var known := KnownDecls(decls);
    if IsJobScheduled(jobs, task) {
      var k :| 0 <= k < |jobs| && jobs[k].handler == HandlerName(task);
      assert HeldByLast(decls, jobs[k]);
      var i := HolderIndex(decls, jobs[k].rule);
      HandlerNameInjective(decls[i].name, task);
      assert LastOfFrequency(decls, i);
    }
    if exists i :: 0 <= i < |decls| && decls[i].name == task && LastOfFrequency(decls, i) {
      var i :| 0 <= i < |decls| && decls[i].name == task && LastOfFrequency(decls, i);
      var rule := RuleOf(decls[i]);
      assert decls[i] in known;
      var k :| 0 <= k < |known| && known[k] == decls[i];
      assert OfRule(known[k], jobs[k].rule);
      assert jobs[k].rule == rule;
      assert HeldByLast(decls, jobs[k]);
      var i' := HolderIndex(decls, rule);
      assert OfRule(decls[i'], rule) && OfRule(decls[i], rule);
      assert i' == i;
      assert jobs[k].handler == HandlerName(task);
    }
  }

  /** The holder of a frequency is the task at some position, of that
      frequency, with no later task of it. */
  lemma {:induction false} HolderIndex(decls: seq<TaskDecl>, rule: Recurrence) returns (i: nat)
    requires Holder(decls, rule).Some?
    ensures i < |decls| && decls[i] == Holder(decls, rule).value && OfRule(decls[i], rule)
    ensures forall j :: i < j < |decls| ==> !OfRule(decls[j], rule)
    decreases |decls|
  {
    var n := |decls| - 1;
    if OfRule(decls[n], rule) {
      i := n;
    } else {
      i := HolderIndex(decls[..n], rule);
      assert decls[..n][i] == decls[i];
      forall j | i < j < |decls| ensures !OfRule(decls[j], rule) {
        if j < n {
          assert decls[..n][j] == decls[j];
        }
      }
    }
  }

  /** Registering one more task after a pass is the pass over the longer list. */
  lemma {:induction false} RegisterAllSnoc(decls: seq<TaskDecl>, d: TaskDecl, s: Sched)
    ensures RegisterAll(decls + [d], s) == RegisterOne(d, RegisterAll(decls, s))
    decreases |decls|
  {
    if |decls| == 0 {
      assert decls + [d] == [d];
      assert [d][1..] == [];
    } else {
      assert (decls + [d])[0] == decls[0];
      assert (decls + [d])[1..] == decls[1..] + [d];
      RegisterAllSnoc(decls[1..], d, RegisterOne(decls[0], s));
    }
  }

  lemma KnownDeclsSnoc(p: seq<TaskDecl>, d: TaskDecl)
    ensures KnownDecls(p + [d]) == KnownDecls(p) + (if KnownFrequency(d) then [d] else [])
  {
    FilterAppend(p, [d], KnownFrequency);
    assert [d][1..] == [];
  }

  lemma HolderSnoc(p: seq<TaskDecl>, d: TaskDecl, rule: Recurrence)
    ensures Holder(p + [d], rule) == if OfRule(d, rule) then Some(d) else Holder(p, rule)
  {
    assert (p + [d])[..|p|] == p;
  }

  /** A task named unlike every earlier task is not scheduled after the
      pass over them. */
  lemma NotHeldBefore(p: seq<TaskDecl>, jobs: seq<Job>, d: TaskDecl)
    requires SharedLayout(p, jobs)
    requires forall i :: 0 <= i < |p| ==> p[i].name != d.name
    ensures !IsJobScheduled(jobs, d.name)
  {
    if IsJobScheduled(jobs, d.name) {
      var k :| 0 <= k < |jobs| && jobs[k].handler == HandlerName(d.name);
      assert HeldByLast(p, jobs[k]);
      var i := HolderIndex(p, jobs[k].rule);
      HandlerNameInjective(p[i].name, d.name);
    }
  }

  lemma LayoutSnocKnown(p: seq<TaskDecl>, d: TaskDecl, jobs: seq<Job>)
    requires KnownFrequency(d) && SharedLayout(p, jobs)
    ensures SharedLayout(p + [d], SharedDo(jobs, RuleOf(d), CreateTaskRunner(d.name, d.path)))
  {
    var rule := RuleOf(d);
    var runner := CreateTaskRunner(d.name, d.path);
    var r := SharedDo(jobs, rule, runner);
    var known := KnownDecls(p + [d]);
    KnownDeclsSnoc(p, d);
    assert known == KnownDecls(p) + [d];
    forall k | 0 <= k < |r|
      ensures OfRule(known[k], r[k].rule) && HeldByLast(p + [d], r[k])
    {
      HolderSnoc(p, d, r[k].rule);
      if k < |jobs| {
        assert known[k] == KnownDecls(p)[k];
        assert OfRule(KnownDecls(p)[k], jobs[k].rule) && HeldByLast(p, jobs[k]);
        assert r[k] == if jobs[k].rule == rule then Holding(rule, runner) else jobs[k];
      } else {
        assert r[k] == Holding(rule, runner) && known[k] == d;
      }
    }
  }

  lemma LayoutSnocUnknown(p: seq<TaskDecl>, d: TaskDecl, jobs: seq<Job>)
    requires !KnownFrequency(d) && SharedLayout(p, jobs)
    ensures SharedLayout(p + [d], jobs)
  {
    KnownDeclsSnoc(p, d);
    forall k | 0 <= k < |jobs|
      ensures HeldByLast(p + [d], jobs[k])
    {
      HolderSnoc(p, d, jobs[k].rule);
      assert HeldByLast(p, jobs[k]);
    }
  }

  lemma ScheduleEntriesSnoc(ds: seq<TaskDecl>, d: TaskDecl)
    ensures ScheduleEntries(ds + [d]) == ScheduleEntries(ds) + [ScheduleTask(d.name, FrequencyOf(d))]
  {
  }

  // ---------------------------------------------------------------------
  // The intended registration: a job of its own for each task

  /** A registration step that gives the task a job of its own. */
  function RegisterOnePerTask(d: TaskDecl, s: Sched): Sched
  {
    var frequency := FrequencyOf(d);
    match RecurrenceOf(frequency)
    case None => s
    case Some(rule) =>
      if IsJobScheduled(s.jobs, d.name) then s
      else s.(jobs := s.jobs + [Holding(rule, CreateTaskRunner(d.name, d.path))],
              log := s.log + [ScheduleTask(d.name, frequency)])
  }

  /** The registration loop with a job of its own for each task. */
  function RegisterAllPerTask(decls: seq<TaskDecl>, s: Sched): Sched
    decreases |decls|
  {
    if |decls| == 0 then s else RegisterAllPerTask(decls[1..], RegisterOnePerTask(decls[0], s))
  }

  /** Appending a job for a task makes that task scheduled, and keeps every
      task that was scheduled scheduled. */
  lemma OwnJobMakesScheduled(jobs: seq<Job>, task: string, path: string, rule: Recurrence, other: string)
    ensures IsJobScheduled(jobs + [Holding(rule, CreateTaskRunner(task, path))], task)
    ensures IsJobScheduled(jobs, other) ==> IsJobScheduled(jobs + [Holding(rule, CreateTaskRunner(task, path))], other)
  {
    var js := jobs + [Holding(rule, CreateTaskRunner(task, path))];
    assert js[|jobs|].handler == HandlerName(task);
    if IsJobScheduled(jobs, other) {
      var k :| 0 <= k < |jobs| && jobs[k].handler == HandlerName(other);
      assert js[k] == jobs[k];
    }
  }

  /** One step only appends: old jobs stay, at most one job is added, and
      only for a task with a known frequency that was not scheduled;
      afterwards every task with a known frequency is scheduled; the step
      logs exactly when it registers. */
  lemma PerTaskStepEffect(d: TaskDecl, s: Sched)
    ensures var r := RegisterOnePerTask(d, s);
      && r.launched == s.launched && r.signals == s.signals && r.clock == s.clock
      && r.written == s.written
      && s.jobs <= r.jobs && |r.jobs| <= |s.jobs| + 1
      && (|r.jobs| == |s.jobs| + 1 <==> Registers(d, s.jobs))
      && (|r.jobs| == |s.jobs| + 1 ==>
            r.jobs[|s.jobs|].handler == HandlerName(d.name)
            && r.log == s.log + [ScheduleTask(d.name, FrequencyOf(d))])
      && (|r.jobs| == |s.jobs| ==> r.log == s.log)
      && (KnownFrequency(d) ==> IsJobScheduled(r.jobs, d.name))
  {
    match RecurrenceOf(FrequencyOf(d))
    case None =>
    case Some(rule) =>
      if !IsJobScheduled(s.jobs, d.name) {
        OwnJobMakesScheduled(s.jobs, d.name, d.path, rule, d.name);
      }
  }

  /** A task scheduled before the pass is scheduled after it. */
  lemma {:induction false} PerTaskKeepsScheduled(decls: seq<TaskDecl>, s: Sched, task: string)
    requires IsJobScheduled(s.jobs, task)
    ensures IsJobScheduled(RegisterAllPerTask(decls, s).jobs, task)
    decreases |decls|
  {
    if |decls| > 0 {
      var s1 := RegisterOnePerTask(decls[0], s);
      var rule := RecurrenceOf(FrequencyOf(decls[0]));
      if rule.Some? && !IsJobScheduled(s.jobs, decls[0].name) {
        OwnJobMakesScheduled(s.jobs, decls[0].name, decls[0].path, rule.value, task);
      }
      PerTaskKeepsScheduled(decls[1..], s1, task);
    }
  }

  /** After the pass every declared task whose frequency is one of the four
      known ones is scheduled. */
  lemma {:induction false} PerTaskSchedulesKnown(decls: seq<TaskDecl>, s: Sched)
    ensures forall i :: 0 <= i < |decls| && KnownFrequency(decls[i]) ==>
      IsJobScheduled(RegisterAllPerTask(decls, s).jobs, decls[i].name)
    decreases |decls|
  {
    if |decls| > 0 {
      var s1 := RegisterOnePerTask(decls[0], s);
      PerTaskStepEffect(decls[0], s);
      PerTaskSchedulesKnown(decls[1..], s1);
      if KnownFrequency(decls[0]) {
        PerTaskKeepsScheduled(decls[1..], s1, decls[0].name);
      }
      forall i | 1 <= i < |decls| && KnownFrequency(decls[i])
        ensures IsJobScheduled(RegisterAllPerTask(decls, s).jobs, decls[i].name)
      {
        assert decls[1..][i - 1] == decls[i];
      }
    }
  }

  /** The pass only appends jobs, and every job it adds belongs to a
      declared task with a known frequency; it touches nothing but the job
      list and the log. */
  lemma {:induction false} PerTaskOnlyAppends(decls: seq<TaskDecl>, s: Sched)
    ensures var r := RegisterAllPerTask(decls, s);
      && s.jobs <= r.jobs && s.log <= r.log
      && r.launched == s.launched && r.signals == s.signals && r.clock == s.clock
      && r.written == s.written
      && forall k :: |s.jobs| <= k < |r.jobs| ==> DeclaredKnown(decls, r.jobs[k].handler)
    decreases |decls|
  {
    if |decls| > 0 {
      var s1 := RegisterOnePerTask(decls[0], s);
      var r := RegisterAllPerTask(decls, s);
      PerTaskStepEffect(decls[0], s);
      PerTaskOnlyAppends(decls[1..], s1);
      forall k | |s.jobs| <= k < |r.jobs|
        ensures DeclaredKnown(decls, r.jobs[k].handler)
      {
        if k < |s1.jobs| {
          assert r.jobs[k] == s1.jobs[k];
          assert KnownFrequency(decls[0]) && r.jobs[k].handler == HandlerName(decls[0].name);
        } else {
          assert DeclaredKnown(decls[1..], r.jobs[k].handler);
          var i :| 0 <= i < |decls[1..]| && KnownFrequency(decls[1..][i])
            && r.jobs[k].handler == HandlerName(decls[1..][i].name);
          assert decls[1..][i] == decls[i + 1];
        }
      }
    }
  }

  /** The pass never creates a second handler for a task: distinct handler
      names stay distinct. */
  lemma {:induction false} PerTaskNoDuplicates(decls: seq<TaskDecl>, s: Sched)
    requires Distinct(Handlers(s.jobs))
    ensures Distinct(Handlers(RegisterAllPerTask(decls, s).jobs))
    decreases |decls|
  {
    if |decls| > 0 {
      var d := decls[0];
      var s1 := RegisterOnePerTask(d, s);
      PerTaskStepEffect(d, s);
      if |s1.jobs| == |s.jobs| + 1 {
        var hs := Handlers(s1.jobs);
        forall i, j | 0 <= i < j < |hs|
          ensures hs[i] != hs[j]
        {
          if j == |s.jobs| {
            assert s1.jobs[i] == s.jobs[i];
            assert !IsJobScheduled(s.jobs, d.name);
          } else {
            assert Handlers(s.jobs)[i] != Handlers(s.jobs)[j];
          }
        }
      }
      PerTaskNoDuplicates(decls[1..], s1);
    }
  }

  /** A second pass over the same tasks adds no job and logs nothing. */
  lemma {:induction false} PerTaskIdempotent(decls: seq<TaskDecl>, s: Sched)
    ensures RegisterAllPerTask(decls, RegisterAllPerTask(decls, s)) == RegisterAllPerTask(decls, s)
  {
    PerTaskSchedulesKnown(decls, s);
    PerTaskStable(decls, RegisterAllPerTask(decls, s));
  }

  lemma {:induction false} PerTaskStable(decls: seq<TaskDecl>, s: Sched)
    requires forall i :: 0 <= i < |decls| && KnownFrequency(decls[i]) ==>
      IsJobScheduled(s.jobs, decls[i].name)
    ensures RegisterAllPerTask(decls, s) == s
    decreases |decls|
  {
    if |decls| > 0 {
      assert RegisterOnePerTask(decls[0], s) == s;
      forall i | 0 <= i < |decls[1..]| && KnownFrequency(decls[1..][i])
        ensures IsJobScheduled(s.jobs, decls[1..][i].name)
      {
        assert decls[1..][i] == decls[i + 1];
      }
      PerTaskStable(decls[1..], s);
    }
  }

  /** When every declared task has a known frequency, the names are
      distinct and none is scheduled yet, the pass adds one job per task,
      in declaration order, each running the declared path. */
  lemma {:induction false} PerTaskFresh(decls: seq<TaskDecl>, s: Sched)
    requires forall i :: 0 <= i < |decls| ==> KnownFrequency(decls[i])
    requires forall i :: 0 <= i < |decls| ==> !IsJobScheduled(s.jobs, decls[i].name)
    requires DistinctNames(decls)
    ensures var r := RegisterAllPerTask(decls, s);
      && s.jobs <= r.jobs && |r.jobs| == |s.jobs| + |decls|
      && forall k :: 0 <= k < |decls| ==> r.jobs[|s.jobs| + k].path == decls[k].path
    decreases |decls|
  {
    if |decls| > 0 {
      var d := decls[0];
      var s1 := RegisterOnePerTask(d, s);
      PerTaskFreshOne(d, s);
      FreshAfterRegister(decls, s);
      DistinctNamesTail(decls);
      PerTaskFresh(decls[1..], s1);
      assert RegisterAllPerTask(decls, s) == RegisterAllPerTask(decls[1..], s1);
      RegisterPathsCons(decls, s, s1, RegisterAllPerTask(decls, s));
    }
  }

  /** Registering a fresh task with a known frequency appends its job. */
  lemma PerTaskFreshOne(d: TaskDecl, s: Sched)
    requires KnownFrequency(d) && !IsJobScheduled(s.jobs, d.name)
    ensures RegisterOnePerTask(d, s).jobs == s.jobs + [Holding(RuleOf(d), CreateTaskRunner(d.name, d.path))]
  {
  }

  /** After the first task is registered, the others are still unscheduled. */
  lemma FreshAfterRegister(decls: seq<TaskDecl>, s: Sched)
    requires |decls| > 0 && KnownFrequency(decls[0])
    requires forall i :: 0 <= i < |decls| ==> !IsJobScheduled(s.jobs, decls[i].name)
    requires DistinctNames(decls)
    ensures forall i :: 0 <= i < |decls[1..]| ==> !IsJobScheduled(RegisterOnePerTask(decls[0], s).jobs, decls[1..][i].name)
  {
    var d := decls[0];
    var s1 := RegisterOnePerTask(d, s);
    PerTaskFreshOne(d, s);
    forall i | 0 <= i < |decls[1..]|
      ensures !IsJobScheduled(s1.jobs, decls[1..][i].name)
    {
      var name := decls[1..][i].name;
      assert name == decls[i + 1].name != d.name;
      if IsJobScheduled(s1.jobs, name) {
        var k :| 0 <= k < |s1.jobs| && s1.jobs[k].handler == HandlerName(name);
        if k == |s.jobs| {
          HandlerNameInjective(d.name, name);
        }
      }
    }
  }

  lemma DistinctNamesTail(decls: seq<TaskDecl>)
    requires |decls| > 0 && DistinctNames(decls)
    ensures DistinctNames(decls[1..])
  {
    forall i, j | 0 <= i < j < |decls[1..]|
      ensures decls[1..][i].name != decls[1..][j].name
    {
      assert decls[1..][i] == decls[i + 1] && decls[1..][j] == decls[j + 1];
    }
  }

  /** The per-position path fact of `PerTaskFresh`, from the first
      registration and the rest. */
  lemma RegisterPathsCons(decls: seq<TaskDecl>, s: Sched, s1: Sched, r: Sched)
    requires |decls| > 0 && |s1.jobs| == |s.jobs| + 1 && s.jobs <= s1.jobs
    requires s1.jobs[|s.jobs|].path == decls[0].path
    requires s1.jobs <= r.jobs && |r.jobs| == |s1.jobs| + |decls[1..]|
    requires forall k :: 0 <= k < |decls[1..]| ==> r.jobs[|s1.jobs| + k].path == decls[1..][k].path
    ensures s.jobs <= r.jobs && |r.jobs| == |s.jobs| + |decls|
    ensures forall k :: 0 <= k < |decls| ==> r.jobs[|s.jobs| + k].path == decls[k].path
  {
    forall k | 0 <= k < |decls|
      ensures r.jobs[|s.jobs| + k].path == decls[k].path
    {
      if k > 0 {
        assert r.jobs[|s1.jobs| + (k - 1)].path == decls[1..][k - 1].path;
      } else {
        assert r.jobs[|s.jobs|] == s1.jobs[|s.jobs|];
      }
    }
  }
}

=== FILE: sched_runlog.dfy ===
/** The scheduler's run log: `create_log_file` (c_scheduler.py) writes the
    status listing, the tasks found running, the configuration and the
    collected messages to `<log dir>/scheduler/<YYYYMMDD>/<HHMMSS>.json`,
    then clears the messages. */
module RunLog {
  import opened Common
  import opened Text
  import opened Paths
  import opened SchedState
  import opened Registry

  /** `<log dir>/scheduler/<date>/<time>.json`. */
  function LogFilePath(logDir: string, stamp: Stamp): string
  {
    PathJoin(PathJoin(PathJoin(logDir, "scheduler"), stamp.date), stamp.time + ".json")
  }

  /** The `running_tasks` list: the status lines whose task name the
      process table shows; line `i` is probed at moment `t + i`. */
  function RunningFilter(lines: seq<StatusLine>, t: nat, w: World): (r: seq<StatusLine>)
    ensures |r| <= |lines|
    ensures IsSubsequence(r, lines)
    decreases |lines|
  {
    if |lines| == 0 then []
    else
      var rest := RunningFilter(lines[1..], t + 1, w);
      if Running(w, t, lines[0].taskName) then
        assert ([lines[0]] + rest)[1..] == rest;
        [lines[0]] + rest
      else
        SubsequenceOfTail(rest, lines);
        rest
  }

  /** `create_log_file`: one clock reading names the file; the status
      listing (which also appends its lines to the messages) comes next,
      then one probe per listed task. */
  function CreateLogFile(cfg: SchedConfig, s: Sched, w: World): (r: Sched)
    ensures r.log == [] && r.jobs == s.jobs && r.launched == s.launched && r.signals == s.signals
    ensures r.clock > s.clock
    ensures |r.written| == |s.written| + 1 && s.written <= r.written
    ensures var f := r.written[|s.written|];
      && f.path == LogFilePath(cfg.logDir, w.now(s.clock))
      && |f.scheduled| == |cfg.jobs|
      && (forall i :: 0 <= i < |cfg.jobs| ==>
            f.scheduled[i].taskName == cfg.jobs[i].name
            && f.scheduled[i].frequency == FrequencyOf(cfg.jobs[i])
            && (f.scheduled[i].status == "Scheduled" <==> IsJobScheduled(s.jobs, cfg.jobs[i].name)))
      && IsSubsequence(f.running, f.scheduled)
      && f.startDelay == StartDelay(cfg) && f.jobs == cfg.jobs
      && f.messages == s.log + StatusEntries(f.scheduled)
  {
    var (lines, s1) := ListScheduled(cfg.jobs, s.(clock := s.clock + 1));
    var running := RunningFilter(lines, s.clock + 1, w);
    var file := LogFile(LogFilePath(cfg.logDir, w.now(s.clock)), lines, running, StartDelay(cfg), cfg.jobs, s1.log);
    s1.(log := [], written := s.written + [file], clock := s.clock + 1 + |lines|)
  }

  /** Every line lists a task that is found running at no moment. */
  ghost predicate NoneRunning(w: World, lines: seq<StatusLine>)
  {
    forall t: nat, i :: 0 <= i < |lines| ==> !Running(w, t, lines[i].taskName)
  }

  ghost predicate AllRunning(w: World, lines: seq<StatusLine>)
  {
    forall t: nat, i :: 0 <= i < |lines| ==> Running(w, t, lines[i].taskName)
  }

  // ---------------------------------------------------------------------
  // Properties

  /** The filter keeps exactly the lines found running: none when no task
      is ever found, all of them when every task always is. */
  lemma {:induction false} RunningFilterExtremes(lines: seq<StatusLine>, t: nat, w: World)
    ensures NoneRunning(w, lines) ==> RunningFilter(lines, t, w) == []
    ensures AllRunning(w, lines) ==> RunningFilter(lines, t, w) == lines
    decreases |lines|
  {
    if |lines| > 0 {
      assert NoneRunning(w, lines) ==> NoneRunning(w, lines[1..]) by {
        if NoneRunning(w, lines) {
          forall t': nat, i | 0 <= i < |lines[1..]| ensures !Running(w, t', lines[1..][i].taskName) {
            assert lines[1..][i] == lines[i + 1];
          }
        }
      }
      assert AllRunning(w, lines) ==> AllRunning(w, lines[1..]) by {
        if AllRunning(w, lines) {
          forall t': nat, i | 0 <= i < |lines[1..]| ensures Running(w, t', lines[1..][i].taskName) {
            assert lines[1..][i] == lines[i + 1];
          }
        }
      }
      RunningFilterExtremes(lines[1..], t + 1, w);
      if AllRunning(w, lines) {
        assert Running(w, t, lines[0].taskName);
        assert lines == [lines[0]] + lines[1..];
      }
      if NoneRunning(w, lines) {
        assert !Running(w, t, lines[0].taskName);
      }
    }
  }

  /** The run log file sits in the per-date directory under
      `<log dir>/scheduler` and is named after the time of day. */
  lemma LogFilePathParts(logDir: string, stamp: Stamp)
    requires |stamp.date| > 0 && '/' !in stamp.date && '/' !in stamp.time
    ensures Basename(LogFilePath(logDir, stamp)) == stamp.time + ".json"
    ensures Dirname(LogFilePath(logDir, stamp)) == PathJoin(PathJoin(logDir, "scheduler"), stamp.date)
  {
    JsonFileInSubdir(PathJoin(logDir, "scheduler"), stamp.date, stamp.time);
  }
}

=== FILE: sched_state.dfy ===
/** The vocabulary of the task scheduler (c_scheduler.py): declared tasks,
    registered recurring jobs, the run log, and the outside world the
    scheduler consults.

    The outside world is a set of oracle functions. Each call the scheduler
    makes into it (a process-table probe, a spawn, a `pgrep`, a signal, a
    clock reading) happens at a "moment": the scheduler state carries a
    counter that every such call advances, so two probes of the same task
    may give different answers, as they can on a real host. */
module SchedState {
  import opened Common
  import Probe

  /** One entry of the job configuration: `name -> {frequency, path}`. */
  datatype TaskDecl = TaskDecl(name: string, frequency: Option<string>, path: string)

  /** The schedule configuration plus the log root directory. */
  datatype SchedConfig = SchedConfig(startDelay: Option<int>, jobs: seq<TaskDecl>, logDir: string)

  /** `config.get("frequency", "hourly")`. */
  function FrequencyOf(d: TaskDecl): string
  {
    d.frequency.GetOr("hourly")
  }

  /** `SCHEDULE_CONFIG.get("start_delay_seconds", 5)`. */
  function StartDelay(c: SchedConfig): int
  {
    c.startDelay.GetOr(5)
  }

  /** The recurrence rules of the frequency map. */
  datatype Recurrence = Every15Minutes | EveryHour | DailyAtMidnight | EveryWeek

  /** The frequency map: the four known frequency names and their rules. */
  function RecurrenceOf(frequency: string): Option<Recurrence>
  {
    if frequency == "quarterhourly" then Some(Every15Minutes)
    else if frequency == "hourly" then Some(EveryHour)
    else if frequency == "daily" then Some(DailyAtMidnight)
    else if frequency == "weekly" then Some(EveryWeek)
    else None
  }

  /** An entry of the recurrence engine's job list: a job of some
      frequency, with the handler it holds (the handler's name and the
      script it launches). The list holds references, so two entries may
      be the same job object; the model stores each entry's contents. */
  datatype Job = Job(handler: string, rule: Recurrence, path: string)

  /** SIGTERM, the liveness probe `kill(pid, 0)`, and SIGKILL. */
  datatype Signal = SigTerm | SigProbe | SigKill

  /** The outside world, indexed by moment. */
  datatype World = World(
    /** the lines `ps aux` prints */
    ps: nat -> seq<string>,
    /** `Popen(["python3", path])` raises with this text, or succeeds */
    spawnError: (nat, string) -> Option<string>,
    /** the pids `pgrep -f name` prints, one per line */
    pgrep: (nat, string) -> seq<nat>,
    /** `os.kill(pid, sig)` returns normally (false: it raises OSError) */
    killOk: (nat, nat, Signal) -> bool,
    /** `datetime.now()`, as `%Y%m%d` and `%H%M%S` */
    now: nat -> Stamp)

  /** `is_task_running(name)` at moment `t`, with the probe as intended:
      some line of the process listing shows `python3 <name>` followed by
      a space or the end of the line. (The pattern as written is a basic
      regular expression that does not match such a line; see
      `Probe.AsWrittenMissesRunningTask`.) */
  predicate Running(w: World, t: nat, name: string)
  {
    Probe.AnyLineMatches(w.ps(t), name)
  }

  datatype SpawnOutcome = Started | SpawnFailed(error: string)

  /** One line of the status listing. */
  datatype StatusLine = StatusLine(taskName: string, frequency: string, status: string)

  /** The JSON messages the scheduler appends to its run log. */
  datatype LogEntry =
    | Status(line: StatusLine)
    | SkipTask(taskName: string)
    | StartTask(taskName: string, outcome: SpawnOutcome)
    | ScheduleTask(taskName: string, frequency: string)
    | SchedulerAlreadyRunning
    | SchedulerFinished
    | StopStarting
    | StopTaskSuccess(taskName: string, pid: nat)
    | StopTaskNotRunning(taskName: string)
    | StopFinished(stopped: nat, failed: nat)

  /** A run log file: where it was written, the status listing, the
      entries of the listing whose task was found running, the
      configuration, and the messages collected since the previous file. */
  datatype LogFile = LogFile(
    path: string,
    scheduled: seq<StatusLine>,
    running: seq<StatusLine>,
    startDelay: int,
    jobs: seq<TaskDecl>,
    messages: seq<LogEntry>)

  /** The scheduler's state: the recurrence engine's job list, the pending
      log messages, the scripts it launched, the signals it sent (pid and
      signal), the log files it wrote, and the next moment. */
  datatype Sched = Sched(
    jobs: seq<Job>,
    log: seq<LogEntry>,
    launched: seq<string>,
    signals: seq<(nat, Signal)>,
    written: seq<LogFile>,
    clock: nat)
}

=== FILE: sched_terminate.dfy ===
/** `terminate_process` (c_scheduler.py): SIGTERM, then up to ten liveness
    probes `kill(pid, 0)`, then SIGKILL; any `OSError` ends the attempt
    quietly. The `k`-th call goes out at moment `t0 + k`. */
module Terminate {
  import opened Common
  import opened SchedState

  /** `kill(pid, sig)` at moment `t` returns normally. */
  predicate KillOk(w: World, t: nat, pid: nat, sig: Signal)
  {
    w.killOk(t, pid, sig)
  }

  /** Probe `j` (counted from 0) of the run that follows a SIGTERM sent at
      moment `t0` goes out at moment `t0 + 1 + j` and finds the process
      alive. */
  predicate AliveAt(w: World, t0: nat, j: nat, pid: nat)
  {
    KillOk(w, t0 + 1 + j, pid, SigProbe)
  }

  /** The calls made from probe `j` of the run to the end: a failing probe
      ends the run; after the tenth probe comes SIGKILL. */
  function ProbeTrace(w: World, t0: nat, pid: nat, j: nat): (r: seq<Signal>)
    requires j <= 10
    ensures 1 <= |r| <= 11 - j
    ensures forall i :: 0 <= i < |r| - 1 ==> r[i] == SigProbe
    decreases 10 - j
  {
    if j == 10 then [SigKill]
    else if !AliveAt(w, t0, j, pid) then [SigProbe]
    else [SigProbe] + ProbeTrace(w, t0, pid, j + 1)
  }

  /** The calls `terminate_process(pid)` makes when it starts at moment `t0`. */
  function TerminateTrace(w: World, t0: nat, pid: nat): seq<Signal>
  {
    [SigTerm] + (if KillOk(w, t0, pid, SigTerm) then ProbeTrace(w, t0, pid, 0) else [])
  }

  /** The process survives SIGTERM and all ten probes find it alive. */
  predicate Escalates(w: World, t0: nat, pid: nat)
  {
    KillOk(w, t0, pid, SigTerm) && forall j :: 0 <= j < 10 ==> AliveAt(w, t0, j, pid)
  }

  function Probes(n: nat): (r: seq<Signal>)
    ensures |r| == n && forall i :: 0 <= i < n ==> r[i] == SigProbe
  {
    seq(n, i => SigProbe)
  }

  /** `terminate_process`: SIGTERM, then the probe loop. */
  method TerminateProcess(w: World, t0: nat, pid: nat) returns (calls: seq<Signal>)
    ensures calls == TerminateTrace(w, t0, pid)
    ensures 1 <= |calls| <= 12 && calls[0] == SigTerm
    ensures SigKill in calls <==> Escalates(w, t0, pid)
    ensures SigKill in calls ==> calls == [SigTerm] + Probes(10) + [SigKill]
  {
    calls := [SigTerm];
    if KillOk(w, t0, pid, SigTerm) {
      var rest := ProbeLoop(w, t0, pid);
      calls := calls + rest;
    }
    TerminateTraceShape(w, t0, pid);
  }

  /** The ten probes after a SIGTERM that succeeded, then SIGKILL; the
      first probe that raises ends the loop. */
  method ProbeLoop(w: World, t0: nat, pid: nat) returns (calls: seq<Signal>)
    ensures calls == ProbeTrace(w, t0, pid, 0)
  {
    calls := [];
    var k := 0;
    var gone := false;
    while k < 10 && !gone
      invariant 0 <= k <= 10
      invariant !gone ==> calls == Probes(k)
      invariant !gone ==> ProbeTrace(w, t0, pid, 0) == Probes(k) + ProbeTrace(w, t0, pid, k)
      invariant gone ==> calls == ProbeTrace(w, t0, pid, 0)
      decreases 10 - k, if gone then 0 else 1
    {
      ProbeStep(w, t0, pid, k);
      calls := calls + [SigProbe];
      if AliveAt(w, t0, k, pid) {
        k := k + 1;
      } else {
        gone := true;
      }
    }
    if !gone {
      assert ProbeTrace(w, t0, pid, 10) == [SigKill];
      calls := calls + [SigKill];
    }
  }

  // ---------------------------------------------------------------------
  // Properties

  lemma ProbeTraceUnfold(w: World, t0: nat, pid: nat, j: nat)
    requires j < 10
    ensures ProbeTrace(w, t0, pid, j)
      == if AliveAt(w, t0, j, pid) then [SigProbe] + ProbeTrace(w, t0, pid, j + 1) else [SigProbe]
  {
  }

  /** One more probe: the run so far grows by one probe, and the run from
      here either stops or continues from the next probe. */
  lemma ProbeStep(w: World, t0: nat, pid: nat, k: nat)
    requires k < 10
    ensures Probes(k + 1) == Probes(k) + [SigProbe]
    ensures AliveAt(w, t0, k, pid) ==>
      Probes(k) + ProbeTrace(w, t0, pid, k) == Probes(k + 1) + ProbeTrace(w, t0, pid, k + 1)
    ensures !AliveAt(w, t0, k, pid) ==> Probes(k) + ProbeTrace(w, t0, pid, k) == Probes(k + 1)
  {
    ProbeTraceUnfold(w, t0, pid, k);
    ProbesSnoc(k);
    AppendAssoc(Probes(k), [SigProbe], ProbeTrace(w, t0, pid, k + 1));
  }

  lemma ProbesSnoc(k: nat)
    ensures Probes(k + 1) == Probes(k) + [SigProbe]
  {
  }

  /** The run from probe `j` ends in SIGKILL exactly when the process is
      alive at that probe and every later one; it then holds one probe per
      remaining round before the SIGKILL. */
  lemma {:induction false} ProbeTraceEnds(w: World, t0: nat, pid: nat, j: nat)
    requires j <= 10
    ensures var r := ProbeTrace(w, t0, pid, j);
      r[|r| - 1] == SigKill <==> forall i :: j <= i < 10 ==> AliveAt(w, t0, i, pid)
    ensures var r := ProbeTrace(w, t0, pid, j);
      r[|r| - 1] == SigKill ==> |r| == 11 - j
    decreases 10 - j
  {
    var r := ProbeTrace(w, t0, pid, j);
    if j == 10 {
      assert r == [SigKill];
    } else if !AliveAt(w, t0, j, pid) {
      assert r == [SigProbe];
    } else {
      var rest := ProbeTrace(w, t0, pid, j + 1);
      assert r == [SigProbe] + rest;
      assert r[|r| - 1] == rest[|rest| - 1];
      ProbeTraceEnds(w, t0, pid, j + 1);
      assert (forall i :: j + 1 <= i < 10 ==> AliveAt(w, t0, i, pid))
         ==> (forall i :: j <= i < 10 ==> AliveAt(w, t0, i, pid));
    }
  }

  /** A run that ends in SIGKILL made all ten probes first. */
  lemma ProbeTraceKill(w: World, t0: nat, pid: nat)
    requires var p := ProbeTrace(w, t0, pid, 0); p[|p| - 1] == SigKill
    ensures ProbeTrace(w, t0, pid, 0) == Probes(10) + [SigKill]
  {
    ProbeTraceEnds(w, t0, pid, 0);
  }

  /** SIGKILL can only be the last call of a probe run. */
  lemma KillOnlyLast(p: seq<Signal>)
    requires |p| >= 1 && forall i :: 0 <= i < |p| - 1 ==> p[i] == SigProbe
    ensures SigKill in p <==> p[|p| - 1] == SigKill
  {
  }

  /** The trace starts with SIGTERM and holds at most ten probes, all
      between the SIGTERM and the last call. */
  lemma TerminateTraceBasics(w: World, t0: nat, pid: nat)
    ensures var r := TerminateTrace(w, t0, pid);
      && 1 <= |r| <= 12 && r[0] == SigTerm
      && (forall i :: 0 < i < |r| - 1 ==> r[i] == SigProbe)
  {
    var r := TerminateTrace(w, t0, pid);
    if KillOk(w, t0, pid, SigTerm) {
      var p := ProbeTrace(w, t0, pid, 0);
      assert r == [SigTerm] + p;
      assert forall i :: 0 < i < |r| ==> r[i] == p[i - 1];
    }
  }

  /** The trace ends in SIGKILL exactly when the process survived SIGTERM
      and every probe; SIGKILL, when sent, comes after exactly ten probes
      and nowhere else. */
  lemma TerminateTraceKill(w: World, t0: nat, pid: nat)
    ensures var r := TerminateTrace(w, t0, pid);
      && (r[|r| - 1] == SigKill <==> Escalates(w, t0, pid))
      && (SigKill in r <==> Escalates(w, t0, pid))
      && (SigKill in r ==> r == [SigTerm] + Probes(10) + [SigKill])
  {
    var r := TerminateTrace(w, t0, pid);
    if KillOk(w, t0, pid, SigTerm) {
      var p := ProbeTrace(w, t0, pid, 0);
      assert r == [SigTerm] + p;
      assert r[|r| - 1] == p[|p| - 1];
      ProbeTraceEnds(w, t0, pid, 0);
      KillOnlyLast(p);
      assert SigKill in r <==> SigKill in p;
      if p[|p| - 1] == SigKill {
        ProbeTraceKill(w, t0, pid);
      }
    } else {
      assert r == [SigTerm];
    }
  }

  /** The trace starts with SIGTERM, holds at most ten probes, and ends in
      SIGKILL exactly when the process survived SIGTERM and every probe;
      SIGKILL, when sent, comes after exactly ten probes. */
  lemma TerminateTraceShape(w: World, t0: nat, pid: nat)
    ensures var r := TerminateTrace(w, t0, pid);
      && 1 <= |r| <= 12 && r[0] == SigTerm
      && (forall i :: 0 < i < |r| - 1 ==> r[i] == SigProbe)
      && (r[|r| - 1] == SigKill <==> Escalates(w, t0, pid))
      && (SigKill in r <==> Escalates(w, t0, pid))
      && (SigKill in r ==> r == [SigTerm] + Probes(10) + [SigKill])
  {
    TerminateTraceBasics(w, t0, pid);
    TerminateTraceKill(w, t0, pid);
  }

  /** A process that is already gone when SIGTERM is sent, or that
      disappears within the ten probes, is never sent SIGKILL. */
  lemma NoKillWhenProcessEnds(w: World, t0: nat, pid: nat, j: nat)
    requires !KillOk(w, t0, pid, SigTerm) || (j < 10 && !AliveAt(w, t0, j, pid))
    ensures SigKill !in TerminateTrace(w, t0, pid)
  {
    TerminateTraceShape(w, t0, pid);
  }
}

=== FILE: settings.dfy ===
/** The configuration of the deployed pipeline (config/config.py): the
    API endpoint, the one configured dataset with its filters and staging
    schema, and the job schedule, together with what the components make
    of them. The working directory the directories hang off is a
    parameter. */
module Settings {
  import opened Common
  import opened Text
  import opened Paths
  import opened SchedState
  import Registry
  import Launch
  import Scheduler
  import Extract
  import Psql

  const BaseApiUrl := "https://ghoapi.azureedge.net/api/"
  const Headers: seq<(string, string)> := [("Content-type", "application/json")]

  function LandingDir(root: string): string { PathJoin(root, "data/landing") }
  function StagingDir(root: string): string { PathJoin(root, "data/staging") }
  function LogDir(root: string): string { PathJoin(root, "logs") }

  // ---------------------------------------------------------------------
  // The dataset

  const DatasetKey := "life_expectancy_at_birth"
  const IndicatorCode := "WHOSIS_000001"

  /** The Southern African countries the extraction is limited to. */
  const SouthernAfrica: seq<string> := ["ZAF", "BWA", "NAM", "ZWE", "MOZ", "LSO"]

  const SpatialFilter := Extract.Filter("SpatialDim", Extract.Many(SouthernAfrica))

  /** The entry as the extractor sees it: a code, the filters, and five
      other keys (freshness, name, two sample files, the schema). */
  const LifeExpectancy := Extract.Indicator(Some(IndicatorCode), Some([SpatialFilter]), 5)

  function Extractor(root: string): Extract.Extractor
  {
    Extract.Extractor(map[DatasetKey := LifeExpectancy], BaseApiUrl, Headers, LandingDir(root))
  }

  const StagingColumns: seq<Psql.Column> := [
    Psql.Column("id", "SERIAL PRIMARY KEY"),
    Psql.Column("indicatorcode", "VARCHAR(20)"),
    Psql.Column("spatialdim", "VARCHAR(3)"),
    Psql.Column("parentlocationcode", "VARCHAR(3)"),
    Psql.Column("timedimtype", "VARCHAR(10)"),
    Psql.Column("parentlocation", "VARCHAR(50)"),
    Psql.Column("dim1type", "VARCHAR(10)"),
    Psql.Column("timedim", "INTEGER"),
    Psql.Column("dim1", "VARCHAR(10)"),
    Psql.Column("numericvalue", "FLOAT"),
    Psql.Column("comments", "TEXT"),
    Psql.Column("date", "TIMESTAMP"),
    Psql.Column("timedimensionvalue", "VARCHAR(4)"),
    Psql.Column("timedimensionbegin", "TIMESTAMP"),
    Psql.Column("timedimensionend", "TIMESTAMP"),
    Psql.Column("country", "VARCHAR(3)"),
    Psql.Column("sex", "VARCHAR(10)"),
    Psql.Column("transformed_epoch", "BIGINT"),
    Psql.Column("created_at", "TIMESTAMP DEFAULT CURRENT_TIMESTAMP")
  ]

  const StagingSchema := Psql.Schema("life_expectancy_at_birth", StagingColumns)

  /** The dataset configuration as the database set-up sees it. */
  const PsqlDatasets: seq<Psql.DatasetEntry> := [Psql.DatasetEntry(DatasetKey, Some(StagingSchema))]

  // ---------------------------------------------------------------------
  // The schedule

  const PsqlScript := "scripts/start_psql.py"
  const ExtractScript := "scripts/start_extract.py"
  const TransformScript := "scripts/start_transform.py"
  const LoadScript := "scripts/start_load.py"

  const Jobs: seq<TaskDecl> := [
    TaskDecl("start_psql", Some("weekly"), PsqlScript),
    TaskDecl("start_extract", Some("hourly"), ExtractScript),
    TaskDecl("start_transform", Some("hourly"), TransformScript),
    TaskDecl("start_load", Some("hourly"), LoadScript)
  ]

  function Schedule(root: string): SchedConfig
  {
    SchedConfig(Some(5), Jobs, LogDir(root))
  }

  // ---------------------------------------------------------------------
  // Properties

  /** The filter the extractor sends: one `eq` term per country, joined by
      `or`, in parentheses. */
  const SpatialQuery :=
    "(" + ("SpatialDim eq 'ZAF'" + " or " + ("SpatialDim eq 'BWA'" + " or " + ("SpatialDim eq 'NAM'" + " or "
    + ("SpatialDim eq 'ZWE'" + " or " + ("SpatialDim eq 'MOZ'" + " or " + "SpatialDim eq 'LSO'"))))) + ")"

  lemma SpatialTerms()
    ensures Extract.EqTerms("SpatialDim", SouthernAfrica)
         == ["SpatialDim eq 'ZAF'", "SpatialDim eq 'BWA'", "SpatialDim eq 'NAM'",
             "SpatialDim eq 'ZWE'", "SpatialDim eq 'MOZ'", "SpatialDim eq 'LSO'"]
  {
    var t := Extract.EqTerms("SpatialDim", SouthernAfrica);
    assert t[0] == "SpatialDim eq 'ZAF'";
    assert t[1] == "SpatialDim eq 'BWA'";
    assert t[2] == "SpatialDim eq 'NAM'";
    assert t[3] == "SpatialDim eq 'ZWE'";
    assert t[4] == "SpatialDim eq 'MOZ'";
    assert t[5] == "SpatialDim eq 'LSO'";
  }

  lemma SpatialFilterQuery()
    ensures Extract.FilterQuery([SpatialFilter]) == SpatialQuery
  {
    Extract.FilterQueryOfOne(SpatialFilter);
    SpatialTerms();
    var t := Extract.EqTerms("SpatialDim", SouthernAfrica);
    var sep := " or ";
    JoinCons(t[0], t[1..], sep);
    JoinCons(t[1], t[2..], sep);
    JoinCons(t[2], t[3..], sep);
    JoinCons(t[3], t[4..], sep);
    JoinCons(t[4], t[5..], sep);
    assert t == [t[0]] + t[1..];
    assert t[1..] == [t[1]] + t[2..];
    assert t[2..] == [t[2]] + t[3..];
    assert t[3..] == [t[3]] + t[4..];
    assert t[4..] == [t[4]] + t[5..];
    assert t[5..] == [t[5]];
  }

  /** Asking for the configured dataset sends the indicator's URL, the JSON
      content-type header and the country filter. */
  lemma LifeExpectancyRequest(root: string, respond: Extract.Request -> Result<Extract.Response, string>, now: Stamp)
    ensures Extract.GetData(Extractor(root), DatasetKey, respond, now).sent
         == Some(Extract.Request(BaseApiUrl + IndicatorCode, Headers, [("$filter", SpatialQuery)]))
  {
    SpatialFilterQuery();
    assert Extract.Configured(Extractor(root), DatasetKey);
  }

  /** Every configured job has a known frequency: the database set-up
      weekly, the three stages hourly; the start delay is five seconds. */
  lemma ScheduleRules(root: string)
    ensures StartDelay(Schedule(root)) == 5
    ensures RecurrenceOf(FrequencyOf(Jobs[0])) == Some(EveryWeek)
    ensures forall k :: 1 <= k < |Jobs| ==> RecurrenceOf(FrequencyOf(Jobs[k])) == Some(EveryHour)
  {
  }

  /** The weekly job holding the database set-up, and the hourly job
      holding the load stage. */
  const PsqlJob := Job(Registry.HandlerName("start_psql"), EveryWeek, PsqlScript)
  const LoadJob := Job(Registry.HandlerName("start_load"), EveryHour, LoadScript)

  /** The one job list a registration pass from an empty list can leave
      for the configured jobs: the weekly job, then the hourly job three
      times, because the three hourly tasks share one job and the load
      stage is the last of them. */
  lemma DeployedLayout(jobs: seq<Job>)
    requires Registry.SharedLayout(Jobs, jobs)
    ensures jobs == [PsqlJob, LoadJob, LoadJob, LoadJob]
  {
    KnownJobs();
    HolderOfJobs();
    LayoutEntry(jobs, 0);
    LayoutEntry(jobs, 1);
    LayoutEntry(jobs, 2);
    LayoutEntry(jobs, 3);
    FourEntries(jobs, PsqlJob, LoadJob, LoadJob, LoadJob);
  }

  lemma FourEntries<T>(x: seq<T>, a: T, b: T, c: T, d: T)
    requires |x| == 4 && x[0] == a && x[1] == b && x[2] == c && x[3] == d
    ensures x == [a, b, c, d]
  {
  }

  /** Every configured job has a known frequency, so all four take part. */
  lemma KnownJobs()
    ensures Registry.KnownDecls(Jobs) == Jobs
  {
    JobsRegistrable();
    FilterAll(Jobs, Registry.KnownFrequency);
  }

  /** The weekly job's holder is the database set-up; the hourly job's
      holder is the load stage, the last hourly task. */
  lemma HolderOfJobs()
    ensures Registry.Holder(Jobs, EveryWeek) == Some(Jobs[0])
    ensures Registry.Holder(Jobs, EveryHour) == Some(Jobs[3])
  {
    var p3 := Jobs[..3];
    var p2 := p3[..2];
    var p1 := p2[..1];
    assert p3[2] == Jobs[2] && p2[1] == Jobs[1] && p1[0] == Jobs[0];
    assert !Registry.OfRule(Jobs[3], EveryWeek);
    assert Registry.Holder(p2, EveryWeek) == Registry.Holder(p1, EveryWeek);
    assert Registry.Holder(p3, EveryWeek) == Registry.Holder(p2, EveryWeek);
  }

  /** One entry of a layout of the configured jobs. */
  lemma LayoutEntry(jobs: seq<Job>, k: nat)
    requires Registry.SharedLayout(Jobs, jobs) && Registry.KnownDecls(Jobs) == Jobs
    requires Registry.Holder(Jobs, EveryWeek) == Some(Jobs[0])
    requires Registry.Holder(Jobs, EveryHour) == Some(Jobs[3])
    requires k < 4
    ensures |jobs| == 4
    ensures jobs[k] == if k == 0 then PsqlJob else LoadJob
  {
    assert Registry.OfRule(Jobs[k], jobs[k].rule);
    assert Registry.HeldByLast(Jobs, jobs[k]);
  }

  /** As written, registering the configured jobs from an empty list
      leaves the weekly job and the shared hourly job three times, all
      three running the load stage: the extract and transform stages end
      up not scheduled. */
  lemma DeployedRegistration(s: Sched)
    requires s.jobs == []
    ensures var r := Registry.RegisterAll(Jobs, s);
      && r.jobs == [PsqlJob, LoadJob, LoadJob, LoadJob]
      && Registry.IsJobScheduled(r.jobs, "start_psql") && Registry.IsJobScheduled(r.jobs, "start_load")
      && !Registry.IsJobScheduled(r.jobs, "start_extract") && !Registry.IsJobScheduled(r.jobs, "start_transform")
  {
    var r := Registry.RegisterAll(Jobs, s);
    JobsRegistrable();
    Registry.RegisterAllFromEmpty(Jobs, s);
    DeployedLayout(r.jobs);
    DeployedScheduled();
  }

  /** Which tasks the deployed job list schedules. */
  lemma DeployedScheduled()
    ensures var jobs := [PsqlJob, LoadJob, LoadJob, LoadJob];
      && Registry.IsJobScheduled(jobs, "start_psql") && Registry.IsJobScheduled(jobs, "start_load")
      && !Registry.IsJobScheduled(jobs, "start_extract") && !Registry.IsJobScheduled(jobs, "start_transform")
  {
    var jobs := [PsqlJob, LoadJob, LoadJob, LoadJob];
    assert jobs[0].handler == Registry.HandlerName("start_psql");
    assert jobs[1].handler == Registry.HandlerName("start_load");
    HandlersDiffer();
  }

  /** The handler names of the four configured jobs are pairwise distinct. */
  lemma HandlersDiffer()
    ensures Registry.HandlerName("start_extract") != Registry.HandlerName("start_psql")
    ensures Registry.HandlerName("start_extract") != Registry.HandlerName("start_load")
    ensures Registry.HandlerName("start_transform") != Registry.HandlerName("start_psql")
    ensures Registry.HandlerName("start_transform") != Registry.HandlerName("start_load")
  {
    assert Registry.HandlerName("start_extract")[15] == 'e';
    assert Registry.HandlerName("start_transform")[15] == 't';
    assert Registry.HandlerName("start_psql")[15] == 'p';
    assert Registry.HandlerName("start_load")[15] == 'l';
  }

  /** With a job of its own per task, the same pass would schedule all four
      configured jobs, in order, each running its script. */
  lemma DeployedPerTask(s: Sched)
    requires s.jobs == []
    ensures var r := Registry.RegisterAllPerTask(Jobs, s);
      && |r.jobs| == 4
      && (forall k :: 0 <= k < 4 ==> r.jobs[k].path == Jobs[k].path)
      && (forall k :: 0 <= k < 4 ==> Registry.IsJobScheduled(r.jobs, Jobs[k].name))
  {
    JobsRegistrable();
    Registry.PerTaskFresh(Jobs, s);
    Registry.PerTaskSchedulesKnown(Jobs, s);
  }

  /** On a quiet host the first start-up of the deployed scheduler launches
      the database set-up twice, the extract and transform stages once
      each, and the load stage four times: once each in the start-up pass,
      then the weekly job and the hourly job three times. */
  lemma DeployedQuietStart(root: string, s: Sched, w: World)
    requires Launch.Quiet(w) && s.jobs == []
    ensures Scheduler.StartScheduler(Schedule(root), s, w).Finished?
    ensures Scheduler.StartScheduler(Schedule(root), s, w).state.launched
      == s.launched + [PsqlScript, ExtractScript, TransformScript, LoadScript,
                       PsqlScript, LoadScript, LoadScript, LoadScript]
  {
    var cfg := Schedule(root);
    JobsRegistrable();
    Scheduler.QuietStartupLaunches(cfg, s, w);
    var r := Scheduler.StartScheduler(cfg, s, w).state;
    DeployedLayout(r.jobs);
    DeployedPaths();
    LaunchOrder(s.launched, PsqlScript, ExtractScript, TransformScript, LoadScript);
  }

  lemma LaunchOrder<T>(x: seq<T>, p: T, e: T, t: T, l: T)
    ensures x + [p, e, t, l] + [p, l, l, l] == x + [p, e, t, l, p, l, l, l]
  {
  }

  /** The scripts the configured jobs and the deployed job list run. */
  lemma DeployedPaths()
    ensures Launch.DeclPaths(Jobs) == [PsqlScript, ExtractScript, TransformScript, LoadScript]
    ensures Launch.JobPaths([PsqlJob, LoadJob, LoadJob, LoadJob]) == [PsqlScript, LoadScript, LoadScript, LoadScript]
  {
  }

  /** The configured jobs have known frequencies and distinct names. */
  lemma JobsRegistrable()
    ensures forall i :: 0 <= i < |Jobs| ==> Registry.KnownFrequency(Jobs[i])
    ensures Registry.DistinctNames(Jobs)
  {
    ScheduleRules("");
  }

  const StagingNames: seq<string> := [
    "id", "indicatorcode", "spatialdim", "parentlocationcode", "timedimtype", "parentlocation",
    "dim1type", "timedim", "dim1", "numericvalue", "comments", "date", "timedimensionvalue",
    "timedimensionbegin", "timedimensionend", "country", "sex", "transformed_epoch", "created_at"
  ]

  lemma StagingNamesListed()
    ensures Psql.Names(StagingColumns) == StagingNames
  {
  }

  /** No two staging names agree in length, first and last character
      all at once, so they are distinct. */
  lemma StagingNamesDistinct()
    ensures Distinct(StagingNames)
  {
    var s := StagingNames;
    forall i, j | 0 <= i < j < |s|
      ensures s[i] != s[j]
    {
      assert |s[i]| != |s[j]| || s[i][0] != s[j][0] || s[i][|s[i]| - 1] != s[j][|s[j]| - 1];
    }
  }

  /** The staging schema declares nineteen distinct column names. */
  lemma StagingSchemaDistinct()
    ensures |StagingColumns| == 19
    ensures Psql.DistinctColumns(StagingSchema)
  {
    StagingNamesListed();
    StagingNamesDistinct();
  }

  /** On a server that accepts every statement, the database set-up ends
      with the staging table holding all nineteen declared columns. */
  lemma StagingTableComplete(server: Psql.Server, st: Psql.Psql)
    requires Psql.Healthy(server)
    ensures var r := Psql.CreateAllTables(PsqlDatasets, server, st);
      r.0.None? && Psql.HasDeclaredColumns(r.1.catalogue, StagingSchema)
  {
    StagingSchemaDistinct();
    assert Psql.EntryNames(PsqlDatasets) == [DatasetKey];
    Psql.CreateAllCompletes(PsqlDatasets, server, st);
  }
}

=== FILE: text.dfy ===
/** The Python string operations the pipeline relies on, as functions on
    `seq<char>`: `str.join`, `str.split(sep)`, `str.strip()`, `str.lower()`,
    `startswith`/`endswith`, substring search, decimal rendering of integers,
    and the line iteration of a text file. */
module Text {
  import opened Common

  /** `sep.join(parts)`. */
  function Join(parts: seq<string>, sep: string): string
  {
    if |parts| == 0 then ""
    else if |parts| == 1 then parts[0]
    else parts[0] + sep + Join(parts[1..], sep)
  }

  /** `sep` occurs in `s` starting at index `i`. */
  predicate OccursAt(s: string, sep: string, i: nat)
  {
    i + |sep| <= |s| && s[i..i + |sep|] == sep
  }

  /** Index of the first occurrence of `sep` in `s` at or after `from`. */
  function FindFrom(s: string, sep: string, from: nat): (r: Option<nat>)
    requires from <= |s|
    ensures r.Some? ==> from <= r.value && OccursAt(s, sep, r.value)
    ensures r.Some? ==> forall j :: from <= j < r.value ==> !OccursAt(s, sep, j)
    ensures r.None? ==> forall j :: from <= j ==> !OccursAt(s, sep, j)
    decreases |s| - from
  {
    if from + |sep| > |s| then None
    else if s[from..from + |sep|] == sep then Some(from)
    else FindFrom(s, sep, from + 1)
  }

  /** `s.find(sep)`, with `None` for -1. */
  function Find(s: string, sep: string): Option<nat>
  {
    FindFrom(s, sep, 0)
  }

  /** `sep in s`. */
  predicate Contains(s: string, sep: string)
  {
    Find(s, sep).Some?
  }

  predicate StartsWith(s: string, prefix: string)
  {
    |prefix| <= |s| && s[..|prefix|] == prefix
  }

  predicate EndsWith(s: string, suffix: string)
  {
    |suffix| <= |s| && s[|s| - |suffix|..] == suffix
  }

  /** `s.split(sep)` for a non-empty separator: the pieces between the
      non-overlapping occurrences of `sep`, scanning from the left. */
  function Split(s: string, sep: string): (r: seq<string>)
    requires |sep| > 0
    ensures |r| >= 1
    decreases |s|
  {
    match Find(s, sep)
    case None => [s]
    case Some(i) => [s[..i]] + Split(s[i + |sep|..], sep)
  }

  /** Characters for which Python's `str.isspace()` holds. */
  predicate IsSpace(c: char)
  {
    c == ' ' || ('\t' <= c <= '\r') || ('\U{1C}' <= c <= '\U{1F}')
    || c == '\U{85}' || c == '\U{A0}' || c == '\U{1680}'
    || ('\U{2000}' <= c <= '\U{200A}') || c == '\U{2028}' || c == '\U{2029}'
    || c == '\U{202F}' || c == '\U{205F}' || c == '\U{3000}'
  }

  function TrimStart(s: string): string
  {
    if |s| > 0 && IsSpace(s[0]) then TrimStart(s[1..]) else s
  }

  function TrimEnd(s: string): string
  {
    if |s| > 0 && IsSpace(s[|s| - 1]) then TrimEnd(s[..|s| - 1]) else s
  }

  /** `s.strip()`. */
  function Strip(s: string): string
  {
    TrimEnd(TrimStart(s))
  }

  function LowerChar(c: char): char
  {
    if 'A' <= c <= 'Z' then (c as int + 32) as char else c
  }

  /** `s.lower()` on the ASCII letters. */
  function Lower(s: string): (r: string)
    ensures |r| == |s|
    ensures forall i :: 0 <= i < |s| ==> r[i] == LowerChar(s[i])
  {
    seq(|s|, i requires 0 <= i < |s| => LowerChar(s[i]))
  }

  /** No upper-case ASCII letter occurs in `s`. */
  predicate IsLower(s: string)
  {
    forall i :: 0 <= i < |s| ==> !('A' <= s[i] <= 'Z')
  }

  function DigitChar(d: nat): char
    requires d < 10
  {
    ('0' as int + d) as char
  }

  predicate IsDigit(c: char)
  {
    '0' <= c <= '9'
  }

  /** `str(n)` for a non-negative integer. */
  function Decimal(n: nat): string
  {
    if n < 10 then [DigitChar(n)] else Decimal(n / 10) + [DigitChar(n % 10)]
  }

  /** `int(s)` on a string of decimal digits. */
  function ParseDecimal(s: string): nat
    requires forall i :: 0 <= i < |s| ==> IsDigit(s[i])
  {
    if |s| == 0 then 0
    else
      assert IsDigit(s[|s| - 1]);
      10 * ParseDecimal(s[..|s| - 1]) + (s[|s| - 1] as int - '0' as int)
  }

  /** The lines a Python text file yields when iterated: each ends just
      after a newline, except possibly the last. */
  function Lines(t: string): seq<string>
    decreases |t|
  {
    match Find(t, "\n")
    case None => if |t| == 0 then [] else [t]
    case Some(i) => [t[..i + 1]] + Lines(t[i + 1..])
  }

  function Concat(parts: seq<string>): string
  {
    if |parts| == 0 then "" else parts[0] + Concat(parts[1..])
  }

  // ---------------------------------------------------------------------
  // Properties

  lemma JoinCons(p: string, ps: seq<string>, sep: string)
    requires |ps| >= 1
    ensures Join([p] + ps, sep) == p + sep + Join(ps, sep)
  {
    assert ([p] + ps)[1..] == ps;
  }

  /** Joining two non-empty lists is joining their joins. */
  lemma {:induction false} JoinConcat(ps: seq<string>, qs: seq<string>, sep: string)
    requires |ps| >= 1 && |qs| >= 1
    ensures Join(ps + qs, sep) == Join(ps, sep) + sep + Join(qs, sep)
  {
    if |ps| == 1 {
      JoinCons(ps[0], qs, sep);
      assert ps + qs == [ps[0]] + qs;
    } else {
      assert ps + qs == [ps[0]] + (ps[1..] + qs);
      JoinCons(ps[0], ps[1..] + qs, sep);
      JoinConcat(ps[1..], qs, sep);
      JoinCons(ps[0], ps[1..], sep);
      assert ps == [ps[0]] + ps[1..];
    }
  }

  /** Splitting and re-joining with the same separator gives back the input. */
  lemma {:induction false} JoinSplit(s: string, sep: string)
    requires |sep| > 0
    ensures Join(Split(s, sep), sep) == s
    decreases |s|
  {
    var r := Find(s, sep);
    if r.Some? {
      var i := r.value;
      var rest := s[i + |sep|..];
      assert Split(s, sep) == [s[..i]] + Split(rest, sep);
      JoinSplit(rest, sep);
      JoinCons(s[..i], Split(rest, sep), sep);
      assert s[i..i + |sep|] == sep;
      assert s == s[..i] + sep + rest;
    }
  }

  /** When the separator's first character occurs in no part, splitting the
      join recovers the parts. */
  lemma {:induction false} SplitJoin(ps: seq<string>, sep: string)
    requires |sep| > 0 && |ps| >= 1
    requires forall k :: 0 <= k < |ps| ==> sep[0] !in ps[k]
    ensures Split(Join(ps, sep), sep) == ps
  {
    var p := ps[0];
    if |ps| == 1 {
      NoOccurrence(p, sep);
    } else {
      var rest := Join(ps[1..], sep);
      var s := p + sep + rest;
      assert ps == [p] + ps[1..];
      JoinCons(p, ps[1..], sep);
      assert Join(ps, sep) == s;
      FirstOccurrenceAfter(p, sep, rest);
      assert s[..|p|] == p;
      assert s[|p| + |sep|..] == rest;
      assert Split(s, sep) == [p] + Split(rest, sep);
      SplitJoin(ps[1..], sep);
    }
  }

  lemma NoOccurrence(p: string, sep: string)
    requires |sep| > 0 && sep[0] !in p
    ensures Find(p, sep).None?
  {
    forall j: nat
      ensures !OccursAt(p, sep, j)
    {
      if j < |p| {
        assert p[j] in p;
      }
    }
  }

  lemma FirstOccurrenceAfter(p: string, sep: string, rest: string)
    requires |sep| > 0 && sep[0] !in p
    ensures Find(p + sep + rest, sep) == Some(|p|)
  {
    var s := p + sep + rest;
    assert OccursAt(s, sep, |p|) by {
      assert s[|p|..|p| + |sep|] == sep;
    }
    forall j | 0 <= j < |p|
      ensures !OccursAt(s, sep, j)
    {
      assert s[j] == p[j];
      assert p[j] in p;
    }
  }

  lemma {:induction false} StripLeavesNoOuterSpace(s: string)
    ensures var r := Strip(s); |r| > 0 ==> !IsSpace(r[0]) && !IsSpace(r[|r| - 1])
  {
    TrimStartNoLeadingSpace(s);
    TrimEndKeepsHead(TrimStart(s));
    TrimEndNoTrailingSpace(TrimStart(s));
  }

  lemma {:induction false} TrimStartNoLeadingSpace(s: string)
    ensures |TrimStart(s)| > 0 ==> !IsSpace(TrimStart(s)[0])
  {
    if |s| > 0 && IsSpace(s[0]) {
      TrimStartNoLeadingSpace(s[1..]);
    }
  }

  lemma {:induction false} TrimEndNoTrailingSpace(s: string)
    ensures var r := TrimEnd(s); |r| > 0 ==> !IsSpace(r[|r| - 1])
  {
    if |s| > 0 && IsSpace(s[|s| - 1]) {
      TrimEndNoTrailingSpace(s[..|s| - 1]);
    }
  }

  /** Trimming the end keeps a prefix of the input. */
  lemma {:induction false} TrimEndKeepsHead(s: string)
    ensures |TrimEnd(s)| <= |s| && TrimEnd(s) == s[..|TrimEnd(s)|]
  {
    if |s| > 0 && IsSpace(s[|s| - 1]) {
      TrimEndKeepsHead(s[..|s| - 1]);
    }
  }

  /** Lower-casing yields a lower-case string and leaves one unchanged. */
  lemma LowerIsLower(s: string)
    ensures IsLower(Lower(s))
    ensures IsLower(s) ==> Lower(s) == s
  {
  }

  /** Rendering a number in decimal and parsing it back gives the number. */
  lemma {:induction false} DecimalRoundTrip(n: nat)
    ensures |Decimal(n)| >= 1
    ensures forall i :: 0 <= i < |Decimal(n)| ==> IsDigit(Decimal(n)[i])
    ensures ParseDecimal(Decimal(n)) == n
  {
    if n >= 10 {
      DecimalRoundTrip(n / 10);
      var d := Decimal(n);
      assert d[..|d| - 1] == Decimal(n / 10);
    }
  }

  /** Concatenating the lines of a text gives back the text; every line but
      possibly the last ends with its only newline. */
  lemma {:induction false} LinesRoundTrip(t: string)
    ensures Concat(Lines(t)) == t
    ensures forall k :: 0 <= k < |Lines(t)| ==> |Lines(t)[k]| > 0
    ensures forall k :: 0 <= k < |Lines(t)| - 1 ==> EndsWith(Lines(t)[k], "\n")
    decreases |t|
  {
    match Find(t, "\n")
    case None =>
    case Some(i) =>
      var rest := t[i + 1..];
      LinesRoundTrip(rest);
      assert t[i..i + 1] == "\n";
      assert t == t[..i + 1] + rest;
      assert Lines(t) == [t[..i + 1]] + Lines(rest);
      ConcatCons(t[..i + 1], Lines(rest));
  }

  lemma ConcatCons(p: string, ps: seq<string>)
    ensures Concat([p] + ps) == p + Concat(ps)
  {
    assert ([p] + ps)[1..] == ps;
  }
}

=== FILE: transform.dfy ===
/** The transformer (c_transform_data.py): loading a landing file's
    `value` records into a data frame, reshaping the frame (three derived
    columns, type casts, date reformatting, dropped columns, lower-case
    names), writing it to the staging area, and the log document and
    deletion rule for each landing file.

    A data frame is a sequence of named columns of JSON cells. What polars
    does to individual cells (building a frame from records, casting,
    parsing and formatting dates) is a parameter: a conversion either
    gives the new cell or fails, and a failed conversion raises. */
module Transform {
  import opened Common
  import opened Text
  import opened Paths
  import opened JsonValue
  import opened Walk

  datatype Column = Column(name: string, cells: seq<Json>)

  /** A polars data frame, column by column from left to right. */
  type Frame = seq<Column>

  function Names(f: Frame): (r: seq<string>)
    ensures |r| == |f|
    ensures forall i :: 0 <= i < |f| ==> r[i] == f[i].name
  {
    if |f| == 0 then [] else [f[0].name] + Names(f[1..])
  }

  /** The number of rows. */
  function Height(f: Frame): nat
  {
    if |f| == 0 then 0 else |f[0].cells|
  }

  /** The cells of the column called `name`, if there is one. */
  function Lookup(f: Frame, name: string): (r: Option<seq<Json>>)
    ensures r.None? <==> name !in Names(f)
    ensures r.Some? ==> Column(name, r.value) in f
  {
    if |f| == 0 then None
    else if f[0].name == name then Some(f[0].cells)
    else Lookup(f[1..], name)
  }

  // ---------------------------------------------------------------------
  // get_data_file

  /** `json_data.get("value", [])`. */
  function ValueOf(fields: map<string, Json>): Json
  {
    if "value" in fields then fields["value"] else JArray([])
  }

  /** A landing document yields a frame: it was read and decoded, it is an
      object, its `value` is present and truthy, and polars builds a frame
      from it. */
  predicate Usable(read: Result<Json, string>, toFrame: Json -> Option<Frame>)
  {
    && read.Ok?
    && read.value.JObject?
    && Truthy(ValueOf(read.value.fields))
    && toFrame(ValueOf(read.value.fields)).Some?
  }

  /** `get_data_file`: the frame it returns and the transformer's frame
      afterwards. Every failure (the file cannot be read or decoded, the
      document is not an object, `value` is missing or empty, polars
      rejects the records) returns nothing and leaves the transformer's
      frame as it was. */
  function GetDataFile(read: Result<Json, string>, toFrame: Json -> Option<Frame>, data: Option<Frame>)
    : (r: (Option<Frame>, Option<Frame>))
    ensures r.0.Some? <==> Usable(read, toFrame)
    ensures r.0.None? ==> r.1 == data
    ensures r.0.Some? ==> r.1 == r.0 && r.0 == toFrame(ValueOf(read.value.fields))
    ensures read.Ok? && read.value.JObject? && "value" !in read.value.fields ==> r == (None, data)
    ensures read.Ok? && read.value == JObject(map["value" := JArray([])]) ==> r == (None, data)
  {
    if read.Err? then (None, data)
    else match read.value
      case JObject(fields) =>
        var value := ValueOf(fields);
        if !Truthy(value) then (None, data)
        else
          var frame := toFrame(value);
          if frame.None? then (None, data) else (frame, frame)
      case _ => (None, data)
  }

  // ---------------------------------------------------------------------
  // transform_data

  /** What polars does to a cell: `cast(Float64)`, `cast(Int64)`, and
      parsing a date with `%Y-%m-%dT%H:%M:%S%.f%z` (fractional seconds) or
      `%Y-%m-%dT%H:%M:%S%z` and printing it back with
      `%Y-%m-%dT%H:%M:%S%z`. `None` means the conversion raises. */
  datatype Conversions = Conversions(
    toFloat: Json -> Option<Json>,
    toInt: Json -> Option<Json>,
    fractionalDate: Json -> Option<Json>,
    plainDate: Json -> Option<Json>)

  /** The columns the transformation adds. */
  const Added: seq<string> := ["country", "sex", "transformed_epoch"]

  /** The columns removed when present, matched with their exact case. */
  const DropList: seq<string> :=
    ["Dim2Type", "Dim2", "Dim3Type", "Dim3", "DataSourceDimType", "DataSourceDim", "Value", "High", "Low",
     "SpatialDimType"]

  /** Every cell converts. */
  predicate AllConvert(cells: seq<Json>, conv: Json -> Option<Json>)
  {
    forall i :: 0 <= i < |cells| ==> conv(cells[i]).Some?
  }

  /** Converts every cell, or fails if any cell fails. */
  function MapCells(cells: seq<Json>, conv: Json -> Option<Json>): (r: Option<seq<Json>>)
    ensures r.Some? <==> AllConvert(cells, conv)
    ensures r.Some? ==> |r.value| == |cells|
    ensures r.Some? ==> forall i :: 0 <= i < |cells| ==> r.value[i] == conv(cells[i]).value
  {
    if |cells| == 0 then Some([])
    else
      var head := conv(cells[0]);
      var tail := MapCells(cells[1..], conv);
      if head.None? || tail.None? then None
      else Some([head.value] + tail.value)
  }

  /** `n` copies of `x`: a literal broadcast to the frame's height. */
  function Fill(x: Json, n: nat): (r: seq<Json>)
    ensures |r| == n && forall i :: 0 <= i < n ==> r[i] == x
  {
    seq(n, _ => x)
  }

  /** Every column the transformation reads is present. */
  predicate SourcesPresent(f: Frame)
  {
    && "SpatialDim" in Names(f) && "Dim1" in Names(f) && "NumericValue" in Names(f) && "TimeDim" in Names(f)
    && "Date" in Names(f) && "TimeDimensionBegin" in Names(f) && "TimeDimensionEnd" in Names(f)
  }

  /** Every cell of the cast and reformatted columns converts. */
  predicate Convertible(f: Frame, conv: Conversions)
    requires SourcesPresent(f)
  {
    && AllConvert(Lookup(f, "NumericValue").value, conv.toFloat)
    && AllConvert(Lookup(f, "TimeDim").value, conv.toInt)
    && AllConvert(Lookup(f, "Date").value, conv.fractionalDate)
    && AllConvert(Lookup(f, "TimeDimensionBegin").value, conv.plainDate)
    && AllConvert(Lookup(f, "TimeDimensionEnd").value, conv.plainDate)
  }

  /** The names of the eight columns `with_columns` produces. */
  const OutputNames: seq<string> :=
    ["country", "sex", "transformed_epoch", "NumericValue", "TimeDim", "Date", "TimeDimensionBegin",
     "TimeDimensionEnd"]

  /** The eight expressions of the `with_columns` call, each evaluated on
      the frame as it was before the call: the copies of `SpatialDim` and
      `Dim1`, the epoch literal, the two casts and the three reformatted
      dates. A missing source column or a failed conversion raises. */
  function Outputs(f: Frame, epoch: int, conv: Conversions): (r: Option<Frame>)
    ensures r.Some? <==> SourcesPresent(f) && Convertible(f, conv)
  {
    if !SourcesPresent(f) then None
    else
      var numeric := MapCells(Lookup(f, "NumericValue").value, conv.toFloat);
      var time := MapCells(Lookup(f, "TimeDim").value, conv.toInt);
      var date := MapCells(Lookup(f, "Date").value, conv.fractionalDate);
      var begin := MapCells(Lookup(f, "TimeDimensionBegin").value, conv.plainDate);
      var end := MapCells(Lookup(f, "TimeDimensionEnd").value, conv.plainDate);
      if numeric.None? || time.None? || date.None? || begin.None? || end.None? then None
      else
        Some(Assemble(Lookup(f, "SpatialDim").value, Lookup(f, "Dim1").value, Fill(JNum(epoch), Height(f)),
                      numeric.value, time.value, date.value, begin.value, end.value))
  }

  /** The eight output columns from their cells. */
  function Assemble(country: seq<Json>, sex: seq<Json>, epoch: seq<Json>, numeric: seq<Json>, time: seq<Json>,
                    date: seq<Json>, begin: seq<Json>, end: seq<Json>): (r: Frame)
    ensures Names(r) == OutputNames
    ensures r[0] == Column("country", country) && r[1] == Column("sex", sex)
    ensures r[2] == Column("transformed_epoch", epoch) && r[3] == Column("NumericValue", numeric)
  {
    [Column("country", country), Column("sex", sex), Column("transformed_epoch", epoch),
     Column("NumericValue", numeric), Column("TimeDim", time), Column("Date", date),
     Column("TimeDimensionBegin", begin), Column("TimeDimensionEnd", end)]
  }

  /** Sets one output column: a column of that name is replaced where it
      stands, a new name is appended on the right. */
  function SetColumn(f: Frame, c: Column): (r: Frame)
    ensures c.name in Names(f) ==> Names(r) == Names(f)
    ensures c.name !in Names(f) ==> Names(r) == Names(f) + [c.name]
  {
    if |f| == 0 then [c]
    else if f[0].name == c.name then
      NamesCons(c, f[1..]);
      NamesCons(f[0], f[1..]);
      [c] + f[1..]
    else
      var rest := SetColumn(f[1..], c);
      NamesCons(f[0], rest);
      NamesCons(f[0], f[1..]);
      [f[0]] + rest
  }

  lemma NamesCons(c: Column, f: Frame)
    ensures Names([c] + f) == [c.name] + Names(f)
  {
    assert ([c] + f)[1..] == f;
  }

  /** Sets the output columns one after the other. */
  function SetColumns(f: Frame, cs: Frame): (r: Frame)
    ensures forall n :: n in Names(r) <==> n in Names(f) || n in Names(cs)
    ensures Distinct(Names(f)) ==> Distinct(Names(r))
    ensures (forall n :: n in Names(cs) ==> n in Names(f)) ==> Names(r) == Names(f)
    decreases |cs|
  {
    if |cs| == 0 then f
    else
      var g := SetColumn(f, cs[0]);
      DistinctSnoc(Names(f), cs[0].name);
      NamesCons(cs[0], cs[1..]);
      assert cs == [cs[0]] + cs[1..];
      DistinctCons(cs[0].name, Names(cs[1..]));
      SetColumns(g, cs[1..])
  }

  /** Setting a column gives it the new cells and leaves the others. */
  lemma {:induction false} SetColumnLookup(f: Frame, c: Column, n: string)
    ensures Lookup(SetColumn(f, c), n) == if n == c.name then Some(c.cells) else Lookup(f, n)
  {
    if |f| > 0 {
      LookupCons(f[0], f[1..], n);
      assert f == [f[0]] + f[1..];
      if f[0].name == c.name {
        LookupCons(c, f[1..], n);
      } else {
        SetColumnLookup(f[1..], c, n);
        LookupCons(f[0], SetColumn(f[1..], c), n);
      }
    }
  }

  /** After setting several columns, a column none of them names is as it
      was, and each of them (when their names are distinct) holds its new
      cells. */
  lemma {:induction false} SetColumnsLookup(f: Frame, cs: Frame, n: string)
    ensures n !in Names(cs) ==> Lookup(SetColumns(f, cs), n) == Lookup(f, n)
    ensures Distinct(Names(cs)) ==> forall i :: 0 <= i < |cs| && cs[i].name == n ==>
      Lookup(SetColumns(f, cs), n) == Some(cs[i].cells)
    decreases |cs|
  {
    if |cs| > 0 {
      var g := SetColumn(f, cs[0]);
      SetColumnLookup(f, cs[0], n);
      SetColumnsLookup(g, cs[1..], n);
      NamesCons(cs[0], cs[1..]);
      assert cs == [cs[0]] + cs[1..];
      DistinctCons(cs[0].name, Names(cs[1..]));
      if Distinct(Names(cs)) {
        forall i | 0 <= i < |cs| && cs[i].name == n
          ensures Lookup(SetColumns(f, cs), n) == Some(cs[i].cells)
        {
          if i > 0 {
            assert cs[1..][i - 1] == cs[i];
          } else {
            assert n !in Names(cs[1..]);
          }
        }
      }
    }
  }

  lemma DistinctSnoc(s: seq<string>, x: string)
    ensures x !in s && Distinct(s) ==> Distinct(s + [x])
  {
  }

  /** `with_columns`: the outputs computed on the original frame, then set
      on it. */
  function WithColumns(f: Frame, epoch: int, conv: Conversions): (r: Option<Frame>)
    ensures r.Some? <==> SourcesPresent(f) && Convertible(f, conv)
  {
    var outs := Outputs(f, epoch, conv);
    if outs.None? then None else Some(SetColumns(f, outs.value))
  }

  /** `drop` of the columns named in `drop` that are present. */
  function DropListed(f: Frame, drop: seq<string>): (r: Frame)
    ensures forall n :: n in Names(r) <==> n in Names(f) && n !in drop
    ensures Distinct(Names(f)) ==> Distinct(Names(r))
    ensures (forall n :: n in Names(f) ==> n !in drop) ==> r == f
  {
    if |f| == 0 then []
    else
      var rest := DropListed(f[1..], drop);
      NamesCons(f[0], f[1..]);
      assert f == [f[0]] + f[1..];
      DistinctCons(f[0].name, Names(f[1..]));
      if f[0].name in drop then rest
      else
        NamesCons(f[0], rest);
        DistinctCons(f[0].name, Names(rest));
        [f[0]] + rest
  }

  /** Dropping leaves the columns that are not dropped as they were. */
  lemma {:induction false} DropListedLookup(f: Frame, drop: seq<string>, n: string)
    requires n !in drop
    ensures Lookup(DropListed(f, drop), n) == Lookup(f, n)
  {
    if |f| > 0 {
      DropListedLookup(f[1..], drop, n);
      var rest := DropListed(f[1..], drop);
      if f[0].name !in drop {
        LookupCons(f[0], rest, n);
      }
    }
  }

  lemma LookupCons(c: Column, f: Frame, n: string)
    ensures Lookup([c] + f, n) == if c.name == n then Some(c.cells) else Lookup(f, n)
  {
    assert ([c] + f)[1..] == f;
  }

  function LowerAll(names: seq<string>): (r: seq<string>)
    ensures |r| == |names|
    ensures forall i :: 0 <= i < |names| ==> r[i] == Lower(names[i])
  {
    seq(|names|, i requires 0 <= i < |names| => Lower(names[i]))
  }

  /** Every column renamed to its lower-case name. */
  function LowerNames(f: Frame): (r: Frame)
    ensures |r| == |f|
    ensures forall i :: 0 <= i < |f| ==> r[i] == Column(Lower(f[i].name), f[i].cells)
    ensures Names(r) == LowerAll(Names(f))
  {
    seq(|f|, i requires 0 <= i < |f| => Column(Lower(f[i].name), f[i].cells))
  }

  /** `rename({col: col.lower()})`: polars refuses to produce two columns
      with the same name, so two names that differ only in case make the
      rename raise. */
  function RenameLower(f: Frame): (r: Option<Frame>)
    ensures r.Some? <==> Distinct(LowerAll(Names(f)))
    ensures r.Some? ==> r.value == LowerNames(f)
    ensures r.None? <==> exists i, j :: 0 <= i < j < |f| && Lower(f[i].name) == Lower(f[j].name)
    ensures r.Some? ==> |r.value| == |f| && Distinct(Names(r.value))
    ensures r.Some? ==> forall i :: 0 <= i < |f| ==>
      r.value[i].name == Lower(f[i].name) && r.value[i].cells == f[i].cells
  {
    var lowered := LowerNames(f);
    if Distinct(Names(lowered)) then Some(lowered) else None
  }

  /** `transform_data` on the transformer's frame: the frame it returns
      and the transformer's frame afterwards. There is nothing to
      transform before a file has loaded. The frame is replaced after each
      step that succeeds, so a rename that raises leaves the frame with
      the new columns and without the dropped ones. */
  function TransformData(data: Option<Frame>, epoch: int, conv: Conversions): (r: (Option<Frame>, Option<Frame>))
    ensures data.None? ==> r == (None, None)
    ensures r.0.Some? ==> r.1 == r.0
    ensures data.Some? && !SourcesPresent(data.value) ==> r == (None, data)
  {
    if data.None? then (None, None)
    else
      var w := WithColumns(data.value, epoch, conv);
      if w.None? then (None, data)
      else
        var d := DropListed(w.value, DropList);
        var l := RenameLower(d);
        if l.None? then (None, Some(d)) else (l, l)
  }

  // ---------------------------------------------------------------------
  // Properties of transform_data

  /** A column name that survives into the transformed frame, before
      lower-casing: one of the frame's or an added one, and not dropped. */
  predicate KeptName(f: Frame, n: string)
  {
    (n in Names(f) || n in Added) && n !in DropList
  }

  /** Two surviving names differ only in case. */
  ghost predicate CaseClash(f: Frame)
  {
    exists a, b :: KeptName(f, a) && KeptName(f, b) && a != b && Lower(a) == Lower(b)
  }

  /** The output columns `with_columns` computes, in order. */
  lemma OutputsShape(f: Frame, epoch: int, conv: Conversions)
    requires Outputs(f, epoch, conv).Some?
    ensures var outs := Outputs(f, epoch, conv).value;
      && outs[0] == Column("country", Lookup(f, "SpatialDim").value)
      && outs[1] == Column("sex", Lookup(f, "Dim1").value)
      && outs[2] == Column("transformed_epoch", Fill(JNum(epoch), Height(f)))
      && Some(outs[3].cells) == MapCells(Lookup(f, "NumericValue").value, conv.toFloat)
      && Names(outs) == OutputNames
  {
  }

  /** Lower-casing keeps distinct names distinct exactly when no two of
      them differ only in case. */
  lemma LowerAllDistinct(s: seq<string>)
    requires Distinct(s)
    ensures Distinct(LowerAll(s)) <==> !exists a, b :: a in s && b in s && a != b && Lower(a) == Lower(b)
  {
    var l := LowerAll(s);
    if exists a, b :: a in s && b in s && a != b && Lower(a) == Lower(b) {
      var a, b :| a in s && b in s && a != b && Lower(a) == Lower(b);
      var i :| 0 <= i < |s| && s[i] == a;
      var j :| 0 <= j < |s| && s[j] == b;
      assert l[i] == l[j] && i != j;
    } else {
      forall i, j | 0 <= i < j < |s|
        ensures l[i] != l[j]
      {
        assert s[i] in s && s[j] in s && s[i] != s[j];
      }
    }
  }

  /** After `with_columns` and `drop`, the frame's names are exactly the
      surviving names, each once. */
  lemma DroppedNames(f: Frame, epoch: int, conv: Conversions)
    requires Distinct(Names(f)) && WithColumns(f, epoch, conv).Some?
    ensures var d := DropListed(WithColumns(f, epoch, conv).value, DropList);
      && (forall n :: n in Names(d) <==> KeptName(f, n))
      && Distinct(Names(d))
  {
    var outs := Outputs(f, epoch, conv).value;
    OutputsShape(f, epoch, conv);
    var w := SetColumns(f, outs);
    forall n
      ensures n in Names(w) <==> n in Names(f) || n in Added
    {
      assert n in OutputNames ==> n in Names(f) || n in Added;
      assert n in Added ==> n in OutputNames;
    }
  }

  /** The transformation succeeds exactly when the columns it reads are
      present, every cast and date conversion succeeds, and no two
      surviving names differ only in case. */
  lemma TransformSucceeds(f: Frame, epoch: int, conv: Conversions)
    requires Distinct(Names(f))
    ensures TransformData(Some(f), epoch, conv).0.Some? <==>
      SourcesPresent(f) && Convertible(f, conv) && !CaseClash(f)
  {
    if WithColumns(f, epoch, conv).Some? {
      DroppedNames(f, epoch, conv);
      var d := DropListed(WithColumns(f, epoch, conv).value, DropList);
      LowerAllDistinct(Names(d));
      ClashAmong(f, Names(d));
    }
  }

  /** A case clash among the surviving names is one among the names of a
      frame that holds exactly those names. */
  lemma ClashAmong(f: Frame, s: seq<string>)
    requires forall n :: n in s <==> KeptName(f, n)
    ensures CaseClash(f) <==> exists a, b :: a in s && b in s && a != b && Lower(a) == Lower(b)
  {
    if CaseClash(f) {
      var a, b :| KeptName(f, a) && KeptName(f, b) && a != b && Lower(a) == Lower(b);
      assert a in s && b in s;
    }
    if exists a, b :: a in s && b in s && a != b && Lower(a) == Lower(b) {
      var a, b :| a in s && b in s && a != b && Lower(a) == Lower(b);
      assert KeptName(f, a) && KeptName(f, b);
    }
  }

  /** The frame after `with_columns` and `drop`. */
  function Dropped(f: Frame, epoch: int, conv: Conversions): Frame
    requires WithColumns(f, epoch, conv).Some?
  {
    DropListed(WithColumns(f, epoch, conv).value, DropList)
  }

  /** A successful transformation returns the dropped frame with
      lower-case names. */
  lemma TransformResult(f: Frame, epoch: int, conv: Conversions)
    requires TransformData(Some(f), epoch, conv).0.Some?
    ensures WithColumns(f, epoch, conv).Some?
    ensures TransformData(Some(f), epoch, conv).0.value == LowerNames(Dropped(f, epoch, conv))
  {
  }

  /** The names of a lower-cased frame are lower-case, and they include
      the lower-case form of every original name. */
  lemma LoweredFrameNames(d: Frame)
    ensures forall m :: m in Names(LowerNames(d)) ==> IsLower(m)
    ensures forall n :: n in Names(d) ==> Lower(n) in Names(LowerNames(d))
  {
    var names := Names(LowerNames(d));
    forall m | m in names
      ensures IsLower(m)
    {
      var i :| 0 <= i < |names| && names[i] == m;
      LowerIsLower(Names(d)[i]);
    }
    forall n | n in Names(d)
      ensures Lower(n) in names
    {
      var i :| 0 <= i < |Names(d)| && Names(d)[i] == n;
      assert names[i] == Lower(n);
    }
  }

  /** Every name of a lower-cased frame is the lower-case form of an
      original name. */
  lemma LoweredFrameSources(d: Frame)
    ensures forall m :: m in Names(LowerNames(d)) ==> exists n :: n in Names(d) && Lower(n) == m
  {
    var names := Names(LowerNames(d));
    forall m | m in names
      ensures exists n :: n in Names(d) && Lower(n) == m
    {
      var i :| 0 <= i < |names| && names[i] == m;
      assert Names(d)[i] in Names(d);
    }
  }

  /** Every listed column name has an upper-case letter. */
  lemma ListedNotLower()
    ensures forall n :: n in DropList ==> !IsLower(n)
  {
    forall n | n in DropList
      ensures !IsLower(n)
    {
      assert 'A' <= n[0] <= 'Z';
    }
  }

  /** Lower-casing a frame that has the added columns keeps them under
      the same names, and leaves none of the listed names. */
  lemma LoweredKeepsAdded(d: Frame)
    requires "country" in Names(d) && "sex" in Names(d) && "transformed_epoch" in Names(d)
    ensures var names := Names(LowerNames(d));
      && (forall m :: m in names ==> IsLower(m))
      && "country" in names && "sex" in names && "transformed_epoch" in names
      && (forall n :: n in DropList ==> n !in names)
  {
    LoweredFrameNames(d);
    AddedStayLower();
    ListedNotLower();
  }

  /** The transformed frame's names: each once, all lower-case, with the
      three added columns among them and no listed column. */
  lemma TransformNames(f: Frame, epoch: int, conv: Conversions)
    requires Distinct(Names(f))
    requires TransformData(Some(f), epoch, conv).0.Some?
    ensures var g := TransformData(Some(f), epoch, conv).0.value;
      && Distinct(Names(g))
      && (forall m :: m in Names(g) ==> IsLower(m))
      && "country" in Names(g) && "sex" in Names(g) && "transformed_epoch" in Names(g)
      && (forall n :: n in DropList ==> n !in Names(g))
  {
    TransformResult(f, epoch, conv);
    var d := Dropped(f, epoch, conv);
    DroppedNames(f, epoch, conv);
    AddedKept(f);
    LoweredKeepsAdded(d);
  }

  /** The transformed frame's names are the lower-case forms of the
      surviving names, and nothing else. */
  lemma TransformKeeps(f: Frame, epoch: int, conv: Conversions)
    requires Distinct(Names(f))
    requires TransformData(Some(f), epoch, conv).0.Some?
    ensures var g := TransformData(Some(f), epoch, conv).0.value;
      && (forall n :: KeptName(f, n) ==> Lower(n) in Names(g))
      && (forall m :: m in Names(g) ==> exists n :: KeptName(f, n) && Lower(n) == m)
  {
    TransformResult(f, epoch, conv);
    DroppedNames(f, epoch, conv);
    LoweredFrameNames(Dropped(f, epoch, conv));
    LoweredFrameSources(Dropped(f, epoch, conv));
  }

  /** The added columns always survive the drop. */
  lemma AddedKept(f: Frame)
    ensures KeptName(f, "country") && KeptName(f, "sex") && KeptName(f, "transformed_epoch")
  {
  }

  /** The added names are already lower-case. */
  lemma AddedStayLower()
    ensures Lower("country") == "country" && Lower("sex") == "sex"
    ensures Lower("transformed_epoch") == "transformed_epoch"
  {
    LowerIsLower("country");
    LowerIsLower("sex");
    LowerIsLower("transformed_epoch");
  }

  /** In a lower-cased frame whose names stay distinct, a column is found
      under the lower-case form of its old name. */
  lemma {:induction false} LookupLowered(d: Frame, n: string)
    requires Distinct(LowerAll(Names(d))) && n in Names(d)
    ensures Lookup(LowerNames(d), Lower(n)) == Lookup(d, n)
  {
    var l := LowerNames(d);
    var i :| 0 <= i < |d| && d[i].name == n && forall j :: 0 <= j < i ==> d[j].name != n;
    LookupAt(d, n, i);
    forall j | 0 <= j < i
      ensures l[j].name != Lower(n)
    {
      assert LowerAll(Names(d))[j] != LowerAll(Names(d))[i];
    }
    LookupAt(l, Lower(n), i);
  }

  /** `Lookup` finds the first column with the name. */
  lemma {:induction false} LookupAt(f: Frame, n: string, i: nat)
    requires i < |f| && f[i].name == n && forall j :: 0 <= j < i ==> f[j].name != n
    ensures Lookup(f, n) == Some(f[i].cells)
  {
    if i > 0 {
      LookupAt(f[1..], n, i - 1);
    }
  }

  lemma OutputNamesDistinct()
    ensures Distinct(OutputNames)
  {
  }

  /** The `i`-th output column appears in the transformed frame under its
      lower-case name. */
  lemma TransformOutput(f: Frame, epoch: int, conv: Conversions, i: nat)
    requires Distinct(Names(f)) && TransformData(Some(f), epoch, conv).0.Some?
    requires i < |OutputNames|
    ensures WithColumns(f, epoch, conv).Some?
    ensures Lookup(TransformData(Some(f), epoch, conv).0.value, Lower(OutputNames[i])) ==
      Some(Outputs(f, epoch, conv).value[i].cells)
  {
    TransformResult(f, epoch, conv);
    var outs := Outputs(f, epoch, conv).value;
    OutputsShape(f, epoch, conv);
    OutputNamesDistinct();
    var w := SetColumns(f, outs);
    var n := OutputNames[i];
    SetColumnsLookup(f, outs, n);
    assert outs[i].name == n;
    DroppedNames(f, epoch, conv);
    var d := Dropped(f, epoch, conv);
    OutputKept(f, i);
    DropListedLookup(w, DropList, n);
    LookupLowered(d, n);
  }

  /** Every output name survives the drop. */
  lemma OutputKept(f: Frame, i: nat)
    requires SourcesPresent(f) && i < |OutputNames|
    ensures KeptName(f, OutputNames[i])
  {
    if i < 3 {
      AddedOutputKept(f, i);
    } else {
      SourceOutputKept(f, i);
    }
  }

  lemma AddedOutputKept(f: Frame, i: nat)
    requires i < 3
    ensures KeptName(f, OutputNames[i])
  {
    var n := OutputNames[i];
    assert n == Added[i];
    assert n[0] in "cst";
    NotListed(n);
  }

  lemma SourceOutputKept(f: Frame, i: nat)
    requires SourcesPresent(f) && 3 <= i < |OutputNames|
    ensures KeptName(f, OutputNames[i])
  {
    var n := OutputNames[i];
    if i == 5 {
      assert n == "Date";
      DateNotListed();
    } else {
      assert n[0] in "NT";
      NotListed(n);
    }
  }

  lemma DateNotListed()
    ensures "Date" !in DropList
  {
  }

  /** A name that starts like none of the listed names is not listed. */
  lemma NotListed(n: string)
    requires |n| > 0 && n[0] !in "DVHLS"
    ensures n !in DropList
  {
  }

  /** A column the transformation neither produces nor drops reaches the
      transformed frame unchanged, under its lower-case name. */
  lemma TransformCarries(f: Frame, epoch: int, conv: Conversions, n: string)
    requires Distinct(Names(f)) && TransformData(Some(f), epoch, conv).0.Some?
    requires n in Names(f) && n !in DropList && n !in OutputNames
    ensures Lookup(TransformData(Some(f), epoch, conv).0.value, Lower(n)) == Lookup(f, n)
  {
    TransformResult(f, epoch, conv);
    var outs := Outputs(f, epoch, conv).value;
    OutputsShape(f, epoch, conv);
    var w := SetColumns(f, outs);
    SetColumnsLookup(f, outs, n);
    DroppedNames(f, epoch, conv);
    DropListedLookup(w, DropList, n);
    LookupLowered(Dropped(f, epoch, conv), n);
  }

  /** The derived columns of the transformed frame: `country` copies
      `SpatialDim`, `sex` copies `Dim1`, `transformed_epoch` holds the
      epoch in every row, and `numericvalue` holds the converted
      `NumericValue` cells. */
  lemma TransformCells(f: Frame, epoch: int, conv: Conversions)
    requires Distinct(Names(f)) && TransformData(Some(f), epoch, conv).0.Some?
    ensures var g := TransformData(Some(f), epoch, conv).0.value;
      && Lookup(g, "country") == Lookup(f, "SpatialDim")
      && Lookup(g, "sex") == Lookup(f, "Dim1")
      && Lookup(g, "transformed_epoch") == Some(Fill(JNum(epoch), Height(f)))
      && Lookup(g, "numericvalue") == MapCells(Lookup(f, "NumericValue").value, conv.toFloat)
  {
    TransformOutput(f, epoch, conv, 0);
    TransformOutput(f, epoch, conv, 1);
    TransformOutput(f, epoch, conv, 2);
    TransformOutput(f, epoch, conv, 3);
    OutputsShape(f, epoch, conv);
    AddedStayLower();
    NumericLower();
  }

  lemma NumericLower()
    ensures Lower("NumericValue") == "numericvalue"
  {
  }

  // ---------------------------------------------------------------------
  // The frame left behind

  /** A transformed frame cannot be transformed again: its names are
      lower-case, so `SpatialDim` is gone. */
  lemma TransformNotReapplicable(f: Frame, epoch: int, conv: Conversions, epoch': int, conv': Conversions)
    requires TransformData(Some(f), epoch, conv).0.Some?
    ensures TransformData(TransformData(Some(f), epoch, conv).1, epoch', conv').0.None?
  {
    TransformResult(f, epoch, conv);
    LoweredFrameNames(Dropped(f, epoch, conv));
    LowerFrameLacksSources(LowerNames(Dropped(f, epoch, conv)));
  }

  /** A frame with lower-case names only has no `SpatialDim` column. */
  lemma LowerFrameLacksSources(g: Frame)
    requires forall m :: m in Names(g) ==> IsLower(m)
    ensures !SourcesPresent(g)
  {
    assert !IsLower("SpatialDim") by {
      assert 'A' <= "SpatialDim"[0] <= 'Z';
    }
  }

  /** No frame, or one the transformation fails on whatever the epoch. */
  ghost predicate Spent(data: Option<Frame>, conv: Conversions)
  {
    forall epoch :: TransformData(data, epoch, conv).0.None?
  }

  /** A frame that already has every output column and none of the listed
      ones, and whose names clash in case, fails again: `with_columns`
      then replaces columns without adding any, nothing is dropped, and
      the same clash stops the rename. */
  lemma ClashPersists(d: Frame, epoch: int, conv: Conversions)
    requires forall n :: n in OutputNames ==> n in Names(d)
    requires forall n :: n in Names(d) ==> n !in DropList
    requires !Distinct(LowerAll(Names(d)))
    ensures TransformData(Some(d), epoch, conv).0.None?
  {
    if WithColumns(d, epoch, conv).Some? {
      var outs := Outputs(d, epoch, conv).value;
      OutputsShape(d, epoch, conv);
      var w := SetColumns(d, outs);
      assert Names(w) == Names(d);
      assert DropListed(w, DropList) == w;
    }
  }

  /** Whatever happens, the transformation leaves behind a frame it fails
      on (or none): a frame it failed on is kept as it was or with the
      clashing names still in place, and a transformed frame has lost its
      source columns. */
  lemma TransformLeavesSpent(data: Option<Frame>, epoch: int, conv: Conversions)
    ensures Spent(TransformData(data, epoch, conv).1, conv)
  {
    if data.Some? {
      var f := data.value;
      if WithColumns(f, epoch, conv).None? {
        SpentAfterFailedColumns(f, epoch, conv);
      } else if RenameLower(Dropped(f, epoch, conv)).None? {
        SpentAfterFailedRename(f, epoch, conv);
      } else {
        SpentAfterSuccess(f, epoch, conv);
      }
    }
  }

  lemma SpentAfterSuccess(f: Frame, epoch: int, conv: Conversions)
    requires TransformData(Some(f), epoch, conv).0.Some?
    ensures Spent(TransformData(Some(f), epoch, conv).1, conv)
  {
    forall epoch' | true
      ensures TransformData(TransformData(Some(f), epoch, conv).1, epoch', conv).0.None?
    {
      TransformNotReapplicable(f, epoch, conv, epoch', conv);
    }
  }

  lemma SpentAfterFailedColumns(f: Frame, epoch: int, conv: Conversions)
    requires WithColumns(f, epoch, conv).None?
    ensures TransformData(Some(f), epoch, conv).1 == Some(f)
    ensures Spent(Some(f), conv)
  {
  }

  lemma SpentAfterFailedRename(f: Frame, epoch: int, conv: Conversions)
    requires WithColumns(f, epoch, conv).Some? && RenameLower(Dropped(f, epoch, conv)).None?
    ensures TransformData(Some(f), epoch, conv).1 == Some(Dropped(f, epoch, conv))
    ensures Spent(Some(Dropped(f, epoch, conv)), conv)
  {
    var outs := Outputs(f, epoch, conv).value;
    OutputsShape(f, epoch, conv);
    var d := Dropped(f, epoch, conv);
    forall n | n in OutputNames
      ensures n in Names(d)
    {
      var i :| 0 <= i < |OutputNames| && OutputNames[i] == n;
      OutputKept(f, i);
    }
    forall epoch' | true
      ensures TransformData(Some(d), epoch', conv).0.None?
    {
      ClashPersists(d, epoch', conv);
    }
  }

  // ---------------------------------------------------------------------
  // save_data, create_log_file and process_single_file

  /** The directories, the configured datasets in order, and the datasets
      whose configuration entry is non-empty. */
  datatype TransformerConfig = TransformerConfig(
    landingDir: string,
    stagingDir: string,
    logDir: string,
    datasets: seq<string>,
    configured: set<string>)

  /** What the transformer depends on besides its configuration: the
      landing files, what polars makes of records and cells, the clock
      (the epoch for `transformed_epoch` and the time of day for the
      output name, read while processing the `k`-th file), and whether
      writing an output file succeeds. */
  datatype Env = Env(
    fs: Files,
    toFrame: Json -> Option<Frame>,
    conv: Conversions,
    epoch: nat -> int,
    now: nat -> Stamp,
    writeOk: string -> bool)

  /** The one exception that reaches `process_single_file`'s handler:
      `save_data` finds no configuration for the dataset. */
  datatype TransformError = UnknownDataset(name: string)

  /** A log document: where it is written, the landing file, the output
      file, whether the file was processed, the error text, and the
      frame's schema (its column names) on success. */
  datatype TransformLog = TransformLog(
    path: string,
    inputFile: string,
    outputFile: Option<string>,
    success: bool,
    error: Option<TransformError>,
    schema: Option<seq<string>>)

  /** The transformer's frame, the staging files written (path and frame),
      the log documents written and the landing files deleted. */
  datatype Transformer = Transformer(
    data: Option<Frame>,
    staged: seq<(string, Frame)>,
    logs: seq<TransformLog>,
    deleted: seq<string>)

  /** `save_data`'s output path: the staging directory, the landing file's
      directory relative to the landing root, and the time as `%H%M`. */
  function StagingPath(cfg: TransformerConfig, input: string, now: Stamp): string
  {
    PathJoin(PathJoin(cfg.stagingDir, Dirname(Relpath(input, cfg.landingDir))), now.time + ".json")
  }

  /** `create_log_file`'s path: the log root, `transform`, the landing
      file's directory relative to the landing root, and the landing
      file's name with its extension replaced by `.json`. */
  function LogPath(cfg: TransformerConfig, input: string): string
  {
    PathJoin(PathJoin(PathJoin(cfg.logDir, "transform"), Dirname(Relpath(input, cfg.landingDir))),
             SplitextRoot(Basename(input)) + ".json")
  }

  /** A landing file `d/name` below the landing root is staged under the
      same directory `d` below the staging root, named after the moment. */
  lemma StagingMirrorsLanding(cfg: TransformerConfig, d: string, name: string, now: Stamp)
    requires |d| > 0 && IsNormalRelative(d) && |name| > 0 && '/' !in name && '/' !in now.time
    ensures Relpath(StagingPath(cfg, PathJoin(cfg.landingDir, d + "/" + name), now), cfg.stagingDir)
         == d + "/" + now.time + ".json"
  {
    var t := now.time + ".json";
    FileBelow(cfg.landingDir, d, name);
    assert StagingPath(cfg, PathJoin(cfg.landingDir, d + "/" + name), now) == PathJoin(PathJoin(cfg.stagingDir, d), t);
    NormalRelativeEnds(d);
    JsonNameNoSlash(now.time);
    JoinNested(cfg.stagingDir, d, t);
    NormalRelativeExtended(d, t);
    RelpathOfJoin(cfg.stagingDir, d + "/" + t);
    assert d + "/" + t == d + "/" + now.time + ".json";
  }

  /** A slash-free name with `.json` appended stays slash-free. */
  lemma JsonNameNoSlash(stem: string)
    requires '/' !in stem
    ensures '/' !in stem + ".json" && !StartsWith(stem + ".json", "/")
  {
    var t := stem + ".json";
    forall i | 0 <= i < |t| ensures t[i] != '/' {
      if i < |stem| { assert t[i] == stem[i]; } else { assert t[i] == ".json"[i - |stem|]; }
    }
    assert t[0] != '/';
  }

  /** The log document of a landing file `d/stem.json` is `stem.json` under
      the same directory `d` below `<log root>/transform`. */
  lemma LogNamedAfterInput(cfg: TransformerConfig, d: string, stem: string)
    requires |d| > 0 && IsNormalRelative(d) && |stem| > 0 && '/' !in stem && '.' !in stem
    ensures LogPath(cfg, PathJoin(cfg.landingDir, d + "/" + stem + ".json"))
         == PathJoin(PathJoin(cfg.logDir, "transform"), d + "/" + stem + ".json")
  {
    var name := stem + ".json";
    JsonNameNoSlash(stem);
    assert d + "/" + stem + ".json" == d + "/" + name;
    FileBelow(cfg.landingDir, d, name);
    NormalRelativeEnds(d);
    JoinNested(cfg.landingDir, d, name);
    BasenameOfJoin(PathJoin(cfg.landingDir, d), name);
    SplitextRootOfJson(stem);
    JoinNested(PathJoin(cfg.logDir, "transform"), d, name);
  }

  /** `save_data` for the `k`-th file: raises for a dataset without
      configuration, returns nothing when the write fails, and the output
      path otherwise. */
  function SaveData(cfg: TransformerConfig, env: Env, dataset: string, input: string, k: nat)
    : (r: Result<Option<string>, TransformError>)
    ensures r.Err? <==> dataset !in cfg.configured
    ensures r.Err? ==> r.error == UnknownDataset(dataset)
    ensures r.Ok? && r.value.Some? ==> r.value.value == StagingPath(cfg, input, env.now(k))
    ensures r.Ok? ==> (r.value.Some? <==> env.writeOk(StagingPath(cfg, input, env.now(k))))
  {
    if dataset !in cfg.configured then Err(UnknownDataset(dataset))
    else
      var path := StagingPath(cfg, input, env.now(k));
      if env.writeOk(path) then Ok(Some(path)) else Ok(None)
  }

  /** The transformer after a failure log document for `file`. */
  function Failed(cfg: TransformerConfig, st: Transformer, file: string, data: Option<Frame>,
                  error: Option<TransformError>): Transformer
  {
    Transformer(data, st.staged, st.logs + [TransformLog(LogPath(cfg, file), file, None, false, error, None)],
                st.deleted)
  }

  /** `process_single_file` for the `k`-th file, `k` being the number of
      log documents written before: load the file (keeping the previous
      frame when that fails), transform the transformer's frame, save it,
      write the log document, and delete the landing file when the frame
      was transformed and saved. Every other outcome writes a failure log
      document and keeps the file; nothing is raised. */
  function ProcessSingleFile(cfg: TransformerConfig, env: Env, dataset: string, file: string, st: Transformer)
    : (r: Transformer)
    ensures |r.logs| == |st.logs| + 1 && st.logs <= r.logs
    ensures r.logs[|st.logs|].path == LogPath(cfg, file) && r.logs[|st.logs|].inputFile == file
    ensures r.deleted == if r.logs[|st.logs|].success then st.deleted + [file] else st.deleted
    ensures r.logs[|st.logs|].success <==>
      && TransformData(GetDataFile(env.fs.read(file), env.toFrame, st.data).1, env.epoch(|st.logs|), env.conv).0.Some?
      && SaveData(cfg, env, dataset, file, |st.logs|) == Ok(Some(StagingPath(cfg, file, env.now(|st.logs|))))
    ensures r.logs[|st.logs|].success ==>
      && r.data.Some?
      && r.logs[|st.logs|].outputFile == Some(StagingPath(cfg, file, env.now(|st.logs|)))
      && r.logs[|st.logs|].schema == Some(Names(r.data.value))
      && r.staged == st.staged + [(StagingPath(cfg, file, env.now(|st.logs|)), r.data.value)]
    ensures !r.logs[|st.logs|].success ==>
      r.staged == st.staged && r.logs[|st.logs|].outputFile.None? && r.logs[|st.logs|].schema.None?
    ensures r.logs[|st.logs|].error.Some? ==>
      r.logs[|st.logs|].error == Some(UnknownDataset(dataset)) && dataset !in cfg.configured
    ensures dataset in cfg.configured ==> r.logs[|st.logs|].error.None?
    ensures Spent(r.data, env.conv)
    ensures Spent(st.data, env.conv) && !Usable(env.fs.read(file), env.toFrame) ==> !r.logs[|st.logs|].success
  {
    var k := |st.logs|;
    var got := GetDataFile(env.fs.read(file), env.toFrame, st.data);
    var t := TransformData(got.1, env.epoch(k), env.conv);
    TransformLeavesSpent(got.1, env.epoch(k), env.conv);
    if t.0.None? then Failed(cfg, st, file, t.1, None)
    else
      var saved := SaveData(cfg, env, dataset, file, k);
      if saved.Err? then Failed(cfg, st, file, t.1, Some(saved.error))
      else if saved.value.None? then Failed(cfg, st, file, t.1, None)
      else
        var log := TransformLog(LogPath(cfg, file), file, saved.value, true, None, Some(Names(t.0.value)));
        Transformer(t.1, st.staged + [(saved.value.value, t.0.value)], st.logs + [log], st.deleted + [file])
  }

  // ---------------------------------------------------------------------
  // process_all_files

  /** What processing one file does: one log document for the file, the
      file deleted exactly when it succeeded, a frame left behind that the
      transformation fails on, and no success for a file that yields no
      frame while the frame held before was such a frame. */
  ghost predicate StepShape(cfg: TransformerConfig, env: Env, st: Transformer, file: string, out: Transformer)
  {
    && |out.logs| == |st.logs| + 1 && st.logs <= out.logs
    && out.logs[|st.logs|].inputFile == file
    && out.deleted == (if out.logs[|st.logs|].success then st.deleted + [file] else st.deleted)
    && Spent(out.data, env.conv)
    && (Spent(st.data, env.conv) && !Usable(env.fs.read(file), env.toFrame) ==> !out.logs[|st.logs|].success)
  }

  /** Every call of `step` has that shape. */
  ghost predicate WellShaped(cfg: TransformerConfig, env: Env, step: (string, string, Transformer) -> Transformer)
  {
    forall dataset, file, st :: StepShape(cfg, env, st, file, step(dataset, file, st))
  }

  /** `process_single_file` as a step. */
  function SingleFileStep(cfg: TransformerConfig, env: Env): (r: (string, string, Transformer) -> Transformer)
    ensures WellShaped(cfg, env, r)
  {
    var step := (dataset, file, st) => ProcessSingleFile(cfg, env, dataset, file, st);
    assert WellShaped(cfg, env, step) by {
      forall dataset, file, st
        ensures StepShape(cfg, env, st, file, step(dataset, file, st))
      {
        var out := ProcessSingleFile(cfg, env, dataset, file, st);
        assert st.logs == out.logs[..|st.logs|];
      }
    }
    step
  }

  /** Processes the files in order, each with `step`; no failure stops
      the run. */
  function ProcessFiles(cfg: TransformerConfig, env: Env, step: (string, string, Transformer) -> Transformer,
                        files: seq<(string, string)>, st: Transformer): (r: Transformer)
    requires WellShaped(cfg, env, step)
    ensures |r.logs| == |st.logs| + |files| && st.logs <= r.logs
    ensures forall k :: |st.logs| <= k < |r.logs| ==>
      r.logs[k].inputFile == files[k - |st.logs|].1
    ensures Spent(st.data, env.conv) ==> Spent(r.data, env.conv)
    ensures Spent(st.data, env.conv) ==> forall k :: |st.logs| <= k < |r.logs| ==>
      !Usable(env.fs.read(files[k - |st.logs|].1), env.toFrame) ==> !r.logs[k].success
    decreases |files|
  {
    if |files| == 0 then st
    else
      var one := step(files[0].0, files[0].1, st);
      assert StepShape(cfg, env, st, files[0].1, one);
      var rest := ProcessFiles(cfg, env, step, files[1..], one);
      assert rest.logs[|st.logs|] == one.logs[|st.logs|];
      rest
  }

  /** The input files of the successful log documents, in order. */
  function SucceededFiles(logs: seq<TransformLog>): seq<string>
  {
    if |logs| == 0 then []
    else (if logs[0].success then [logs[0].inputFile] else []) + SucceededFiles(logs[1..])
  }

  lemma SucceededFilesCons(log: TransformLog, logs: seq<TransformLog>)
    ensures SucceededFiles([log] + logs) == (if log.success then [log.inputFile] else []) + SucceededFiles(logs)
  {
    assert ([log] + logs)[1..] == logs;
  }

  /** The landing files a run deleted are exactly those whose log
      documents report success, in order. */
  lemma {:induction false} ProcessFilesDeletes(cfg: TransformerConfig, env: Env,
                                               step: (string, string, Transformer) -> Transformer,
                                               files: seq<(string, string)>, st: Transformer)
    requires WellShaped(cfg, env, step)
    ensures var r := ProcessFiles(cfg, env, step, files, st);
      r.deleted == st.deleted + SucceededFiles(r.logs[|st.logs|..])
    decreases |files|
  {
    var r := ProcessFiles(cfg, env, step, files, st);
    var n := |st.logs|;
    if |files| == 0 {
      assert r.logs[n..] == [];
    } else {
      var one := step(files[0].0, files[0].1, st);
      StepDeletes(cfg, env, step, files[0].0, files[0].1, st);
      var first := one.logs[n];
      ProcessFilesDeletes(cfg, env, step, files[1..], one);
      var tail := r.logs[n + 1..];
      assert r.logs[n] == first;
      SuffixCons(r.logs, n);
      SucceededFilesCons(first, tail);
    }
  }

  /** The log and deletion facts of one step, apart from the rest of its
      shape. */
  lemma StepDeletes(cfg: TransformerConfig, env: Env, step: (string, string, Transformer) -> Transformer,
                    dataset: string, file: string, st: Transformer)
    requires WellShaped(cfg, env, step)
    ensures var out := step(dataset, file, st);
      && |out.logs| == |st.logs| + 1 && st.logs <= out.logs
      && out.deleted == st.deleted + SucceededFiles([out.logs[|st.logs|]])
      && out.logs[|st.logs|].inputFile == file
  {
    var out := step(dataset, file, st);
    assert StepShape(cfg, env, st, file, out);
    SucceededFilesCons(out.logs[|st.logs|], []);
  }

  /** A new transformer holds no frame. */
  lemma FreshTransformerSpent(conv: Conversions)
    ensures Spent(None, conv)
  {
  }

  /** `process_all_files` on a new transformer: every landing file of
      every configured dataset gets one log document, in walk order; the
      deleted files are exactly the successful ones; and a file that
      yields no frame is never deleted, although the frame of an earlier
      file is transformed in its place. */
  function ProcessAllFiles(cfg: TransformerConfig, env: Env): (r: Transformer)
    ensures var files := Candidates(cfg.landingDir, env.fs, cfg.datasets);
      && |r.logs| == |files|
      && (forall k :: 0 <= k < |r.logs| ==> r.logs[k].inputFile == files[k].1 && EndsWith(files[k].1, ".json"))
      && (forall k :: 0 <= k < |r.logs| ==> !Usable(env.fs.read(files[k].1), env.toFrame) ==> !r.logs[k].success)
      && r.deleted == SucceededFiles(r.logs)
  {
    var files := Candidates(cfg.landingDir, env.fs, cfg.datasets);
    var st := Transformer(None, [], [], []);
    var step := SingleFileStep(cfg, env);
    FreshTransformerSpent(env.conv);
    ProcessFilesDeletes(cfg, env, step, files, st);
    var r := ProcessFiles(cfg, env, step, files, st);
    assert r.logs[0..] == r.logs;
    r
  }
}

=== FILE: walk.dfy ===
/** The directory walk the loader and the transformer share: for every
    configured dataset that has a directory under the stage's root, the
    `.json` files `os.walk` lists below it. */
module Walk {
  import opened Common
  import opened Text
  import opened Paths
  import opened JsonValue

  /** A stage's input area as the stage sees it: which directories exist,
      what `os.walk` lists under a directory (each directory with the names
      of the files directly in it), and what `json.load` makes of a file
      (or the text of the error it raises). */
  datatype Files = Files(
    isDir: string -> bool,
    walk: string -> seq<(string, seq<string>)>,
    read: string -> Result<Json, string>)

  /** The `.json` files `os.walk` finds under a directory, directory by
      directory, in listing order. */
  function JsonFilesUnder(walk: seq<(string, seq<string>)>): (r: seq<string>)
    ensures forall k :: 0 <= k < |r| ==> EndsWith(r[k], ".json")
  {
    if |walk| == 0 then []
    else JsonFilesIn(walk[0].0, walk[0].1) + JsonFilesUnder(walk[1..])
  }

  /** The `.json` files among the names listed in directory `root`, as
      paths. */
  function JsonFilesIn(root: string, names: seq<string>): (r: seq<string>)
    ensures forall k :: 0 <= k < |r| ==> EndsWith(r[k], ".json")
  {
    if |names| == 0 then []
    else if EndsWith(names[0], ".json") then
      JoinKeepsSuffix(root, names[0], ".json");
      [PathJoin(root, names[0])] + JsonFilesIn(root, names[1..])
    else JsonFilesIn(root, names[1..])
  }

  /** A path joined from a name ends with whatever the name ends with. */
  lemma JoinKeepsSuffix(root: string, name: string, suffix: string)
    requires EndsWith(name, suffix)
    ensures EndsWith(PathJoin(root, name), suffix)
  {
    var p := PathJoin(root, name);
    assert p[|p| - |name|..] == name;
    assert p[|p| - |suffix|..] == name[|name| - |suffix|..];
  }

  /** The files a stage visits, each with its dataset: the datasets in
      configuration order, skipping those without a directory under
      `root`, and the `.json` files under each. Processing a file only
      deletes files the walk has already listed, so the listing can be
      taken up front. */
  function Candidates(root: string, fs: Files, datasets: seq<string>): (r: seq<(string, string)>)
    ensures forall k :: 0 <= k < |r| ==> r[k].0 in datasets && EndsWith(r[k].1, ".json")
  {
    if |datasets| == 0 then []
    else
      var dir := PathJoin(root, datasets[0]);
      var here := if fs.isDir(dir) then Tagged(datasets[0], JsonFilesUnder(fs.walk(dir))) else [];
      here + Candidates(root, fs, datasets[1..])
  }

  function Tagged(dataset: string, files: seq<string>): (r: seq<(string, string)>)
    ensures |r| == |files|
    ensures forall k :: 0 <= k < |r| ==> r[k] == (dataset, files[k])
  {
    seq(|files|, k requires 0 <= k < |files| => (dataset, files[k]))
  }
}
